=== FILE: README.md ===
# becults-backend core in Dafny

This project models the request handlers of the becults learning platform's backend.

- **Cohorts**: listing, details, enrollment, and administration of a cohort's roadmap and videos.
- **Channels**: the discussion channel of each cohort, with auto-join, pagination, posting and moderation.
- **Accounts**: signup, login, the password-reset code lifecycle, Google and GitHub sign-in, and the two auth guards.
- **Admin dashboard**: its helpers and the admin invitation.
- **Bulk unmute**: the maintenance script that unmutes everybody.

Each handler becomes a pure function. It takes the documents its queries would find and returns a `Result`: either the response data with the documents it saves, or the HTTP status and message it answers with.

The collections are plain sequences or maps:

- users and cohorts are `seq`s keyed by id;
- channels are a `map` keyed by the unique `channelKey`;
- messages are an append-only log.

Things outside the code become parameters:

- the clock;
- password hashing (bcrypt);
- code hashing (SHA-256);
- JWT verification;
- Google token verification;
- the GitHub HTTP replies;
- the ids of new documents. A user id already in use is a duplicate key (500). A new cohort is appended whatever its id, and the cohort store stays well-formed when the id is fresh.

Files, one module each:

| file | module | models |
|---|---|---|
| common.dfy | `Common` | `Option`, `Result` |
| text.dfy | `Text` | `trim`, ASCII case mapping, `startsWith`, `indexOf`, first-occurrence `replace` |
| seqs.dfy | `Seqs` | lookup, removal and uniqueness by key over sequences |
| channel_model.dfy | `ChannelModel` | `models/Channel.js` |
| message_log.dfy | `MessageLog` | the message queries of the channel handlers |
| channel_controller.dfy | `ChannelController` | `controllers/channelController.js` |
| channel_properties.dfy | `ChannelProperties` | properties relating several channel handlers |
| unmute_all.dfy | `UnmuteAll` | `scripts/unmuteAllUsers.js` |
| cohort_model.dfy | `CohortModel` | `models/Cohort.js` |
| cohort_controller.dfy | `CohortController` | `controllers/cohortController.js` |
| admin_cohort_controller.dfy | `AdminCohortController` | `controllers/adminCohortController.js` |
| user_model.dfy | `UserModel` | `models/User.js` |
| auth_middleware.dfy | `AuthMiddleware` | `middleware/authMiddleware.js` |
| auth_controller.dfy | `AuthController` | `controllers/authController.js` |
| oauth_controller.dfy | `OAuthController` | `controllers/oauthController.js` |
| admin_controller.dfy | `AdminController` | `controllers/adminController.js` |

Two behaviours of the channel handlers are easy to misread:

- An admin whose member entry says `canChat: false` gets `canChat` set back to true when reading the channel. The entry's `mutedAt` is left as it was, not cleared (controllers/channelController.js:54-57).
- The 1000-character limit on a message applies to the text before trimming (controllers/channelController.js:162). The stored text is the trimmed one (controllers/channelController.js:209).

## Model

| member | source | states |
|---|---|---|
| ChannelModel.Lookup | models/Channel.js:24-30 | the key is found exactly when its trimmed form is filed, since the `trim` setter also applies to the query |
| ChannelModel.NewChannel | models/Channel.js:22-44 | creation succeeds exactly when the trimmed key, the cohort, the creator and every member's user are present; otherwise 500 |
| ChannelModel.StoreKeepsValid | models/Channel.js:36 | saving a channel that is valid with one entry per user keeps every stored channel filed under its own key and valid |
| MessageLog.Visible | controllers/channelController.js:114-117 | every selected message is a non-deleted one of the channel, and every such message of the log is selected |
| MessageLog.PageIsWindow | controllers/channelController.js:119-130 | a page is the chronological slice that ends `skip` messages before the newest and holds at most `limit` (no bound for 0) |
| MessageLog.VisibleConcat | controllers/channelController.js:114-117 | selecting from a concatenation selects from each part in turn, so the selection keeps the log order and each message as often as it occurs |
| MessageLog.VisibleOne | controllers/channelController.js:114-117 | a single message is selected exactly when it belongs to the channel and is not deleted |
| MessageLog.VisibleIsFilter | controllers/channelController.js:114-117 | the selection equals the front-to-back filter of the log on "this channel, not deleted", so it keeps log order and multiplicity |
| ChannelController.Admit | controllers/channelController.js:18-35 | 404 for a missing channel; otherwise passing exactly when the roster holds the user or the user is an admin |
| ChannelController.GetChannelInfo | controllers/channelController.js:37-59 | a non-member is appended once with `canChat` true; a member is kept and only an admin's `canChat` is repaired; `isMuted` is `!canChat`; an admin always gets `canChat` |
| ChannelController.GetChannelMessages | controllers/channelController.js:89-135 | after the gate, the page is the `limit` newest visible messages behind the `skip` newest, oldest first; `total` counts all visible messages; an absent `limit` is 50 and an absent `skip` is 0, so a request without `limit` gets at most 50 messages and reports `limit: 50` |
| ChannelController.AbsentQueryIsDefault | controllers/channelController.js:89 | a request without `limit` and `skip` gets the same answer as one with `limit` 50 and `skip` 0 |
| ChannelController.SendMessage | controllers/channelController.js:154-209 | 400 text checks come before the 404 lookup; non-admins without a chatting entry get 403 "muted"; an admin without an entry is appended; the trimmed text is stored |
| Text.TrimEmptyIff | controllers/channelController.js:155 | `text.trim().length === 0` holds exactly when every character of the text is white space |
| ChannelController.MuteUser | controllers/channelController.js:236-264 | 400, then 404 for the channel and for a non-member; the target's entry gets `canChat` false and `mutedAt` now; every other entry is unchanged |
| ChannelController.UnmuteUser | controllers/channelController.js:287-315 | 400, then 404 for the channel and for a non-member; the target's entry gets `canChat` true and `mutedAt` null; every other entry is unchanged |
| ChannelController.RemoveUserFromChannel | controllers/channelController.js:339-348 | every entry of the target is dropped and the rest kept in order; removing a non-member succeeds |
| ChannelController.AddUserToChannel | controllers/channelController.js:371-403 | 400 without a user, 400 without `cohortId` for a missing channel; on an existing channel the target is appended only when absent; a missing channel is created, with the target as its only member, exactly when the trimmed key and the creator are present |
| ChannelController.CreateChannel | controllers/channelController.js:426-459 | 400 without a cohort, 404 for an unknown one, 400 when `cohort-<id>` is taken; otherwise an empty channel is filed under that key, failing only without a creator |
| ChannelProperties.GateIsUniform | controllers/channelController.js:26-35 | info, listing and posting refuse with "not enrolled" exactly when the caller is neither enrolled nor an admin |
| ChannelProperties.SendFollowsWriteRule | controllers/channelController.js:190-204 | with one entry per user, posting succeeds exactly when the caller is an admin or has an entry with `canChat` |
| ChannelProperties.NonMemberIsMuted | controllers/channelController.js:190-197 | an enrolled non-admin without an entry is told they are muted |
| ChannelProperties.MuteRestrictsWritesOnly | controllers/channelController.js:104-135 | a muted enrolled user still lists messages but cannot post |
| ChannelProperties.InfoIsIdempotent | controllers/channelController.js:37-56 | reading the channel a second time changes nothing further |
| ChannelProperties.InfoKeepsInvariant | controllers/channelController.js:41-56 | reading keeps the channel valid with at most one entry per user |
| ChannelProperties.SendKeepsInvariant | controllers/channelController.js:199-203 | posting keeps the channel valid with at most one entry per user |
| ChannelProperties.MuteKeepsInvariant | controllers/channelController.js:261-264 | muting keeps the channel valid with at most one entry per user |
| ChannelProperties.UnmuteKeepsInvariant | controllers/channelController.js:312-315 | unmuting keeps the channel valid with at most one entry per user |
| ChannelProperties.RemoveKeepsInvariant | controllers/channelController.js:346-348 | removal always succeeds on a found channel and keeps it valid with at most one entry per user |
| ChannelProperties.AddKeepsDirectory | controllers/channelController.js:380-403 | adding, including creating the channel on the way, keeps every stored channel valid with at most one entry per user |
| ChannelProperties.CreateKeepsDirectory | controllers/channelController.js:442-459 | creation keeps every stored channel valid and adds exactly one channel |
| ChannelProperties.CreateIgnoresDescription | controllers/channelController.js:453-459 | the description given to `createChannel` does not affect what is stored |
| ChannelProperties.MuteThenUnmute | controllers/channelController.js:262-263 | mute then unmute leaves the target with `canChat` true and `mutedAt` null; an entry that was not muted is restored exactly |
| ChannelProperties.PageExample | controllers/channelController.js:114-130 | after A, B, C, D are posted, a page of two is C then D and the total is four |
| ChannelProperties.SentIsNewest | controllers/channelController.js:119-130 | after a message is sent, the sender's next first page succeeds, ends with that message, and counts one message more |
| ChannelProperties.ReadAfterAppend | controllers/channelController.js:114-130 | reading the first page right after a shown message is appended gives that message last and one more in the total |
| ChannelProperties.FirstPageEndsWithNewest | controllers/channelController.js:119-130 | with nothing skipped, the page of a non-empty list ends with its newest element |
| ChannelProperties.TextLengthBoundary | controllers/channelController.js:155-167 | 1000 characters pass and 1001 do not, even when trimming would shorten them; blank text is refused |
| UnmuteAll.UnmuteMembers | scripts/unmuteAllUsers.js:21-31 | the count is the number of muted entries; each is unmuted with `mutedAt` null; other entries, the length and the order are unchanged |
| UnmuteAll.UnmuteAllChannels | scripts/unmuteAllUsers.js:17-37 | afterwards no member of any channel is muted; only members change; a channel is saved exactly when its count is positive; the total is the sum of the counts |
| UnmuteAll.NothingLeftToUnmute | scripts/unmuteAllUsers.js:24-31 | a list in which everybody can chat has nothing to unmute |
| CohortModel.Save | models/Cohort.js:52-97 | a save succeeds exactly when all schema validators pass; otherwise 500 |
| CohortModel.AppendItemValid | models/Cohort.js:52-97 | a cohort with one more roadmap item is valid exactly when the cohort and the item are |
| CohortModel.AppendVideoValid | models/Cohort.js:52-97 | a cohort with one more video is valid exactly when the cohort and the video are |
| CohortModel.YouTubeScanIsPattern | models/Cohort.js:32-39 | the validator accepts a URL exactly when it starts with http(s)://, an optional www., one of the three paths and an 11-character key |
| CohortModel.FindCohort | controllers/cohortController.js:172-179 | the lookup succeeds exactly when a stored cohort has the id |
| CohortModel.ReplaceKeepsStore | controllers/cohortController.js:198-199 | saving a well-formed cohort keeps ids unique and every stored cohort well-formed |
| CohortController.GetAllCohorts | controllers/cohortController.js:8-18 | the result holds exactly the stored active cohorts whose category matches, with "" and "All" meaning any |
| CohortController.ListingCounts | controllers/cohortController.js:8-23 | each listed cohort occurs in the listing as many times as in the store and every other cohort not at all, so the reported `count` is the number of matching stored cohorts |
| CohortController.AllMeansUnfiltered | controllers/cohortController.js:10-15 | the category "All" lists the same cohorts as no category |
| CohortController.GetCohortDetails | controllers/cohortController.js:71-111 | 404 for a missing cohort, 403 for a user not on the roster (admins included); the count is the roster length |
| CohortController.EnrollThenDetails | controllers/cohortController.js:71-111 | a user who has just enrolled may see the details, and the count includes them |
| CohortController.UnenrollThenDetails | controllers/cohortController.js:71-111 | after unenrolling, the user is refused the details with 403 |
| CohortController.CreateCohort | controllers/cohortController.js:135-149 | 400 unless title, description and category are given; then creation succeeds exactly when the trimmed title has 3..100 characters, the description 10..500, the category is listed and there is a creator; the new cohort is active, with an empty roster and no content |
| CohortController.FreshIsValid | models/Cohort.js:52-97 | a newly built cohort validates exactly when its title, description, category and creator do and every embedded item and video does |
| CohortController.CreateKeepsStore | controllers/cohortController.js:142-149 | creation under a fresh id keeps the store well-formed |
| CohortController.Enroll | controllers/cohortController.js:175-202 | 404, then 400 for an inactive cohort, then 400 for an enrolled user; otherwise the user is appended once |
| CohortController.Unenroll | controllers/cohortController.js:231-250 | 404, then 400 for a user not enrolled; otherwise every occurrence of the user is gone and every other user stays as often as before, in the same order |
| CohortController.Leaving | controllers/cohortController.js:248-250 | filtering a user out of a roster removes every occurrence of that user, keeps every other user as often as before, and adds nobody |
| CohortController.EnrollThenUnenroll | controllers/cohortController.js:193-250 | enrolling and then unenrolling a user who was not enrolled restores the cohort |
| CohortController.RosterStaysUnique | controllers/cohortController.js:193-250 | enroll and unenroll keep each user on the roster at most once |
| CohortController.GetUserEnrolledCohorts | controllers/cohortController.js:277-280 | the result is exactly the active stored cohorts whose roster holds the user |
| CohortController.EnrolledCounts | controllers/cohortController.js:277-286 | each active cohort holding the user occurs as many times as in the store and every other cohort not at all, so the reported `count` is the number of such stored cohorts |
| CohortController.EnrolledAreListed | controllers/cohortController.js:10-15 | every cohort a user is enrolled in also appears in the unfiltered listing |
| AdminCohortController.CastItems | models/Cohort.js:4-8 | each embedded item keeps its fields, and its title goes through the `trim` setter |
| AdminCohortController.CreateCohort | controllers/adminCohortController.js:8-28 | 400 unless title, description and category are given; then creation succeeds exactly when the fields are valid and every given item and video is valid after its title is trimmed; the cohort is active, with an empty roster and the given content |
| AdminCohortController.CreateRoutesAgree | controllers/adminCohortController.js:17-26 | with no content given, the admin route creates the same cohort as the learner-side route |
| AdminCohortController.Apply | controllers/adminCohortController.js:111-116 | each field given in the patch is replaced and every other field is unchanged |
| AdminCohortController.UpdateCohort | controllers/adminCohortController.js:102-119 | 404 for a missing cohort; otherwise the patched cohort is saved exactly when it is valid |
| AdminCohortController.EmptyPatchIsIdentity | controllers/adminCohortController.js:102-119 | a request that provides no field saves a valid cohort unchanged |
| AdminCohortController.PatchIsIdempotent | controllers/adminCohortController.js:111-116 | applying the same patch twice is the same as applying it once |
| AdminCohortController.Toggle | controllers/adminCohortController.js:139-148 | 404 for a missing cohort; otherwise only `isActive` changes, and it is negated |
| AdminCohortController.ToggleTwice | controllers/adminCohortController.js:139-148 | toggling a valid cohort twice gives it back unchanged |
| AdminCohortController.AddRoadmapItem | controllers/adminCohortController.js:169-193 | 400 without title or description comes before the 404; then success exactly when the cohort and the new item are valid; the item is appended at the end, and an order of 0 becomes length + 1 |
| AdminCohortController.AddVideo | controllers/adminCohortController.js:243-268 | 400 without title or URL comes before the 404; then success exactly when the cohort is valid, the trimmed title is valid and the URL is a YouTube URL; the video is appended with a null duration when none is given and the same order default |
| AdminCohortController.DeleteRoadmapItem | controllers/adminCohortController.js:213-222 | 404 for a missing cohort; items with the id are gone and every other item stays as often as before, in the same order; a valid cohort always saves |
| AdminCohortController.DeleteMissingItemIsNoop | controllers/adminCohortController.js:222 | deleting an id that no item has leaves the cohort unchanged |
| AdminCohortController.DeleteVideo | controllers/adminCohortController.js:288-297 | 404 for a missing cohort; videos with the id are gone and every other video stays as often as before, in the same order; a valid cohort always saves |
| AdminCohortController.DeleteMissingVideoIsNoop | controllers/adminCohortController.js:297 | deleting an id that no video has leaves the cohort unchanged |
| AdminCohortController.AddThenDeleteVideo | controllers/adminCohortController.js:243-297 | for a valid title and YouTube URL the video is added, and deleting it by its fresh id restores the cohort |
| AdminCohortController.AddThenDeleteItem | controllers/adminCohortController.js:169-222 | for a valid title and description the item is added, and deleting it by its fresh id restores the cohort |
| AdminCohortController.DeleteCohort | controllers/adminCohortController.js:318-325 | 404 exactly when no cohort has the id; otherwise that cohort is gone and every other stays as often as before, in the same order |
| AdminCohortController.DeleteKeepsStore | controllers/adminCohortController.js:318-325 | deletion keeps the store well-formed |
| Seqs.RemoveKeyCounts | controllers/adminCohortController.js:222 | `filter` drops every element with the key and keeps every other one exactly as often as it occurred |
| UserModel.Shape | models/User.js:6-18 | a new user's name is trimmed and its address lower-cased; it has no password and no reset code |
| UserModel.PreSave | models/User.js:46-51 | the password is hashed only when it was modified and is non-empty; nothing else changes |
| UserModel.SavingKeepsHash | models/User.js:46-47 | a save that does not modify the password leaves the stored hash as it is |
| UserModel.SetThenMatch | models/User.js:46-55 | after a non-empty password is set and saved, checking the same password succeeds |
| UserModel.WithPassword | models/User.js:19-23 | a plain password of fewer than 6 characters fails validation with 500; otherwise its hash is stored |
| UserModel.FindByEmail | models/User.js:13-18 | the lookup finds a user exactly when some stored address equals the lower-cased query |
| UserModel.Persist | models/User.js:4-37 | a save succeeds exactly when the user is valid and clashes with no other user's address, Google id or GitHub id; afterwards the user is stored, every user with another id is kept, and nothing else is added |
| UserModel.Insert | models/User.js:4-37 | a creation succeeds exactly when the user is valid, its id is not in use and it clashes with no other user's address, Google id or GitHub id; otherwise 500; afterwards the user is appended and every stored user is kept in place |
| UserModel.InsertIsFreshPersist | models/User.js:4-37 | a creation is a save of a user whose id nobody holds, so it writes that user and keeps everyone else |
| UserModel.InsertKeepsUsers | models/User.js:13-30 | a creation keeps ids, addresses and provider ids unique and every user valid |
| UserModel.FindsUniqueAddress | models/User.js:13-18 | with unique addresses, the lookup finds exactly the user holding the lower-cased address |
| UserModel.PersistKeepsUsers | models/User.js:13-30 | saving keeps ids, addresses and provider ids unique and every user valid |
| UserModel.StoredUserFits | models/User.js:4-37 | a stored user changed only outside the indexed fields and the name is still valid and clashes with nobody |
| UserModel.FoundUserFits | models/User.js:13-37 | the same for the user an address finds |
| AuthMiddleware.ExtractToken | middleware/authMiddleware.js:8 | when "Bearer " occurs, the token is the header with its first occurrence cut out, wherever that occurrence is; a header starting with it yields the rest; a header without it is returned whole |
| AuthMiddleware.BearerHeader | middleware/authMiddleware.js:8 | "Bearer " followed by a token yields the token |
| AuthMiddleware.SchemeInsideHeader | middleware/authMiddleware.js:8 | "xBearer abc" yields "xabc", because the scheme is not stripped as a prefix |
| AuthMiddleware.Protect | middleware/authMiddleware.js:5-38 | every failure is 401; the request passes exactly when a token is present, verifies, and names a stored user |
| AuthMiddleware.AdminOnly | middleware/authMiddleware.js:42-58 | 401 without a user, 403 for a non-admin, otherwise the user passes |
| AuthMiddleware.GuardsAdmitAdminsOnly | middleware/authMiddleware.js:5-58 | the two guards together admit exactly the authenticated admins |
| AuthController.Signup | controllers/authController.js:20-48 | 400 for a missing field, 400 for differing passwords, 409 for a taken address; then success exactly when the password has 6 characters, the trimmed name 2..50 and the new id is not in use (a reused id is a duplicate key, 500); the new local non-admin user with the hash is appended and every stored user kept in place |
| AuthController.Login | controllers/authController.js:79-103 | 400 for a missing field; success exactly when a user with the address has a password whose hash matches |
| AuthController.LoginHidesWhichCheckFailed | controllers/authController.js:89-103 | an unknown address and a wrong password give the same response |
| AuthController.SignupThenLogin | controllers/authController.js:44-103 | after a signup, logging in with the same address and password succeeds |
| AuthController.ForgotPassword | controllers/authController.js:133-161 | 400, then 404 for an unknown address; in a well-formed store a found user always gets the code's digest, expiring ten minutes later; nothing else changes and every other user is kept |
| AuthController.VerifyOtp | controllers/authController.js:186-218 | success exactly when the user has an unexpired code whose digest matches; the user is returned unchanged |
| AuthController.CodeValidForTenMinutes | controllers/authController.js:150-218 | a freshly issued code verifies exactly until ten minutes after issue, and not after |
| AuthController.ResetPassword | controllers/authController.js:239-275 | 400 for missing fields, 400 for differing passwords, 404 for an unknown address, 400 for a missing or expired code; then success exactly when the new password has 6 characters; the new hash is stored, the code and its expiry cleared, and every other user kept |
| AuthController.ResetIsSingleUse | controllers/authController.js:262-275 | an immediate second reset fails as expired |
| AuthController.ResetIgnoresCodeValue | controllers/authController.js:252-268 | whether a reset succeeds does not depend on the stored code's value, only on its presence and expiry |
| AuthController.SwapKeepsLookup | controllers/authController.js:252 | replacing one user's stored code by another non-empty one does not change which user the address finds |
| AuthController.ClashesIgnoresToken | controllers/authController.js:270-275 | the reset code plays no part in the unique indexes |
| OAuthController.FindEither | controllers/oauthController.js:42-44 | the first user whose provider id or address matches is found; none matches when nothing is found |
| OAuthController.Link | controllers/oauthController.js:46-56 | the provider id and provider are set only when the id was absent; the picture only fills an empty image; nothing else changes |
| OAuthController.LinkTwice | controllers/oauthController.js:46-56 | linking the same account twice is the same as once, for any provider id |
| OAuthController.SignIn | controllers/oauthController.js:42-68 | a found user is linked and saved; otherwise creation succeeds exactly when the address is given, the trimmed name has 2..50 characters and the new id is not in use, and the new user is appended after every stored user; the signed-in user is stored and every other user kept; failures are 500 |
| OAuthController.NewAccount | controllers/oauthController.js:58-67 | the created account carries the profile through the setters; it is valid exactly when the address is given and the name fits, and clashes with nobody when no user matched |
| OAuthController.NoMatchNoClash | controllers/oauthController.js:42-67 | when no user matches the provider id or the address, an account with that address and provider id clashes with nobody |
| OAuthController.GoogleCallback | controllers/oauthController.js:21-68 | 400 without a credential, before verification; a failed verification is 500; otherwise the sign-in rule runs on the payload |
| OAuthController.ChooseGithubEmail | controllers/oauthController.js:151-173 | the public address comes first, then the first primary entry's, then the first entry's even when it is not primary; empty only when none of these has one |
| OAuthController.EmptyPrimaryFallsBack | controllers/oauthController.js:157-163 | a primary entry with an empty address falls back to the first entry |
| OAuthController.FirstNonEmpty | controllers/oauthController.js:151-173 | the result is a candidate, and empty exactly when every candidate is |
| OAuthController.ChooseIsFirstNonEmpty | controllers/oauthController.js:151-173 | the chosen address is the first non-empty of the public address, the primary entry's and the first entry's |
| OAuthController.GithubName | controllers/oauthController.js:176 | the display name is `name` when present, else `login` |
| OAuthController.GithubCallback | controllers/oauthController.js:107-261 | a failed exchange is 401, no address is 400, else the sign-in rule runs on GitHub's id, chosen address, name and avatar; the legacy body needs both id and address (400), then the sign-in rule runs on it |
| OAuthController.CodeAndLegacyAgree | controllers/oauthController.js:107-261 | the code path gives the same outcome as the legacy path called with the id, address, name and avatar GitHub reported |
| OAuthController.SignInKeepsUsers | controllers/oauthController.js:42-68 | a successful sign-in keeps the unique indexes and every user valid |
| OAuthController.LinkCanCollide | controllers/oauthController.js:42-56 | when the address matches an earlier user than the GitHub id does, linking duplicates the id and the save fails with 500 |
| AdminController.TotalEnrollments | controllers/adminController.js:26-34 | the total is the sum of the roster lengths of the ten newest cohorts |
| AdminController.EnrollmentCountsOnce | controllers/adminController.js:32-34 | one more user on one roster raises the total by exactly one |
| AdminController.SortByTime | controllers/adminController.js:64 | the result holds the same entries, newest first |
| AdminController.RecentActivity | controllers/adminController.js:27-65 | at most ten entries, newest first, and exactly the entries of the five newest cohorts and the five newest users |
| AdminController.FormatTimeAgo | controllers/adminController.js:68-79 | the unit is seconds below a minute, minutes below an hour, hours below a day, days below a week, else weeks; the amount is the whole number of units elapsed |
| AdminController.TimeAgoBrackets | controllers/adminController.js:68-79 | the amount counts whole units: `amount` units have passed and `amount + 1` have not |
| AdminController.EmailCheckIsPattern | controllers/adminController.js:128-134 | the split at the first '@' accepts exactly the addresses the regular expression matches |
| AdminController.LocalPart | controllers/adminController.js:154 | the text before the first '@', or the whole text without one |
| AdminController.BlankAll | controllers/adminController.js:154 | the first replacement turns exactly the characters outside [A-Za-z0-9] into spaces and keeps the others |
| AdminController.CapitaliseAll | controllers/adminController.js:154 | the second replacement upper-cases word-initial characters only: every character not at the start of a word is kept unchanged, spaces stay where they were, and no lower-case letter is left at the start of a word |
| AdminController.DeriveName | controllers/adminController.js:154 | same length as the local part; exactly the characters outside [A-Za-z0-9] become spaces; a letter or digit that follows another letter or digit is kept unchanged; word-initial letters are upper case |
| AdminController.DeriveNameExample | controllers/adminController.js:154 | the address "jo.DO@x" yields the name "Jo DO": the dot becomes a space, word-initial letters are upper-cased and the other letters keep their case |
| AdminController.InviteAdmin | controllers/adminController.js:120-163 | 400 for missing fields, a bad address, a short password and a taken address, in that order; then success exactly when the given or derived name has 2..50 characters after trimming and the new id is not in use; the new local admin is appended and every stored user kept in place |
| AdminController.CreateAdmin | controllers/adminController.js:156-162 | creation succeeds exactly when the password has 6 characters, the trimmed name 2..50, the address is given, nobody holds it and the id is not in use; a short name gives the schema's 500; the new local admin with the hash is appended and every stored user kept in place |
| AdminController.CreateAdminKeepsUsers | controllers/adminController.js:156-162 | creating an administrator keeps the unique indexes and every user valid |
| AdminController.InviteThenLogin | controllers/adminController.js:120-163 | after an invitation, logging in with its address and password succeeds and finds an administrator |
| AdminController.ShortLocalPartFails | controllers/adminController.js:154-163 | an address with a one-character local part and no name passes every 400 check, yet the derived name is too short and the request ends in a 500 with the schema's validation message |
| AdminController.ShortLocalPartExample | controllers/adminController.js:128-154 | "j@x.io" is such an address |

## Left out

- Socket.IO room handlers are left out. They are transport behaviour of the library, and the socket message event is never persisted.
- MongoDB I/O is reduced to sequences and maps, including `populate`, projections and `select: false`. Handlers are given the documents their queries find.
- Handlers are modelled one after another. Check-then-act races between concurrent requests, as in auto-join, enroll and channel creation, are not modelled.
- bcrypt, SHA-256, JWT verification and Google token verification are parameters. bcrypt is modelled as a deterministic hash, so salting is not modelled.
- The GitHub HTTP calls are a parameter that returns their replies.
- The reset code from `Math.random` is a parameter.
- The clock is a parameter in milliseconds.
- `parseInt` of a non-numeric `limit` or `skip` (NaN) is not modelled. A given value is a natural; an absent one takes its default.
- The mailer is left out. A mail failure never changes a response, which is what the model returns.
- Route wiring is left out. The admin guards on routes become the separate `AuthMiddleware` functions.
- The seed, admin-creation and configuration scripts are left out.
- `getAllCohortsForChannels`, `getCohortById`, `getAllCohortsAdmin`, `getCohortAdmin`, `getCurrentUser` and `oauthError` are left out. They are plain reads or fixed responses with no decision logic.
- The document counts of the admin dashboard are left out. They are plain `countDocuments` calls.
- The JWT returned by signup, login and the OAuth callbacks is left out. The model returns the user the token would be issued for.
- Ids are assumed to be well-formed ObjectIds. In the source a malformed id makes `findById` throw a CastError, which the handlers answer with 500 (controllers/cohortController.js:175 and 211-213, controllers/adminCohortController.js:102 and 126-127, controllers/channelController.js:434 and 466-467). `Channel.create` likewise fails with 500 for a malformed `cohortId` or member id. The model treats ids as opaque strings, so such requests get 404 or succeed instead.
- ChannelController.SendMessage: does not broadcast, because the REST handler does not.
- Lengths are counted in Unicode characters, while JavaScript counts UTF-16 code units. The two differ only outside the Basic Multilingual Plane.
- Case mapping (`toLowerCase`, `toUpperCase`, the `lowercase` setter) is modelled for ASCII letters only.
- AdminController.SortByTime: does not state the stability of `Array.prototype.sort`, although the insertion places equal timestamps in their original order.
- AdminController.FormatTimeAgo: returns the amount and the unit, not the rendered "N units ago" string.
- AdminCohortController.AddRoadmapItem: `order` is an integer. A non-numeric `order` from the request body is not modelled.
- OAuthController.GoogleCallback: assumes a verified payload always carries a `sub`.
- A member entry whose user no longer exists is not modelled. Population would leave `m.user` null and make `getChannelInfo` throw.
- Request-body fields are strings, with "" for an absent one. A JSON body that sends a number, an object or an array where a string is expected makes `trim` or `toLowerCase` throw (500); that is not modelled.
- Provider ids are "" when absent. The case of a query for `{ googleId: undefined }` matching users without one is not modelled.

=== FILE: admin_cohort_controller.dfy ===
/** The admin cohort handlers: creation with content, partial update, the
    active toggle, appending and deleting roadmap items and videos, and
    deleting a cohort. */
module AdminCohortController {
  import opened Common
  import opened Text
  import opened Seqs
  import opened CohortModel
  import CohortController

  const CohortNotFound := "Cohort not found"
  const ItemFieldsRequired := "Please provide title and description"
  const VideoFieldsRequired := "Please provide title and videoUrl"

  /** A roadmap item or video as the request supplies it goes through the
      `trim` setter of its title. */
  function CastItem(it: RoadmapItem): RoadmapItem {
    it.(title := Trim(it.title))
  }

  function CastVideo(v: Video): Video {
    v.(title := Trim(v.title))
  }

  function CastItems(items: seq<RoadmapItem>): (r: seq<RoadmapItem>)
    ensures |r| == |items|
    ensures forall i :: 0 <= i < |items| ==> r[i] == items[i].(title := Trim(items[i].title))
  {
    seq(|items|, i requires 0 <= i < |items| => CastItem(items[i]))
  }

  function CastVideos(videos: seq<Video>): (r: seq<Video>)
    ensures |r| == |videos|
    ensures forall i :: 0 <= i < |videos| ==> r[i] == videos[i].(title := Trim(videos[i].title))
  {
    seq(|videos|, i requires 0 <= i < |videos| => CastVideo(videos[i]))
  }

  /** The cast lists are valid exactly when each cast entry is. */
  lemma CastsValid(roadmap: seq<RoadmapItem>, videos: seq<Video>)
    ensures (forall i :: 0 <= i < |CastItems(roadmap)| ==> ValidRoadmapItem(CastItems(roadmap)[i]))
            <==> (forall i :: 0 <= i < |roadmap| ==> ValidRoadmapItem(CastItem(roadmap[i])))
    ensures (forall i :: 0 <= i < |CastVideos(videos)| ==> ValidVideo(CastVideos(videos)[i]))
            <==> (forall i :: 0 <= i < |videos| ==> ValidVideo(CastVideo(videos[i])))
  {
    var rm, vs := CastItems(roadmap), CastVideos(videos);
    forall i | 0 <= i < |roadmap| ensures rm[i] == CastItem(roadmap[i]) {
    }
    forall i | 0 <= i < |videos| ensures vs[i] == CastVideo(videos[i]) {
    }
  }

  /** `createCohort` on the admin route: as the learner-side one, but the
      request may carry a roadmap and videos (an absent one is `[]`). */
  function CreateCohort(store: seq<Cohort>, id: Id, title: string, description: string,
                        category: string, user: Id,
                        roadmap: seq<RoadmapItem>, videos: seq<Video>): (r: Result<seq<Cohort>>)
    ensures title == "" || description == "" || category == ""
            ==> r == Fail(400, CohortController.FieldsRequired)
    ensures title != "" && description != "" && category != "" ==>
      (r.Ok? <==>
        && CohortController.FieldsValid(title, description, category, user)
        && (forall i :: 0 <= i < |roadmap| ==> ValidRoadmapItem(CastItem(roadmap[i])))
        && (forall i :: 0 <= i < |videos| ==> ValidVideo(CastVideo(videos[i]))))
    ensures r.Fail? ==> r.status == 400 || r.status == 500
    ensures r.Ok? ==> exists c ::
      && r.value == store + [c]
      && c.id == id && c.title == Trim(title) && c.description == description
      && c.category == category && c.isActive && c.createdBy == user && c.enrolled == []
      && c.roadmap == CastItems(roadmap) && c.videos == CastVideos(videos)
      && ValidCohort(c)
  {
    if title == "" || description == "" || category == "" then Fail(400, CohortController.FieldsRequired)
    else
      var c := CohortController.Fresh(id, title, description, category, user,
                                      CastItems(roadmap), CastVideos(videos));
      CohortController.FreshIsValid(id, title, description, category, user,
                                    CastItems(roadmap), CastVideos(videos));
      CastsValid(roadmap, videos);
      match Save(c)
      case Fail(status, message) => Fail(status, message)
      case Ok(saved) => Ok(store + [saved])
  }

  /** Without content the admin route creates what the learner-side route
      creates. */
  lemma CreateRoutesAgree(store: seq<Cohort>, id: Id, title: string, description: string,
                          category: string, user: Id)
    ensures CreateCohort(store, id, title, description, category, user, [], [])
            == CohortController.CreateCohort(store, id, title, description, category, user)
  {
    assert CastItems([]) == [] && CastVideos([]) == [];
  }

  /** The request body of `updateCohort`: `None` for a field that is
      `undefined`. */
  datatype Patch = Patch(
    title: Option<string>,
    description: Option<string>,
    category: Option<string>,
    roadmap: Option<seq<RoadmapItem>>,
    videos: Option<seq<Video>>)

  /** The fields a patch assigns, through the setters. */
  function Apply(c: Cohort, p: Patch): (r: Cohort)
    ensures r.id == c.id && r.isActive == c.isActive && r.createdBy == c.createdBy
    ensures r.enrolled == c.enrolled
    ensures r.title == (if p.title.Some? then Trim(p.title.value) else c.title)
    ensures r.description == (if p.description.Some? then p.description.value else c.description)
    ensures r.category == (if p.category.Some? then p.category.value else c.category)
    ensures r.roadmap == (if p.roadmap.Some? then CastItems(p.roadmap.value) else c.roadmap)
    ensures r.videos == (if p.videos.Some? then CastVideos(p.videos.value) else c.videos)
  {
    var c1 := match p.title case Some(t) => c.(title := Trim(t)) case None => c;
    var c2 := match p.description case Some(d) => c1.(description := d) case None => c1;
    var c3 := match p.category case Some(k) => c2.(category := k) case None => c2;
    var c4 := match p.roadmap case Some(rm) => c3.(roadmap := CastItems(rm)) case None => c3;
    match p.videos case Some(vs) => c4.(videos := CastVideos(vs)) case None => c4
  }

  /** `updateCohort`: 404, then the provided fields are assigned and the
      document saved (500 when it no longer validates). */
  function UpdateCohort(found: Option<Cohort>, p: Patch): (r: Result<Cohort>)
    ensures found.None? ==> r == Fail(404, CohortNotFound)
    ensures found.Some? ==> (r.Ok? <==> ValidCohort(Apply(found.value, p)))
    ensures r.Fail? ==> r.status == 404 || r.status == 500
    ensures r.Ok? ==> r.value == Apply(found.value, p) && ValidCohort(r.value)
  {
    match found
    case None => Fail(404, CohortNotFound)
    case Some(c) => Save(Apply(c, p))
  }

  const NoChange := Patch(None, None, None, None, None)

  /** An empty patch leaves a valid cohort exactly as it was. */
  lemma EmptyPatchIsIdentity(c: Cohort)
    requires ValidCohort(c)
    ensures UpdateCohort(Some(c), NoChange) == Ok(c)
  {
  }

  /** Sending the same patch twice has the effect of sending it once: the
      setters are idempotent. */
  lemma PatchIsIdempotent(c: Cohort, p: Patch)
    ensures Apply(Apply(c, p), p) == Apply(c, p)
  {
    var once := Apply(c, p);
    if p.roadmap.Some? {
      var rm := p.roadmap.value;
      assert CastItems(rm) == CastItems(CastItems(rm)) by {
        forall i | 0 <= i < |rm| ensures CastItems(rm)[i] == CastItems(CastItems(rm))[i] {
          assert Trim(Trim(rm[i].title)) == Trim(rm[i].title);
        }
      }
    }
    if p.videos.Some? {
      var vs := p.videos.value;
      assert CastVideos(vs) == CastVideos(CastVideos(vs)) by {
        forall i | 0 <= i < |vs| ensures CastVideos(vs)[i] == CastVideos(CastVideos(vs))[i] {
          assert Trim(Trim(vs[i].title)) == Trim(vs[i].title);
        }
      }
    }
  }

  /** `toggleCohortStatus`: 404, then `isActive` is negated and saved. */
  function Toggle(found: Option<Cohort>): (r: Result<Cohort>)
    ensures found.None? ==> r == Fail(404, CohortNotFound)
    ensures r.Ok? <==> found.Some? && ValidCohort(found.value)
    ensures r.Ok? ==>
      r.value.isActive != found.value.isActive && r.value.(isActive := found.value.isActive) == found.value
  {
    match found
    case None => Fail(404, CohortNotFound)
    case Some(c) => Save(c.(isActive := !c.isActive))
  }

  /** Toggling twice restores the cohort. */
  lemma ToggleTwice(c: Cohort)
    requires ValidCohort(c)
    ensures Toggle(Some(c)).Ok?
    ensures Toggle(Some(Toggle(Some(c)).value)) == Ok(c)
  {
  }

  /** `order || length + 1`: a missing or zero order becomes one past the
      current length. */
  function DefaultOrder(order: int, length: nat): (r: int)
    ensures order != 0 ==> r == order
    ensures r != 0
  {
    if order != 0 then order else length + 1
  }

  /** `addRoadmapItem`: 400 unless title and description are both given
      (checked before the lookup), then 404, then the item is appended with
      the default order and the cohort saved. */
  function AddRoadmapItem(found: Option<Cohort>, itemId: Id, title: string,
                          description: string, order: int): (r: Result<Cohort>)
    ensures title == "" || description == "" ==> r == Fail(400, ItemFieldsRequired)
    ensures title != "" && description != "" && found.None? ==> r == Fail(404, CohortNotFound)
    ensures title != "" && description != "" && found.Some? ==>
      (r.Ok? <==>
        && ValidCohort(found.value)
        && ValidRoadmapItem(RoadmapItem(itemId, Trim(title), description,
                                        DefaultOrder(order, |found.value.roadmap|))))
    ensures r.Fail? ==> r.status in {400, 404, 500}
    ensures r.Ok? ==>
      var c := found.value;
      && r.value == c.(roadmap := r.value.roadmap)
      && |r.value.roadmap| == |c.roadmap| + 1
      && r.value.roadmap[..|c.roadmap|] == c.roadmap
      && r.value.roadmap[|c.roadmap|] == RoadmapItem(itemId, Trim(title), description,
           if order != 0 then order else |c.roadmap| + 1)
      && ValidRoadmapItem(r.value.roadmap[|c.roadmap|])
  {
    if title == "" || description == "" then Fail(400, ItemFieldsRequired)
    else match found
      case None => Fail(404, CohortNotFound)
      case Some(c) =>
        var item := RoadmapItem(itemId, Trim(title), description, DefaultOrder(order, |c.roadmap|));
        AppendItemValid(c, item);
        var r := Save(c.(roadmap := c.roadmap + [item]));
        assert r.Ok? ==> r.value.roadmap[|c.roadmap|] == item;
        r
  }

  /** `null` for a missing duration. */
  function DurationOf(duration: string): (r: Option<string>)
    ensures r.None? <==> duration == ""
    ensures r.Some? ==> r.value == duration
  {
    if duration == "" then None else Some(duration)
  }

  /** `addVideo`: 400 unless title and URL are both given (before the
      lookup), then 404, then the video is appended with the default order,
      `duration` null when missing, and the cohort saved; a URL that is not a
      YouTube URL fails validation (500). */
  function AddVideo(found: Option<Cohort>, videoId: Id, title: string, videoUrl: string,
                    duration: string, order: int): (r: Result<Cohort>)
    ensures title == "" || videoUrl == "" ==> r == Fail(400, VideoFieldsRequired)
    ensures title != "" && videoUrl != "" && found.None? ==> r == Fail(404, CohortNotFound)
    ensures r.Fail? ==> r.status in {400, 404, 500}
    ensures found.Some? && title != "" && videoUrl != "" ==>
      (r.Ok? <==> ValidCohort(found.value) && ValidItemTitle(Trim(title)) && IsYouTubeUrl(videoUrl))
    ensures r.Ok? ==>
      var c := found.value;
      && r.value == c.(videos := r.value.videos)
      && |r.value.videos| == |c.videos| + 1
      && r.value.videos[..|c.videos|] == c.videos
      && r.value.videos[|c.videos|] == Video(videoId, Trim(title), videoUrl,
           if duration == "" then None else Some(duration),
           if order != 0 then order else |c.videos| + 1)
      && MatchesYouTubePattern(videoUrl)
  {
    if title == "" || videoUrl == "" then Fail(400, VideoFieldsRequired)
    else match found
      case None => Fail(404, CohortNotFound)
      case Some(c) =>
        var video := Video(videoId, Trim(title), videoUrl, DurationOf(duration),
                           DefaultOrder(order, |c.videos|));
        AppendVideoValid(c, video);
        var r := Save(c.(videos := c.videos + [video]));
        assert r.Ok? ==> r.value.videos[|c.videos|] == video;
        YouTubeScanIsPattern(videoUrl);
        r
  }

  /** `deleteRoadmapItem`: 404 for an unknown cohort; otherwise the items
      with that id are filtered out (none is fine) and the cohort saved. */
  function DeleteRoadmapItem(found: Option<Cohort>, itemId: Id): (r: Result<Cohort>)
    ensures found.None? ==> r == Fail(404, CohortNotFound)
    ensures found.Some? && ValidCohort(found.value) ==> r.Ok?
    ensures r.Ok? ==>
      && ValidCohort(r.value)
      && r.value == found.value.(roadmap := r.value.roadmap)
      && !HasKey(r.value.roadmap, ItemIdOf, itemId)
      && (forall i :: 0 <= i < |found.value.roadmap| && found.value.roadmap[i].id != itemId
            ==> found.value.roadmap[i] in r.value.roadmap)
      && (forall i :: 0 <= i < |r.value.roadmap| ==> r.value.roadmap[i] in found.value.roadmap)
      && (forall x :: multiset(r.value.roadmap)[x]
                      == if x.id == itemId then 0 else multiset(found.value.roadmap)[x])
      && r.value.roadmap == RemoveKey(found.value.roadmap, ItemIdOf, itemId)
  {
    match found
    case None => Fail(404, CohortNotFound)
    case Some(c) =>
      var kept := RemoveKey(c.roadmap, ItemIdOf, itemId);
      RemoveKeyCounts(c.roadmap, ItemIdOf, itemId);
      assert ValidCohort(c) ==> ValidCohort(c.(roadmap := kept)) by {
        if ValidCohort(c) {
          forall i | 0 <= i < |kept| ensures ValidRoadmapItem(kept[i]) {
            var j :| 0 <= j < |c.roadmap| && c.roadmap[j] == kept[i];
          }
        }
      }
      Save(c.(roadmap := kept))
  }

  /** Deleting an id that no item has changes nothing. */
  lemma DeleteMissingItemIsNoop(c: Cohort, itemId: Id)
    requires ValidCohort(c) && !HasKey(c.roadmap, ItemIdOf, itemId)
    ensures DeleteRoadmapItem(Some(c), itemId) == Ok(c)
  {
    RemoveKeyAbsent(c.roadmap, ItemIdOf, itemId);
  }

  /** `deleteVideo`: as `deleteRoadmapItem`, on the videos. */
  function DeleteVideo(found: Option<Cohort>, videoId: Id): (r: Result<Cohort>)
    ensures found.None? ==> r == Fail(404, CohortNotFound)
    ensures found.Some? && ValidCohort(found.value) ==> r.Ok?
    ensures r.Ok? ==>
      && ValidCohort(r.value)
      && r.value == found.value.(videos := r.value.videos)
      && !HasKey(r.value.videos, VideoIdOf, videoId)
      && (forall i :: 0 <= i < |found.value.videos| && found.value.videos[i].id != videoId
            ==> found.value.videos[i] in r.value.videos)
      && (forall i :: 0 <= i < |r.value.videos| ==> r.value.videos[i] in found.value.videos)
      && (forall x :: multiset(r.value.videos)[x]
                      == if x.id == videoId then 0 else multiset(found.value.videos)[x])
      && r.value.videos == RemoveKey(found.value.videos, VideoIdOf, videoId)
  {
    match found
    case None => Fail(404, CohortNotFound)
    case Some(c) =>
      var kept := RemoveKey(c.videos, VideoIdOf, videoId);
      RemoveKeyCounts(c.videos, VideoIdOf, videoId);
      assert ValidCohort(c) ==> ValidCohort(c.(videos := kept)) by {
        if ValidCohort(c) {
          forall i | 0 <= i < |kept| ensures ValidVideo(kept[i]) {
            var j :| 0 <= j < |c.videos| && c.videos[j] == kept[i];
          }
        }
      }
      Save(c.(videos := kept))
  }

  lemma DeleteMissingVideoIsNoop(c: Cohort, videoId: Id)
    requires ValidCohort(c) && !HasKey(c.videos, VideoIdOf, videoId)
    ensures DeleteVideo(Some(c), videoId) == Ok(c)
  {
    RemoveKeyAbsent(c.videos, VideoIdOf, videoId);
  }

  /** Adding a video and deleting it by its fresh id restores the cohort. */
  lemma AddThenDeleteVideo(c: Cohort, videoId: Id, title: string, videoUrl: string,
                           duration: string, order: int)
    requires ValidCohort(c) && !HasKey(c.videos, VideoIdOf, videoId)
    requires videoUrl != "" && ValidItemTitle(Trim(title)) && IsYouTubeUrl(videoUrl)
    ensures AddVideo(Some(c), videoId, title, videoUrl, duration, order).Ok?
    ensures DeleteVideo(Some(AddVideo(Some(c), videoId, title, videoUrl, duration, order).value),
                        videoId) == Ok(c)
  {
    var added := AddVideo(Some(c), videoId, title, videoUrl, duration, order).value;
    var v := added.videos[|c.videos|];
    assert added.videos == c.videos + [v];
    RemoveAfterAppend(c.videos, VideoIdOf, v);
  }

  /** Adding a roadmap item and deleting it by its fresh id restores the
      cohort. */
  lemma AddThenDeleteItem(c: Cohort, itemId: Id, title: string, description: string, order: int)
    requires ValidCohort(c) && !HasKey(c.roadmap, ItemIdOf, itemId)
    requires description != "" && |description| <= MaxItemDescriptionLength && ValidItemTitle(Trim(title))
    ensures AddRoadmapItem(Some(c), itemId, title, description, order).Ok?
    ensures DeleteRoadmapItem(Some(AddRoadmapItem(Some(c), itemId, title, description, order).value),
                              itemId) == Ok(c)
  {
    assert title != "" by {
      assert Trim(title) != "";
    }
    var added := AddRoadmapItem(Some(c), itemId, title, description, order).value;
    var it := added.roadmap[|c.roadmap|];
    assert added.roadmap == c.roadmap + [it];
    RemoveAfterAppend(c.roadmap, ItemIdOf, it);
  }

  /** `deleteCohort`: 404 when no cohort has the id, otherwise it is gone
      and every other cohort stays. */
  function DeleteCohort(store: seq<Cohort>, id: Id): (r: Result<seq<Cohort>>)
    ensures r.Fail? <==> !HasKey(store, CohortIdOf, id)
    ensures r.Fail? ==> r == Fail(404, CohortNotFound)
    ensures r.Ok? ==>
      && !HasKey(r.value, CohortIdOf, id)
      && (forall i :: 0 <= i < |store| && store[i].id != id ==> store[i] in r.value)
      && (forall i :: 0 <= i < |r.value| ==> r.value[i] in store)
      && (forall x :: multiset(r.value)[x] == if x.id == id then 0 else multiset(store)[x])
      && r.value == RemoveKey(store, CohortIdOf, id)
  {
    RemoveKeyCounts(store, CohortIdOf, id);
    if !HasKey(store, CohortIdOf, id) then Fail(404, CohortNotFound)
    else Ok(RemoveKey(store, CohortIdOf, id))
  }

  /** Deletion keeps the collection well formed. */
  lemma DeleteKeepsStore(store: seq<Cohort>, id: Id)
    requires WellFormedStore(store)
    ensures DeleteCohort(store, id).Ok? ==> WellFormedStore(DeleteCohort(store, id).value)
  {
    RemoveKeyKeepsUnique(store, CohortIdOf, id);
    var kept := RemoveKey(store, CohortIdOf, id);
    forall i | 0 <= i < |kept| ensures WellFormed(kept[i]) {
      var j :| 0 <= j < |store| && store[j] == kept[i];
    }
  }
}

=== FILE: admin_controller.dfy ===
/** The admin dashboard helpers (enrollment total, recent-activity feed,
    relative times) and the admin invitation. The clock and password
    hashing are parameters. */
module AdminController {
  import opened Common
  import opened Text
  import opened CohortModel
  import opened Seqs
  import opened UserModel
  import AuthController

  // ---------------------------------------------------------------------
  // Enrollment total

  /** The first `n` elements (`.limit(n)`). */
  function Take<T>(s: seq<T>, n: nat): (r: seq<T>)
    ensures |r| <= n && |r| <= |s|
    ensures r == s[..|r|]
    ensures |s| <= n ==> r == s
  {
    if |s| <= n then s else s[..n]
  }

  /** The sum of the roster lengths. */
  function SumRosters(cohorts: seq<Cohort>): nat {
    if |cohorts| == 0 then 0
    else SumRosters(cohorts[..|cohorts| - 1]) + |cohorts[|cohorts| - 1].enrolled|
  }

  lemma {:induction false} SumRostersAppend(a: seq<Cohort>, b: seq<Cohort>)
    ensures SumRosters(a + b) == SumRosters(a) + SumRosters(b)
  {
    if |b| == 0 {
      assert a + b == a;
    } else {
      SumRostersAppend(a, b[..|b| - 1]);
      assert (a + b)[..|a + b| - 1] == a + b[..|b| - 1];
    }
  }

  /** `totalEnrollments`: the `reduce` over the ten newest cohorts (the
      query's `.limit(10)`), adding each roster's length. */
  method TotalEnrollments(newestFirst: seq<Cohort>) returns (total: nat)
    ensures total == SumRosters(Take(newestFirst, 10))
  {
    var fetched := Take(newestFirst, 10);
    total := 0;
    var i := 0;
    while i < |fetched|
      invariant 0 <= i <= |fetched|
      invariant total == SumRosters(fetched[..i])
    {
      assert fetched[..i + 1][..i] == fetched[..i];
      total := total + |fetched[i].enrolled|;
      i := i + 1;
    }
    assert fetched[..|fetched|] == fetched;
  }

  /** Each cohort adds its roster length, so a cohort with one more
      enrolled user raises the total by exactly one. */
  lemma EnrollmentCountsOnce(before: seq<Cohort>, k: nat, user: Id)
    requires k < |before|
    ensures var after := before[k := before[k].(enrolled := before[k].enrolled + [user])];
            SumRosters(after) == SumRosters(before) + 1
  {
    var after := before[k := before[k].(enrolled := before[k].enrolled + [user])];
    assert before == before[..k] + [before[k]] + before[k + 1..];
    assert after == before[..k] + [after[k]] + before[k + 1..];
    SumRostersAppend(before[..k] + [before[k]], before[k + 1..]);
    SumRostersAppend(before[..k] + [after[k]], before[k + 1..]);
    SumRostersAppend(before[..k], [before[k]]);
    SumRostersAppend(before[..k], [after[k]]);
    assert SumRosters([before[k]]) == |before[k].enrolled| by {
      assert [before[k]][..0] == [];
    }
    assert SumRosters([after[k]]) == |after[k].enrolled| by {
      assert [after[k]][..0] == [];
    }
  }

  // ---------------------------------------------------------------------
  // Recent activity

  /** The fields the dashboard queries select. */
  datatype CohortRow = CohortRow(title: string, isActive: bool, category: string,
                                 createdAt: int, creatorName: string)
  datatype UserRow = UserRow(fullName: string, createdAt: int)

  datatype ActivityKind = CohortActivity | UserActivity

  datatype Activity = Activity(kind: ActivityKind, action: string, title: string, description: string,
                               category: Option<string>, timestamp: int, createdBy: Option<string>)

  function CohortEntry(c: CohortRow): Activity {
    Activity(CohortActivity,
             if c.isActive then "created" else "created (upcoming)",
             c.title,
             "Cohort \"" + c.title + "\" was " + (if c.isActive then "created" else "created as upcoming"),
             Some(c.category), c.createdAt,
             Some(if c.creatorName != "" then c.creatorName else "Unknown"))
  }

  function UserEntry(u: UserRow): Activity {
    Activity(UserActivity, "registered", u.fullName,
             "New user \"" + u.fullName + "\" registered", None, u.createdAt, None)
  }

  function CohortEntries(cs: seq<CohortRow>): (r: seq<Activity>)
    ensures |r| == |cs|
    ensures forall i :: 0 <= i < |cs| ==> r[i] == CohortEntry(cs[i])
  {
    seq(|cs|, i requires 0 <= i < |cs| => CohortEntry(cs[i]))
  }

  function UserEntries(us: seq<UserRow>): (r: seq<Activity>)
    ensures |r| == |us|
    ensures forall i :: 0 <= i < |us| ==> r[i] == UserEntry(us[i])
  {
    seq(|us|, i requires 0 <= i < |us| => UserEntry(us[i]))
  }

  predicate NewestFirst(s: seq<Activity>) {
    forall i, j :: 0 <= i < j < |s| ==> s[i].timestamp >= s[j].timestamp
  }

  /** Places `x` before the first entry that is not newer than it. */
  function InsertByTime(x: Activity, s: seq<Activity>): (r: seq<Activity>)
    requires NewestFirst(s)
    ensures |r| == |s| + 1
    ensures r[0] == x || (|s| > 0 && r[0] == s[0])
    ensures NewestFirst(r)
    ensures multiset(r) == multiset(s) + multiset{x}
  {
    if |s| == 0 then [x]
    else if s[0].timestamp <= x.timestamp then
      assert s == [s[0]] + s[1..];
      [x] + s
    else
      var rest := InsertByTime(x, s[1..]);
      assert s == [s[0]] + s[1..];
      assert s[0].timestamp >= rest[0].timestamp;
      [s[0]] + rest
  }

  /** `sort((a, b) => b.timestamp - a.timestamp)`: newest first, same
      entries. */
  function SortByTime(s: seq<Activity>): (r: seq<Activity>)
    ensures NewestFirst(r)
    ensures multiset(r) == multiset(s)
    ensures |r| == |s|
  {
    if |s| == 0 then []
    else
      assert s == [s[0]] + s[1..];
      InsertByTime(s[0], SortByTime(s[1..]))
  }

  /** `recentActivity`: the five newest cohorts' and the five newest users'
      entries, merged newest first and cut to ten. */
  function RecentActivity(newestCohorts: seq<CohortRow>, newestUsers: seq<UserRow>): (r: seq<Activity>)
    ensures |r| <= 10
    ensures NewestFirst(r)
    ensures multiset(r) == multiset(CohortEntries(Take(newestCohorts, 5)) + UserEntries(Take(newestUsers, 5)))
  {
    var merged := CohortEntries(Take(newestCohorts, 5)) + UserEntries(Take(newestUsers, 5));
    Take(SortByTime(merged), 10)
  }

  // ---------------------------------------------------------------------
  // Relative times

  datatype TimeUnit = Seconds | Minutes | Hours | Days | Weeks

  /** The length of one unit in milliseconds. */
  function UnitMs(u: TimeUnit): nat {
    match u
    case Seconds => 1000
    case Minutes => 60 * 1000
    case Hours => 60 * 60 * 1000
    case Days => 24 * 60 * 60 * 1000
    case Weeks => 7 * 24 * 60 * 60 * 1000
  }

  /** "`amount` `unit` ago". */
  datatype TimeAgo = TimeAgo(amount: int, unit: TimeUnit)

  lemma MulMono(a: int, u: int, v: int)
    requires a >= 0 && u <= v
    ensures a * u <= a * v
  {
    assert a * v - a * u == a * (v - u);
  }

  /** Integer division rounding down, given quotient and remainder. */
  lemma FloorDivUnique(x: int, d: int, q: int, m: int)
    requires d > 0 && x == d * q + m && 0 <= m < d
    ensures x / d == q
  {
    var q', m' := x / d, x % d;
    assert x == d * q' + m' && 0 <= m' < d;
    if q' < q {
      MulMono(d, q' + 1, q);
    } else if q < q' {
      MulMono(d, q + 1, q');
    }
  }

  /** Rounding down twice is rounding down once by the product. */
  lemma NestedFloorDiv(x: int, a: int, b: int)
    requires a > 0 && b > 0
    ensures (x / a) / b == x / (a * b)
  {
    var q1, r1 := x / a, x % a;
    var q2, r2 := q1 / b, q1 % b;
    assert x == a * q1 + r1 && 0 <= r1 < a;
    assert q1 == b * q2 + r2 && 0 <= r2 < b;
    assert a * q1 == (a * b) * q2 + a * r2 by {
      assert a * (b * q2 + r2) == a * (b * q2) + a * r2;
      assert a * (b * q2) == (a * b) * q2;
    }
    MulMono(a, r2, b - 1);
    assert a * (b - 1) == a * b - a;
    FloorDivUnique(x, a * b, q2, a * r2 + r1);
  }

  /** `formatTimeAgo(date)` at time `now` (both in milliseconds): the whole
      number of seconds elapsed, moved up to minutes, hours, days and weeks
      while the count reaches the next unit. `Math.floor` rounds down, as
      `/` on a positive divisor does here. */
  function FormatTimeAgo(now: int, date: int): (r: TimeAgo)
    ensures r.amount == (now - date) / UnitMs(r.unit)
    ensures r.unit == Seconds <==> now - date < 60 * 1000
    ensures r.unit == Minutes <==> 60 * 1000 <= now - date < 60 * 60 * 1000
    ensures r.unit == Hours <==> 60 * 60 * 1000 <= now - date < 24 * 60 * 60 * 1000
    ensures r.unit == Days <==> 24 * 60 * 60 * 1000 <= now - date < 7 * 24 * 60 * 60 * 1000
    ensures r.unit == Weeks <==> 7 * 24 * 60 * 60 * 1000 <= now - date
  {
    var e := now - date;
    var seconds := e / 1000;
    var minutes := seconds / 60;
    var hours := minutes / 60;
    var days := hours / 24;
    NestedFloorDiv(e, 1000, 60);
    NestedFloorDiv(e, 60 * 1000, 60);
    NestedFloorDiv(e, 60 * 60 * 1000, 24);
    NestedFloorDiv(e, 24 * 60 * 60 * 1000, 7);
    if seconds < 60 then TimeAgo(seconds, Seconds)
    else if minutes < 60 then TimeAgo(minutes, Minutes)
    else if hours < 24 then TimeAgo(hours, Hours)
    else if days < 7 then TimeAgo(days, Days)
    else TimeAgo(days / 7, Weeks)
  }

  /** The amount brackets the elapsed time: `amount` whole units have
      passed, `amount + 1` have not. */
  lemma TimeAgoBrackets(now: int, date: int)
    ensures var r := FormatTimeAgo(now, date);
            UnitMs(r.unit) * r.amount <= now - date < UnitMs(r.unit) * (r.amount + 1)
  {
  }

  // ---------------------------------------------------------------------
  // Admin invitation

  const CredentialsRequired := "Please provide email and password"
  const InvalidEmail := "Please provide a valid email address"
  const PasswordTooShort := "Password must be at least 6 characters long"
  const EmailExists := "User with this email already exists"

  /** `[^\s@]+`: a non-empty run without white space or '@'. */
  predicate Atom(s: string) {
    |s| > 0 && forall i :: 0 <= i < |s| ==> s[i] != '@' && !IsSpace(s[i])
  }

  /** `^[^\s@]+@[^\s@]+\.[^\s@]+$`, spelled out with the positions of the
      '@' and of the dot the regular expression settles on. */
  predicate MatchesEmailPattern(s: string) {
    exists i, k :: 0 < i && i + 1 < k && k + 1 < |s| && s[i] == '@' && s[k] == '.'
      && Atom(s[..i]) && Atom(s[i + 1..k]) && Atom(s[k + 1..])
  }

  /** A dot with something on both sides of it. */
  predicate HasInnerDot(d: string) {
    exists k :: 0 < k < |d| - 1 && d[k] == '.'
  }

  /** `email.split('@')[0]`: the text before the first '@'. */
  function LocalPart(email: string): (r: string)
    ensures '@' !in r
    ensures r == email || (|r| < |email| && email[|r|] == '@' && r == email[..|r|])
  {
    if |email| == 0 then ""
    else if email[0] == '@' then ""
    else [email[0]] + LocalPart(email[1..])
  }

  /** The check as a split at the first '@': a non-empty local part, a
      domain with an inner dot, and no white space or further '@'. */
  predicate IsEmailAddress(s: string) {
    var n := |LocalPart(s)|;
    n < |s| && Atom(s[..n]) && Atom(s[n + 1..]) && HasInnerDot(s[n + 1..])
  }

  /** The local part ends at the first '@'. */
  lemma {:induction false} LocalPartEndsAtFirstAt(s: string, i: nat)
    requires i < |s| && s[i] == '@'
    requires forall j :: 0 <= j < i ==> s[j] != '@'
    ensures |LocalPart(s)| == i
  {
    if i > 0 {
      LocalPartEndsAtFirstAt(s[1..], i - 1);
    }
  }

  /** No '@' in an atom. */
  lemma AtomHasNoAt(s: string, n: nat)
    requires n <= |s| && Atom(s[..n])
    ensures forall j :: 0 <= j < n ==> s[j] != '@'
  {
    forall j | 0 <= j < n ensures s[j] != '@' {
      assert s[..n][j] == s[j];
    }
  }

  lemma PatternPassesCheck(s: string)
    requires MatchesEmailPattern(s)
    ensures IsEmailAddress(s)
  {
    var i, k :| 0 < i && i + 1 < k && k + 1 < |s| && s[i] == '@' && s[k] == '.'
      && Atom(s[..i]) && Atom(s[i + 1..k]) && Atom(s[k + 1..]);
    AtomHasNoAt(s, i);
    LocalPartEndsAtFirstAt(s, i);
    var mid := s[i + 1..k];
    var tail := s[k + 1..];
    var d := s[i + 1..];
    SliceAround(s, i + 1, k);
    AtomJoin(mid, s[k], tail);
    assert Atom(d) && HasInnerDot(d);
    var n := |LocalPart(s)|;
    assert n == i;
    assert n < |s| && Atom(s[..n]) && Atom(s[n + 1..]) && HasInnerDot(s[n + 1..]);
  }

  lemma SliceAround(s: string, lo: nat, k: nat)
    requires lo <= k < |s|
    ensures s[lo..] == s[lo..k] + [s[k]] + s[k + 1..]
  {
    assert s[lo..] == s[lo..k] + s[k..];
    assert s[k..] == [s[k]] + s[k + 1..];
  }

  /** Two atoms joined by a dot make an atom with an inner dot. */
  lemma AtomJoin(mid: string, c: char, tail: string)
    requires Atom(mid) && Atom(tail) && c == '.'
    ensures Atom(mid + [c] + tail) && HasInnerDot(mid + [c] + tail)
  {
    var d := mid + [c] + tail;
    assert d[|mid|] == '.';
    forall j | 0 <= j < |d| ensures d[j] != '@' && !IsSpace(d[j]) {
      if j < |mid| {
        assert d[j] == mid[j];
      } else if j > |mid| {
        assert d[j] == tail[j - |mid| - 1];
      }
    }
  }

  lemma CheckMatchesPattern(s: string)
    requires IsEmailAddress(s)
    ensures MatchesEmailPattern(s)
  {
    var i := |LocalPart(s)|;
    var d := s[i + 1..];
    var m :| 0 < m < |d| - 1 && d[m] == '.';
    var k := i + 1 + m;
    var mid := s[i + 1..k];
    var tail := s[k + 1..];
    assert mid == d[..m];
    assert tail == d[m + 1..];
    forall j | 0 <= j < |mid| ensures mid[j] != '@' && !IsSpace(mid[j]) {
      assert mid[j] == d[j];
    }
    forall j | 0 <= j < |tail| ensures tail[j] != '@' && !IsSpace(tail[j]) {
      assert tail[j] == d[m + 1 + j];
    }
    assert s[k] == d[m];
  }

  /** The split accepts exactly what the regular expression matches. */
  lemma EmailCheckIsPattern(s: string)
    ensures IsEmailAddress(s) <==> MatchesEmailPattern(s)
  {
    if MatchesEmailPattern(s) {
      PatternPassesCheck(s);
    }
    if IsEmailAddress(s) {
      CheckMatchesPattern(s);
    }
  }

  /** `.replace(/[^a-zA-Z0-9]/g, ' ')`. */
  function Blank(c: char): (r: char)
    ensures r == ' ' <==> !IsAsciiAlnum(c)
    ensures IsAsciiAlnum(c) ==> r == c
  {
    if IsAsciiAlnum(c) then c else ' '
  }

  /** The first replacement over a whole string: every character that is
      not an ASCII letter or digit becomes a space. */
  function BlankAll(s: string): (r: string)
    ensures |r| == |s|
    ensures forall i :: 0 <= i < |s| ==> (r[i] == ' ' <==> !IsAsciiAlnum(s[i]))
    ensures forall i :: 0 <= i < |s| && IsAsciiAlnum(s[i]) ==> r[i] == s[i]
  {
    seq(|s|, i requires 0 <= i < |s| => Blank(s[i]))
  }

  /** `.replace(/\b\w/g, l => l.toUpperCase())` on text that holds only
      letters, digits and spaces: a letter or digit at the start or after a
      space begins a word. */
  function Capitalise(s: string, i: nat): (r: char)
    requires i < |s|
    ensures r == ' ' <==> s[i] == ' '
    ensures LowerChar(r) == LowerChar(s[i])
    ensures i == 0 || s[i - 1] == ' ' ==> !('a' <= r <= 'z')
    ensures i > 0 && s[i - 1] != ' ' ==> r == s[i]
  {
    if i == 0 || s[i - 1] == ' ' then UpperChar(s[i]) else s[i]
  }

  /** The second replacement over a whole string. */
  function CapitaliseAll(s: string): (r: string)
    ensures |r| == |s|
    ensures forall i :: 0 <= i < |s| ==> (r[i] == ' ' <==> s[i] == ' ')
    ensures forall i :: 0 <= i < |s| ==> LowerChar(r[i]) == LowerChar(s[i])
    ensures forall i :: 0 <= i < |s| && (i == 0 || s[i - 1] == ' ') ==> !('a' <= r[i] <= 'z')
    ensures forall i :: 0 < i < |s| && s[i - 1] != ' ' ==> r[i] == s[i]
  {
    var r := seq(|s|, i requires 0 <= i < |s| => Capitalise(s, i));
    assert forall i :: 0 <= i < |s| ==> r[i] == Capitalise(s, i);
    r
  }

  /** The display name made from an address when none is given. */
  function DeriveName(email: string): (r: string)
    ensures |r| == |LocalPart(email)|
    ensures forall i :: 0 <= i < |r| ==> (r[i] == ' ' <==> !IsAsciiAlnum(LocalPart(email)[i]))
    ensures forall i :: 0 <= i < |r| && IsAsciiAlnum(LocalPart(email)[i]) ==>
      LowerChar(r[i]) == LowerChar(LocalPart(email)[i])
    ensures forall i :: 0 <= i < |r| && (i == 0 || r[i - 1] == ' ') ==> !('a' <= r[i] <= 'z')
    ensures forall i :: 0 < i < |r| && IsAsciiAlnum(LocalPart(email)[i - 1]) && IsAsciiAlnum(LocalPart(email)[i])
                        ==> r[i] == LocalPart(email)[i]
  {
    var lp := LocalPart(email);
    NameFromLocalPart(lp);
    CapitaliseAll(BlankAll(lp))
  }

  /** The two replacements composed, stated against the local part. */
  lemma NameFromLocalPart(lp: string)
    ensures var r := CapitaliseAll(BlankAll(lp));
      && |r| == |lp|
      && (forall i :: 0 <= i < |r| ==> (r[i] == ' ' <==> !IsAsciiAlnum(lp[i])))
      && (forall i :: 0 <= i < |r| && IsAsciiAlnum(lp[i]) ==> LowerChar(r[i]) == LowerChar(lp[i]))
      && (forall i :: 0 <= i < |r| && (i == 0 || r[i - 1] == ' ') ==> !('a' <= r[i] <= 'z'))
      && (forall i :: 0 < i < |r| && IsAsciiAlnum(lp[i - 1]) && IsAsciiAlnum(lp[i]) ==> r[i] == lp[i])
  {
    var blanked := BlankAll(lp);
    var r := CapitaliseAll(blanked);
    forall i | 0 < i < |r| && IsAsciiAlnum(lp[i - 1]) && IsAsciiAlnum(lp[i])
      ensures r[i] == lp[i]
    {
      assert blanked[i - 1] != ' ';
      assert blanked[i] == lp[i];
    }
    forall i | 0 <= i < |r| && (i == 0 || r[i - 1] == ' ')
      ensures !('a' <= r[i] <= 'z')
    {
      assert i == 0 || blanked[i - 1] == ' ';
    }
  }

  /** `inviteAdmin`: 400 without address or password, 400 for an address
      the regular expression rejects, 400 for a password under 6
      characters, 400 when the lower-cased address is taken; then an
      administrator with a local account and the given (else derived) name
      is created. A derived name that fails validation gives 500. */
  function InviteAdmin(store: seq<User>, id: Id, email: string, password: string, fullName: string,
                       hash: string -> string): (r: Result<seq<User>>)
    ensures email == "" || password == "" ==> r == Fail(400, CredentialsRequired)
    ensures email != "" && password != "" && !MatchesEmailPattern(email) ==> r == Fail(400, InvalidEmail)
    ensures email != "" && MatchesEmailPattern(email) && 0 < |password| < MinPasswordLength
            ==> r == Fail(400, PasswordTooShort)
    ensures MatchesEmailPattern(email) && |password| >= MinPasswordLength && FindByEmail(store, email).Some?
            ==> r == Fail(400, EmailExists)
    ensures (MatchesEmailPattern(email) && |password| >= MinPasswordLength && FindByEmail(store, email).None?)
            ==> (r.Ok? <==> MinNameLength <= |Trim(if fullName != "" then fullName else DeriveName(email))| <= MaxNameLength
                            && !HasKey(store, UserIdOf, id))
    ensures r.Fail? ==> r.status in {400, 500}
    ensures r.Ok? ==>
      && MatchesEmailPattern(email) && |password| >= MinPasswordLength
      && FindByEmail(store, email).None?
      && |r.value| == |store| + 1 && r.value[..|store|] == store
      && exists u ::
           && Written(store, r.value, u) && u.id == id && u.email == ToLower(email) && u.isAdmin
           && u.authProvider == Local && u.password == Some(hash(password))
           && u.fullName == Trim(if fullName != "" then fullName else DeriveName(email))
  {
    EmailCheckIsPattern(email);
    if email == "" || password == "" then Fail(400, CredentialsRequired)
    else if !IsEmailAddress(email) then Fail(400, InvalidEmail)
    else if |password| < MinPasswordLength then Fail(400, PasswordTooShort)
    else if FindByEmail(store, ToLower(email)).Some? then Fail(400, EmailExists)
    else CreateAdmin(store, id, email, password, if fullName != "" then fullName else DeriveName(email), hash)
  }

  /** `User.create` for the new administrator: the schema validates the
      trimmed name and the plain-text password, the hook hashes it, and the
      unique indexes, the `_id` among them, are checked; every failure is
      thrown and becomes 500. */
  function CreateAdmin(store: seq<User>, id: Id, email: string, password: string, name: string,
                       hash: string -> string): (r: Result<seq<User>>)
    ensures ValidPlainPassword(password) && |Trim(name)| < MinNameLength
            ==> r == Fail(500, "User validation failed")
    ensures !ValidPlainPassword(password) ==> r.Fail?
    ensures r.Ok? <==>
      && ValidPlainPassword(password) && MinNameLength <= |Trim(name)| <= MaxNameLength && email != ""
      && !HasKey(store, UserIdOf, id)
      && forall i :: 0 <= i < |store| ==> store[i].email != ToLower(email)
    ensures r.Fail? ==> r.status == 500
    ensures r.Ok? ==>
      && |r.value| == |store| + 1 && r.value[..|store|] == store
      && var u := r.value[|store|];
         && u.id == id && u.email == ToLower(email) && u.isAdmin
         && u.authProvider == Local && u.password == Some(hash(password)) && u.fullName == Trim(name)
    ensures r.Ok? ==>
      exists u ::
        && Written(store, r.value, u) && u.id == id && u.email == ToLower(email) && u.isAdmin
        && u.authProvider == Local && u.password == Some(hash(password))
        && u.fullName == Trim(name)
  {
    match WithPassword(Shape(id, name, email, Local, "", "", "", true), password, hash)
    case Fail(status, message) => Fail(status, message)
    case Ok(u) =>
      assert ToLower(email) == [] <==> email == [];
      InsertIsFreshPersist(store, u);
      var p := Insert(store, u);
      if p.Fail? then Fail(p.status, p.message) else Ok(p.value)
  }

  /** Creating an administrator keeps the unique indexes and every user
      valid. */
  lemma CreateAdminKeepsUsers(store: seq<User>, id: Id, email: string, password: string, name: string,
                              hash: string -> string)
    requires WellFormedUsers(store) && id != ""
    ensures var r := CreateAdmin(store, id, email, password, name, hash);
            r.Ok? ==> WellFormedUsers(r.value)
  {
    var u := PreSave(Shape(id, name, email, Local, "", "", "", true).(password := Some(password)), true, hash);
    if CreateAdmin(store, id, email, password, name, hash).Ok? {
      assert CreateAdmin(store, id, email, password, name, hash) == Insert(store, u);
      InsertKeepsUsers(store, u);
    }
  }

  /** An invited administrator can log in with the address and password of
      the invitation, and the account found is an administrator. */
  lemma InviteThenLogin(store: seq<User>, id: Id, email: string, password: string, fullName: string,
                        hash: string -> string)
    requires WellFormedUsers(store) && id != ""
    requires InviteAdmin(store, id, email, password, fullName, hash).Ok?
    ensures var s := InviteAdmin(store, id, email, password, fullName, hash).value;
            && AuthController.Login(s, email, password, hash).Ok?
            && AuthController.Login(s, email, password, hash).value.isAdmin
  {
    var name := if fullName != "" then fullName else DeriveName(email);
    var s := InviteAdmin(store, id, email, password, fullName, hash).value;
    EmailCheckIsPattern(email);
    assert email != "" && password != "" && IsEmailAddress(email) && |password| >= MinPasswordLength;
    assert FindByEmail(store, ToLower(email)).None? by {
      assert ToLower(ToLower(email)) == ToLower(email);
    }
    assert s == CreateAdmin(store, id, email, password, name, hash).value;
    CreateAdminKeepsUsers(store, id, email, password, name, hash);
    FindsUniqueAddress(s, |store|, email);
  }

  /** A one-character local part passes every check of the handler, but
      the name derived from it is shorter than the schema allows, so the
      invitation ends in a 500 instead of creating the administrator. */
  lemma ShortLocalPartFails(store: seq<User>, id: Id, email: string, password: string,
                            hash: string -> string)
    requires IsEmailAddress(email) && |LocalPart(email)| < MinNameLength
    requires |password| >= MinPasswordLength && FindByEmail(store, email).None?
    ensures InviteAdmin(store, id, email, password, "", hash) == Fail(500, "User validation failed")
  {
    assert |Trim(DeriveName(email))| < MinNameLength;
    assert FindByEmail(store, ToLower(email)).None? by {
      assert ToLower(ToLower(email)) == ToLower(email);
    }
    assert email != "" && password != "";
  }

  /** Such an address exists: "j@x.io". */
  lemma ShortLocalPartExample()
    ensures IsEmailAddress("j@x.io") && |LocalPart("j@x.io")| < MinNameLength
  {
    var s := "j@x.io";
    assert LocalPart(s) == "j" by {
      assert LocalPart("@x.io") == "";
    }
    assert s[2..] == "x.io";
    assert "x.io"[1] == '.';
  }

  /** The derived name of "jo.DO@x" is "Jo DO": the separator becomes a
      space, each word's first letter is upper-cased, and the other letters
      keep their case. */
  lemma DeriveNameExample()
    ensures DeriveName("jo.DO@x") == "Jo DO"
  {
    ExampleLocalPart();
    ExampleBlanked();
    ExampleCapitalised();
  }

  lemma ExampleLocalPart()
    ensures LocalPart("jo.DO@x") == "jo.DO"
  {
    assert LocalPart("@x") == "";
    assert LocalPart("O@x") == "O";
    assert LocalPart("DO@x") == "DO";
    assert LocalPart(".DO@x") == ".DO";
    assert LocalPart("o.DO@x") == "o.DO";
  }

  lemma ExampleBlanked()
    ensures BlankAll("jo.DO") == "jo DO"
  {
    var b := BlankAll("jo.DO");
    assert b[2] == ' ';
  }

  lemma ExampleCapitalised()
    ensures CapitaliseAll("jo DO") == "Jo DO"
  {
    var r := CapitaliseAll("jo DO");
    assert LowerChar(r[0]) == 'j' && LowerChar(r[3]) == 'd';
    assert r[1] == 'o' && r[4] == 'O';
  }
}

=== FILE: auth_controller.dfy ===
/** Local accounts: signup, login, and the password-reset lifecycle
    (request a code, check it, set a new password). Hashing, the code
    generator and the clock are parameters. */
module AuthController {
  import opened Common
  import opened Text
  import opened Seqs
  import opened UserModel

  const AllFieldsRequired := "Please provide all required fields"
  const PasswordsDiffer := "Passwords do not match"
  const EmailTaken := "Email already registered"
  const CredentialsRequired := "Please provide email and password"
  const InvalidCredentials := "Invalid credentials"
  const EmailRequired := "Please provide an email address"
  const OtpFieldsRequired := "Please provide email and OTP"
  const UserNotFound := "User not found"
  const CodeExpired := "Reset code has expired"
  const InvalidOtp := "Invalid OTP"
  const NoPassword := "data and hash arguments required"

  /** How long a reset code stays valid: ten minutes, in milliseconds. */
  const ResetWindow := 10 * 60 * 1000

  /** `signup`: 400 unless all four fields are given, 400 when the two
      passwords differ, 409 when the address is registered; then a local
      account is inserted (a too-short name or password fails validation,
      and an id already in use is a duplicate key, both 500) with the
      password stored hashed. */
  function Signup(store: seq<User>, id: Id, fullName: string, email: string, password: string,
                  confirmPassword: string, hash: string -> string): (r: Result<seq<User>>)
    ensures fullName == "" || email == "" || password == "" || confirmPassword == ""
            ==> r == Fail(400, AllFieldsRequired)
    ensures (fullName != "" && email != "" && password != "" && confirmPassword != ""
             && password != confirmPassword) ==> r == Fail(400, PasswordsDiffer)
    ensures (fullName != "" && email != "" && password != "" && password == confirmPassword
             && FindByEmail(store, email).Some?) ==> r == Fail(409, EmailTaken)
    ensures r.Fail? ==> r.status in {400, 409, 500}
    ensures (fullName != "" && email != "" && password != "" && password == confirmPassword
             && FindByEmail(store, email).None?)
            ==> (r.Ok? <==> ValidPlainPassword(password)
                            && MinNameLength <= |Trim(fullName)| <= MaxNameLength
                            && !HasKey(store, UserIdOf, id))
    ensures r.Ok? ==> FindByEmail(store, email).None? && ValidPlainPassword(password)
    ensures r.Ok? ==> |r.value| == |store| + 1 && r.value[..|store|] == store && r.value[|store|].id == id
    ensures r.Ok? ==> exists u ::
      && Written(store, r.value, u) && u.id == id
      && u.fullName == Trim(fullName) && u.email == ToLower(email)
      && u.password == Some(hash(password)) && u.authProvider == Local && !u.isAdmin
  {
    if fullName == "" || email == "" || password == "" || confirmPassword == "" then
      Fail(400, AllFieldsRequired)
    else if password != confirmPassword then Fail(400, PasswordsDiffer)
    else if FindByEmail(store, email).Some? then Fail(409, EmailTaken)
    else
      var shaped := Shape(id, fullName, email, Local, "", "", "", false);
      assert !Clashes(store, shaped.(password := Some(hash(password))));
      match WithPassword(shaped, password, hash)
      case Fail(status, message) => Fail(status, message)
      case Ok(u) =>
        InsertIsFreshPersist(store, u);
        var r := Insert(store, u);
        if r.Fail? then Fail(r.status, r.message) else Ok(r.value)
  }

  /** `login`: 400 unless both fields are given, the same 401 for an
      unknown address and for a wrong password, and 500 for an account that
      has no password at all (the comparison throws). */
  function Login(store: seq<User>, email: string, password: string, hash: string -> string): (r: Result<User>)
    ensures email == "" || password == "" ==> r == Fail(400, CredentialsRequired)
    ensures r.Fail? ==> r.status in {400, 401, 500}
    ensures r.Ok? <==> email != "" && password != "" && FindByEmail(store, email).Some?
                       && FindByEmail(store, email).value.password.Some?
                       && MatchPassword(FindByEmail(store, email).value.password.value, password, hash)
    ensures r.Ok? ==> r.value in store && r.value.email == ToLower(email)
  {
    if email == "" || password == "" then Fail(400, CredentialsRequired)
    else match FindByEmail(store, email)
      case None => Fail(401, InvalidCredentials)
      case Some(u) =>
        match u.password
        case None => Fail(500, NoPassword)
        case Some(stored) =>
          if !MatchPassword(stored, password, hash) then Fail(401, InvalidCredentials)
          else Ok(u)
  }

  /** A caller cannot tell an unknown address from a wrong password. */
  lemma LoginHidesWhichCheckFailed(store: seq<User>, known: string, unknown: string,
                                   password: string, hash: string -> string)
    requires known != "" && unknown != "" && password != ""
    requires FindByEmail(store, unknown).None?
    requires FindByEmail(store, known).Some? && FindByEmail(store, known).value.password.Some?
    requires !MatchPassword(FindByEmail(store, known).value.password.value, password, hash)
    ensures Login(store, unknown, password, hash) == Login(store, known, password, hash)
  {
  }

  /** Signing up and then logging in with the same address and password
      succeeds. */
  lemma SignupThenLogin(store: seq<User>, id: Id, fullName: string, email: string, password: string,
                        hash: string -> string)
    requires WellFormedUsers(store) && id != ""
    requires Signup(store, id, fullName, email, password, password, hash).Ok?
    ensures Login(Signup(store, id, fullName, email, password, password, hash).value, email, password, hash).Ok?
  {
    var s := Signup(store, id, fullName, email, password, password, hash).value;
    var u := PreSave(Shape(id, fullName, email, Local, "", "", "", false).(password := Some(password)), true, hash);
    assert Insert(store, u).Ok? && s == Insert(store, u).value;
    InsertKeepsUsers(store, u);
    var f := FindByEmail(s, email);
    assert u in s;
    assert f.Some?;
    assert f.value == u by {
      var i :| 0 <= i < |s| && s[i] == u;
      var j :| 0 <= j < |s| && s[j] == f.value;
      assert s[i].email == s[j].email;
    }
  }

  /** A stored reset code is still usable at time `now`: there is one and
      its expiry is not before `now`. A missing expiry compares as not
      before anything, so a code without one never expires. */
  predicate CodeUsable(u: User, now: int) {
    u.resetToken != "" && !(u.resetTokenExpires.Some? && u.resetTokenExpires.value < now)
  }

  /** `forgotPassword`: 400 without an address, 404 for an unknown one;
      otherwise the digest of the generated `code` is stored with an expiry
      ten minutes from `now`, nothing else changes, and the code is returned. */
  function ForgotPassword(store: seq<User>, email: string, code: string, now: int,
                          digest: string -> string): (r: Result<(seq<User>, User)>)
    ensures email == "" ==> r == Fail(400, EmailRequired)
    ensures email != "" && FindByEmail(store, email).None? ==> r == Fail(404, UserNotFound)
    ensures r.Fail? ==> r.status in {400, 404, 500}
    ensures WellFormedUsers(store) && email != "" && FindByEmail(store, email).Some? ==> r.Ok?
    ensures r.Ok? ==>
      var u := FindByEmail(store, email).value;
      && r.value.1 == u.(resetToken := digest(code), resetTokenExpires := Some(now + ResetWindow))
      && Written(store, r.value.0, r.value.1)
  {
    if email == "" then Fail(400, EmailRequired)
    else match FindByEmail(store, email)
      case None => Fail(404, UserNotFound)
      case Some(u) =>
        var updated := u.(resetToken := digest(code), resetTokenExpires := Some(now + ResetWindow));
        assert WellFormedUsers(store) ==> ValidUser(updated) && !Clashes(store, updated) by {
          if WellFormedUsers(store) {
            FoundUserFits(store, email, updated);
          }
        }
        var p := Persist(store, updated);
        if p.Fail? then Fail(p.status, p.message) else Ok((p.value, updated))
  }

  /** `verifyOtp`: 400 unless both fields are given, 404 for an unknown
      address, 400 when there is no usable code, 400 when the digest of
      `otp` differs from the stored one. Nothing is written. */
  function VerifyOtp(store: seq<User>, email: string, otp: string, now: int,
                     digest: string -> string): (r: Result<User>)
    ensures email == "" || otp == "" ==> r == Fail(400, OtpFieldsRequired)
    ensures r.Fail? ==> r.status in {400, 404}
    ensures r.Ok? <==> email != "" && otp != "" && FindByEmail(store, email).Some?
                       && CodeUsable(FindByEmail(store, email).value, now)
                       && FindByEmail(store, email).value.resetToken == digest(otp)
    ensures r.Ok? ==> r.value == FindByEmail(store, email).value
  {
    if email == "" || otp == "" then Fail(400, OtpFieldsRequired)
    else match FindByEmail(store, email)
      case None => Fail(404, UserNotFound)
      case Some(u) =>
        if !CodeUsable(u, now) then Fail(400, CodeExpired)
        else if u.resetToken != digest(otp) then Fail(400, InvalidOtp)
        else Ok(u)
  }

  /** A code just requested is accepted exactly until ten minutes have passed. */
  lemma CodeValidForTenMinutes(store: seq<User>, email: string, code: string, now: int, later: int,
                               digest: string -> string)
    requires WellFormedUsers(store) && code != ""
    requires ForgotPassword(store, email, code, now, digest).Ok?
    ensures var s := ForgotPassword(store, email, code, now, digest).value.0;
            VerifyOtp(s, email, code, later, digest).Ok? <==> later <= now + ResetWindow && digest(code) != ""
  {
    var (s, updated) := ForgotPassword(store, email, code, now, digest).value;
    var u := FindByEmail(store, email).value;
    assert Persist(store, updated).Ok? && s == Persist(store, updated).value;
    PersistKeepsUsers(store, updated);
    assert updated in s;
    var f := FindByEmail(s, email);
    assert f.Some? && f.value == updated by {
      var i :| 0 <= i < |s| && s[i] == updated;
      assert updated.email == ToLower(email);
      assert FindByEmail(s, email).Some?;
      var j :| 0 <= j < |s| && s[j] == FindByEmail(s, email).value;
      assert s[i].email == s[j].email;
    }
  }

  /** `resetPassword`: 400 unless all three fields are given, 400 when the
      passwords differ, 404 for an unknown address, 400 when there is no
      usable code; then the password is replaced (hashed; a too-short one
      fails validation, 500) and the code and its expiry are cleared. The
      code itself is never asked for. */
  function ResetPassword(store: seq<User>, email: string, newPassword: string, confirmPassword: string,
                         now: int, hash: string -> string): (r: Result<seq<User>>)
    ensures email == "" || newPassword == "" || confirmPassword == "" ==> r == Fail(400, AllFieldsRequired)
    ensures email != "" && newPassword != "" && confirmPassword != "" && newPassword != confirmPassword
            ==> r == Fail(400, PasswordsDiffer)
    ensures (email != "" && newPassword != "" && newPassword == confirmPassword
             && FindByEmail(store, email).None?) ==> r == Fail(404, UserNotFound)
    ensures (email != "" && newPassword != "" && newPassword == confirmPassword
             && FindByEmail(store, email).Some? && !CodeUsable(FindByEmail(store, email).value, now))
            ==> r == Fail(400, CodeExpired)
    ensures (WellFormedUsers(store) && email != "" && newPassword != "" && newPassword == confirmPassword
             && FindByEmail(store, email).Some? && CodeUsable(FindByEmail(store, email).value, now))
            ==> (r.Ok? <==> ValidPlainPassword(newPassword))
    ensures r.Fail? ==> r.status in {400, 404, 500}
    ensures r.Ok? ==> FindByEmail(store, email).Some? && CodeUsable(FindByEmail(store, email).value, now)
    ensures r.Ok? ==>
      var u := FindByEmail(store, email).value;
      Written(store, r.value,
              u.(password := Some(hash(newPassword)), resetToken := "", resetTokenExpires := None))
  {
    if email == "" || newPassword == "" || confirmPassword == "" then Fail(400, AllFieldsRequired)
    else if newPassword != confirmPassword then Fail(400, PasswordsDiffer)
    else match FindByEmail(store, email)
      case None => Fail(404, UserNotFound)
      case Some(u) =>
        if !CodeUsable(u, now) then Fail(400, CodeExpired)
        else
          var cleared := u.(resetToken := "", resetTokenExpires := None);
          assert WellFormedUsers(store) ==>
                   ValidUser(cleared.(password := Some(hash(newPassword))))
                   && !Clashes(store, cleared.(password := Some(hash(newPassword)))) by {
            if WellFormedUsers(store) {
              FoundUserFits(store, email, cleared.(password := Some(hash(newPassword))));
            }
          }
          match WithPassword(cleared, newPassword, hash)
          case Fail(status, message) => Fail(status, message)
          case Ok(updated) =>
            var p := Persist(store, updated);
            if p.Fail? then Fail(p.status, p.message) else Ok(p.value)
  }

  /** A completed reset uses up the code: repeating it at once fails as
      expired. */
  lemma ResetIsSingleUse(store: seq<User>, email: string, newPassword: string, now: int,
                         hash: string -> string)
    requires WellFormedUsers(store)
    requires ResetPassword(store, email, newPassword, newPassword, now, hash).Ok?
    ensures var s := ResetPassword(store, email, newPassword, newPassword, now, hash).value;
            ResetPassword(s, email, newPassword, newPassword, now, hash) == Fail(400, CodeExpired)
  {
    var u := FindByEmail(store, email).value;
    var updated := u.(resetToken := "", resetTokenExpires := None).(password := Some(hash(newPassword)));
    var s := ResetPassword(store, email, newPassword, newPassword, now, hash).value;
    assert Persist(store, updated).Ok? && s == Persist(store, updated).value;
    PersistKeepsUsers(store, updated);
    var f := FindByEmail(s, email);
    assert f.Some? && f.value == updated by {
      assert updated in s;
      var i :| 0 <= i < |s| && s[i] == updated;
      assert FindByEmail(s, email).Some?;
      var j :| 0 <= j < |s| && s[j] == FindByEmail(s, email).value;
      assert s[i].email == s[j].email;
    }
  }

  /** The reset does not depend on which code is stored, only on whether
      there is a usable one. */
  lemma ResetIgnoresCodeValue(store: seq<User>, i: nat, other: string, email: string,
                              newPassword: string, confirmPassword: string, now: int, hash: string -> string)
    requires i < |store| && store[i].resetToken != "" && other != ""
    ensures var swapped := store[i := store[i].(resetToken := other)];
            ResetPassword(swapped, email, newPassword, confirmPassword, now, hash).Ok?
            == ResetPassword(store, email, newPassword, confirmPassword, now, hash).Ok?
  {
    var swapped := store[i := store[i].(resetToken := other)];
    SwapKeepsLookup(store, i, other, email);
    if FindByEmail(store, email).Some? && FindByEmail(swapped, email).Some? {
      var u, w := FindByEmail(store, email).value, FindByEmail(swapped, email).value;
      var cleared := u.(resetToken := "", resetTokenExpires := None);
      assert w.(resetToken := "", resetTokenExpires := None) == cleared;
      ClashesIgnoresToken(store, i, other, cleared.(password := Some(hash(newPassword))));
    }
  }

  /** Replacing a stored code by another non-empty one does not change which
      user an address finds, apart from that code. */
  lemma {:induction false} SwapKeepsLookup(store: seq<User>, i: nat, other: string, email: string)
    requires i < |store| && store[i].resetToken != "" && other != ""
    ensures var swapped := store[i := store[i].(resetToken := other)];
            && FindByEmail(swapped, email).Some? == FindByEmail(store, email).Some?
            && (FindByEmail(store, email).Some? ==>
                  && FindByEmail(swapped, email).value.(resetToken := other)
                     == FindByEmail(store, email).value.(resetToken := other)
                  && (FindByEmail(swapped, email).value.resetToken != ""
                      <==> FindByEmail(store, email).value.resetToken != ""))
  {
    var swapped := store[i := store[i].(resetToken := other)];
    if i > 0 {
      SwapKeepsLookup(store[1..], i - 1, other, email);
      assert swapped[1..] == store[1..][i - 1 := store[1..][i - 1].(resetToken := other)];
    } else {
      assert swapped[1..] == store[1..];
    }
  }

  /** Changing a stored code does not change whether a write clashes. */
  lemma ClashesIgnoresToken(store: seq<User>, i: nat, other: string, u: User)
    requires i < |store|
    ensures Clashes(store[i := store[i].(resetToken := other)], u) == Clashes(store, u)
  {
    var swapped := store[i := store[i].(resetToken := other)];
    if Clashes(store, u) {
      var k :| 0 <= k < |store| && store[k].id != u.id &&
        (store[k].email == u.email
         || (u.googleId != "" && store[k].googleId == u.googleId)
         || (u.githubId != "" && store[k].githubId == u.githubId));
      assert swapped[k].id == store[k].id && swapped[k].email == store[k].email;
    }
    if Clashes(swapped, u) {
      var k :| 0 <= k < |swapped| && swapped[k].id != u.id &&
        (swapped[k].email == u.email
         || (u.googleId != "" && swapped[k].googleId == u.googleId)
         || (u.githubId != "" && swapped[k].githubId == u.githubId));
      assert swapped[k].id == store[k].id && swapped[k].email == store[k].email;
    }
  }
}

=== FILE: auth_middleware.dfy ===
/** The two route guards: `protect` turns the Authorization header into the
    calling user, `adminOnly` lets only administrators through. Token
    verification is a parameter. */
module AuthMiddleware {
  import opened Common
  import opened Text
  import opened UserModel

  const NoToken := "Not authorized - no token"
  const UserNotFound := "User not found"
  const TokenFailed := "Not authorized - token failed"
  const NotAuthorized := "Not authorized"
  const AdminsOnly := "Access denied - admin only"

  /** `req.headers.authorization?.replace('Bearer ', '')`: the FIRST
      occurrence of "Bearer " is cut out wherever it is; a header without it
      is taken whole; a missing header gives no token (""). */
  function ExtractToken(header: Option<string>): (token: string)
    ensures header.None? ==> token == ""
    ensures header.Some? && (forall j :: 0 <= j <= |header.value| ==> !OccursAt(header.value, "Bearer ", j))
            ==> token == header.value
    ensures header.Some? && StartsWith(header.value, "Bearer ")
            ==> token == header.value[7..]
    ensures forall i :: (&& header.Some? && 0 <= i <= |header.value| && OccursAt(header.value, "Bearer ", i)
                         && (forall j :: 0 <= j < i ==> !OccursAt(header.value, "Bearer ", j)))
                        ==> token == header.value[..i] + header.value[i + 7..]
  {
    match header
    case None => ""
    case Some(h) =>
      var r := ReplaceFirst(h, "Bearer ", "");
      assert StartsWith(h, "Bearer ") ==> OccursAt(h, "Bearer ", 0) by {
        if StartsWith(h, "Bearer ") {
          assert h[0..7] == h[..7];
        }
      }
      assert forall i :: 0 <= i <= |h| && OccursAt(h, "Bearer ", i)
                         && (forall j :: 0 <= j < i ==> !OccursAt(h, "Bearer ", j))
                         ==> r == h[..i] + h[i + 7..] by {
        forall i | 0 <= i <= |h| && OccursAt(h, "Bearer ", i)
                   && (forall j :: 0 <= j < i ==> !OccursAt(h, "Bearer ", j))
          ensures r == h[..i] + h[i + 7..]
        {
          assert r == h[..i] + "" + h[i + 7..];
          assert h[..i] + "" == h[..i];
        }
      }
      r
  }

  /** The usual header yields the token after the scheme. */
  lemma BearerHeader(token: string)
    ensures ExtractToken(Some("Bearer " + token)) == token
  {
    var h := "Bearer " + token;
    assert h[..7] == "Bearer ";
    assert h[7..] == token;
  }

  /** The scheme is removed even when it is not at the start, so this is
      not a prefix strip. */
  lemma SchemeInsideHeader()
    ensures ExtractToken(Some("xBearer abc")) == "xabc"
  {
    var h := "xBearer abc";
    assert !OccursAt(h, "Bearer ", 0) by {
      assert h[0] == 'x';
    }
    assert OccursAt(h, "Bearer ", 1) by {
      assert h[1..8] == "Bearer ";
    }
    assert h[..1] + "" + h[8..] == "xabc";
  }

  /** `protect`: 401 without a token, 401 when verification fails (the
      `catch`), 401 when the token names no stored user; otherwise the user
      the token names is attached to the request. `verify` stands for
      `jwt.verify` with the server secret, returning the `id` claim. */
  function Protect(header: Option<string>, verify: string -> Option<Id>, store: seq<User>): (r: Result<User>)
    ensures ExtractToken(header) == "" ==> r == Fail(401, NoToken)
    ensures r.Fail? ==> r.status == 401
    ensures r.Ok? <==> ExtractToken(header) != "" && verify(ExtractToken(header)).Some?
                       && FindById(store, verify(ExtractToken(header)).value).Some?
    ensures r.Ok? ==> r.value in store && r.value.id == verify(ExtractToken(header)).value
  {
    var token := ExtractToken(header);
    if token == "" then Fail(401, NoToken)
    else match verify(token)
      case None => Fail(401, TokenFailed)
      case Some(id) =>
        match FindById(store, id)
        case None => Fail(401, UserNotFound)
        case Some(u) => Ok(u)
  }

  /** `adminOnly`: 401 without a user, 403 for a non-administrator. */
  function AdminOnly(user: Option<User>): (r: Result<User>)
    ensures user.None? ==> r == Fail(401, NotAuthorized)
    ensures user.Some? && !user.value.isAdmin ==> r == Fail(403, AdminsOnly)
    ensures r.Ok? <==> user.Some? && user.value.isAdmin
    ensures r.Ok? ==> r.value == user.value
  {
    match user
    case None => Fail(401, NotAuthorized)
    case Some(u) => if !u.isAdmin then Fail(403, AdminsOnly) else Ok(u)
  }

  /** The guards in sequence: a request passes both exactly when its token
      names a stored administrator. */
  lemma GuardsAdmitAdminsOnly(header: Option<string>, verify: string -> Option<Id>, store: seq<User>)
    ensures var p := Protect(header, verify, store);
            var a := AdminOnly(if p.Ok? then Some(p.value) else None);
            a.Ok? <==> p.Ok? && p.value.isAdmin
  {
  }
}

=== FILE: channel_controller.dfy ===
/** The channel request handlers: reading a channel (with auto-join), listing
    and posting messages, and the admin moderation actions. Each handler takes
    the result of its `findOne` lookup and the populated cohort roster as
    inputs and returns the response together with the state it saves. */
module ChannelController {
  import opened Common
  import opened Text
  import opened Seqs
  import opened ChannelModel
  import opened MessageLog

  const MaxMessageLength: nat := 1000
  /** Page size of `getChannelMessages` when the query gives no `limit`. */
  const DefaultLimit: nat := 50

  const ChannelNotFound := "Channel not found"
  const NotEnrolled := "You are not enrolled in this cohort"
  const Muted := "You are muted in this channel"
  const TextRequired := "Message text is required"
  const TextTooLong := "Message is too long (max 1000 characters)"
  const UserIdRequired := "userId is required"
  const NotAMember := "User is not a member of this channel"
  const CohortIdRequired := "cohortId is required"
  const CohortNotFound := "Cohort not found"
  const ChannelExists := "Channel already exists for this cohort"
  /** What reading `enrolledUsers` of a cohort that no longer exists throws. */
  const CohortGone := "Cannot read properties of null (reading 'enrolledUsers')"

  /** The enrollment gate: enrolled users and admins may use the channel. */
  predicate MayAccess(roster: seq<Id>, user: Id, isAdmin: bool) {
    user in roster || isAdmin
  }

  /** Write permission, stated independently of the handler: admins always,
      anyone else only with a member entry that allows chatting. */
  predicate CanWrite(ms: seq<Member>, user: Id, isAdmin: bool) {
    isAdmin || exists i :: 0 <= i < |ms| && ms[i].user == user && ms[i].canChat
  }

  /** The text checks of `sendMessage`, run before the channel lookup: some
      non-blank text, at most 1000 characters BEFORE trimming. */
  predicate TextAccepted(text: string) {
    text != "" && Trim(text) != "" && |text| <= MaxMessageLength
  }

  /** The steps every member-facing handler starts with: find the channel
      (404), read the populated cohort's roster (a deleted cohort throws, 500),
      then apply the enrollment gate (403). */
  function Admit(found: Option<Channel>, roster: Option<seq<Id>>, user: Id, isAdmin: bool): (r: Result<Channel>)
    ensures found.None? ==> r == Fail(404, ChannelNotFound)
    ensures r.Ok? <==> found.Some? && roster.Some? && MayAccess(roster.value, user, isAdmin)
    ensures r.Ok? ==> r.value == found.value
  {
    if found.None? then Fail(404, ChannelNotFound)
    else if roster.None? then Fail(500, CohortGone)
    else if !MayAccess(roster.value, user, isAdmin) then Fail(403, NotEnrolled)
    else Ok(found.value)
  }

  /** Response of `getChannelInfo`: the saved channel and the caller's flags. */
  datatype InfoView = InfoView(channel: Channel, canChat: bool, isMuted: bool)

  /** `getChannelInfo`: a caller who passes the gate but has no entry is
      appended with `canChat: true`; an admin's stored `canChat: false` is
      set back to true (its `mutedAt` is left as it was). */
  function GetChannelInfo(found: Option<Channel>, roster: Option<seq<Id>>, user: Id, isAdmin: bool): (r: Result<InfoView>)
    ensures found.None? ==> r == Fail(404, ChannelNotFound)
    ensures found.Some? && roster.Some? && !MayAccess(roster.value, user, isAdmin)
            ==> r == Fail(403, NotEnrolled)
    ensures r.Ok? <==> found.Some? && roster.Some? && MayAccess(roster.value, user, isAdmin)
    ensures r.Ok? ==>
      var before := found.value.members;
      var after := r.value.channel.members;
      && r.value.channel == found.value.(members := after)
      && IsMember(after, user)
      && (!IsMember(before, user) ==> after == before + [NewMember(user)])
      && (IsMember(before, user) ==>
            var i := FindMember(before, user).value;
            && |after| == |before|
            && after[i] == before[i].(canChat := before[i].canChat || isAdmin)
            && forall k :: 0 <= k < |before| && k != i ==> after[k] == before[k])
      && r.value.canChat == after[FindMember(after, user).value].canChat
      && (isAdmin ==> r.value.canChat)
      && r.value.isMuted == !r.value.canChat
  {
    match Admit(found, roster, user, isAdmin)
    case Fail(status, message) => Fail(status, message)
    case Ok(ch) =>
      var joined := if FindMember(ch.members, user).None?
                    then ch.(members := ch.members + [NewMember(user)])
                    else ch;
      assert IsMember(joined.members, user) by {
        if FindMember(ch.members, user).None? {
          assert UserOf(joined.members[|ch.members|]) == user;
        }
      }
      var i := FindMember(joined.members, user).value;
      var m := joined.members[i];
      var healed := if isAdmin && !m.canChat
                    then joined.(members := joined.members[i := m.(canChat := true)])
                    else joined;
      var canChat := healed.members[i].canChat;
      Ok(InfoView(healed, canChat, !canChat))
  }

  /** Response of `getChannelMessages`: the page, oldest first, and the
      pagination block. */
  datatype MessagePage = MessagePage(messages: seq<Message>, total: nat, limit: nat, skip: nat)

  /** A query parameter with its destructuring default. */
  function OrDefault(given: Option<nat>, default: nat): nat {
    if given.Some? then given.value else default
  }

  /** `getChannelMessages`: after the gate, the `limit` newest visible
      messages that follow the `skip` newest ones, returned oldest first;
      `total` counts every visible message of the channel. An absent
      `limit` is 50 and an absent `skip` is 0. */
  function GetChannelMessages(
    found: Option<Channel>, roster: Option<seq<Id>>, user: Id, isAdmin: bool,
    log: seq<Message>, limit: Option<nat>, skip: Option<nat>): (r: Result<MessagePage>)
    ensures found.None? ==> r == Fail(404, ChannelNotFound)
    ensures found.Some? && roster.Some? && !MayAccess(roster.value, user, isAdmin)
            ==> r == Fail(403, NotEnrolled)
    ensures r.Ok? <==> found.Some? && roster.Some? && MayAccess(roster.value, user, isAdmin)
    ensures r.Ok? ==>
      var v := Visible(log, found.value.id);
      var l := if limit.Some? then limit.value else DefaultLimit;
      var k := if skip.Some? then skip.value else 0;
      && r.value.total == |v|
      && r.value.messages == v[WindowStart(|v|, l, k)..WindowEnd(|v|, k)]
      && r.value.limit == l && r.value.skip == k
    ensures r.Ok? && limit.None? ==> |r.value.messages| <= DefaultLimit && r.value.limit == DefaultLimit
  {
    match Admit(found, roster, user, isAdmin)
    case Fail(status, message) => Fail(status, message)
    case Ok(ch) =>
      var v := Visible(log, ch.id);
      var l, k := OrDefault(limit, DefaultLimit), OrDefault(skip, 0);
      PageIsWindow(v, l, k);
      Ok(MessagePage(Page(v, l, k), |v|, l, k))
  }

  /** A request without `limit` and `skip` reads the same page as one that
      asks for 50 messages from the newest. */
  lemma AbsentQueryIsDefault(found: Option<Channel>, roster: Option<seq<Id>>, user: Id, isAdmin: bool,
                             log: seq<Message>)
    ensures GetChannelMessages(found, roster, user, isAdmin, log, None, None)
            == GetChannelMessages(found, roster, user, isAdmin, log, Some(50), Some(0))
  {
  }

  /** Response of `sendMessage`: the saved channel, the log with the new
      message appended, and the message. */
  datatype Sent = Sent(channel: Channel, log: seq<Message>, message: Message)

  /** `sendMessage`: text checks (400) come before the lookup; then the gate;
      a non-admin needs an entry with `canChat` (403 "muted" otherwise, also
      for a non-member); an admin without an entry is appended; the trimmed
      text is stored. */
  function SendMessage(
    found: Option<Channel>, roster: Option<seq<Id>>, user: Id, isAdmin: bool,
    text: string, log: seq<Message>): (r: Result<Sent>)
    ensures !TextAccepted(text) ==> r.Fail? && r.status == 400
    ensures TextAccepted(text) && found.None? ==> r == Fail(404, ChannelNotFound)
    ensures TextAccepted(text) && found.Some? && roster.Some? && !MayAccess(roster.value, user, isAdmin)
            ==> r == Fail(403, NotEnrolled)
    ensures r.Ok? ==> TextAccepted(text) && found.Some? && roster.Some?
                      && MayAccess(roster.value, user, isAdmin)
    ensures r.Ok? ==>
      var before := found.value.members;
      && r.value.message == Message(found.value.id, user, Trim(text), false)
      && r.value.log == log + [r.value.message]
      && r.value.channel == found.value.(members := r.value.channel.members)
      && (!isAdmin || IsMember(before, user) ==> r.value.channel.members == before)
      && (isAdmin && !IsMember(before, user) ==> r.value.channel.members == before + [NewMember(user)])
  {
    if text == "" || Trim(text) == "" then Fail(400, TextRequired)
    else if |text| > MaxMessageLength then Fail(400, TextTooLong)
    else match Admit(found, roster, user, isAdmin)
      case Fail(status, message) => Fail(status, message)
      case Ok(ch) =>
        var i := FindMember(ch.members, user);
        if (i.None? || !ch.members[i.value].canChat) && !isAdmin then Fail(403, Muted)
        else
          var saved := if isAdmin && i.None?
                       then ch.(members := ch.members + [NewMember(user)])
                       else ch;
          var msg := Message(ch.id, user, Trim(text), false);
          Ok(Sent(saved, log + [msg], msg))
  }

  /** `muteUser`: the first entry of the target gets `canChat: false` and
      `mutedAt: now`; nothing else changes. */
  function MuteUser(found: Option<Channel>, target: Id, now: int): (r: Result<Channel>)
    ensures target == "" ==> r == Fail(400, UserIdRequired)
    ensures target != "" && found.None? ==> r == Fail(404, ChannelNotFound)
    ensures target != "" && found.Some? && !IsMember(found.value.members, target)
            ==> r == Fail(404, NotAMember)
    ensures r.Ok? <==> target != "" && found.Some? && IsMember(found.value.members, target)
    ensures r.Ok? ==>
      var before := found.value.members;
      var i := FindMember(before, target).value;
      && r.value == found.value.(members := r.value.members)
      && |r.value.members| == |before|
      && r.value.members[i] == Member(target, false, Some(now))
      && forall k :: 0 <= k < |before| && k != i ==> r.value.members[k] == before[k]
  {
    if target == "" then Fail(400, UserIdRequired)
    else if found.None? then Fail(404, ChannelNotFound)
    else
      var ch := found.value;
      match FindMember(ch.members, target)
      case None => Fail(404, NotAMember)
      case Some(i) =>
        Ok(ch.(members := ch.members[i := ch.members[i].(canChat := false, mutedAt := Some(now))]))
  }

  /** `unmuteUser`: the first entry of the target gets `canChat: true` and
      `mutedAt: null`; nothing else changes. */
  function UnmuteUser(found: Option<Channel>, target: Id): (r: Result<Channel>)
    ensures target == "" ==> r == Fail(400, UserIdRequired)
    ensures target != "" && found.None? ==> r == Fail(404, ChannelNotFound)
    ensures target != "" && found.Some? && !IsMember(found.value.members, target)
            ==> r == Fail(404, NotAMember)
    ensures r.Ok? <==> target != "" && found.Some? && IsMember(found.value.members, target)
    ensures r.Ok? ==>
      var before := found.value.members;
      var i := FindMember(before, target).value;
      && r.value == found.value.(members := r.value.members)
      && |r.value.members| == |before|
      && r.value.members[i] == Member(target, true, None)
      && forall k :: 0 <= k < |before| && k != i ==> r.value.members[k] == before[k]
  {
    if target == "" then Fail(400, UserIdRequired)
    else if found.None? then Fail(404, ChannelNotFound)
    else
      var ch := found.value;
      match FindMember(ch.members, target)
      case None => Fail(404, NotAMember)
      case Some(i) =>
        Ok(ch.(members := ch.members[i := ch.members[i].(canChat := true, mutedAt := None)]))
  }

  /** `removeUserFromChannel`: every entry of the target is dropped, the rest
      keep their order; removing a non-member succeeds and changes nothing. */
  function RemoveUserFromChannel(found: Option<Channel>, target: Id): (r: Result<Channel>)
    ensures found.None? ==> r == Fail(404, ChannelNotFound)
    ensures found.Some? ==> r.Ok?
    ensures r.Ok? ==>
      && r.value == found.value.(members := r.value.members)
      && !IsMember(r.value.members, target)
      && r.value.members == RemoveKey(found.value.members, UserOf, target)
  {
    if found.None? then Fail(404, ChannelNotFound)
    else Ok(found.value.(members := RemoveKey(found.value.members, UserOf, target)))
  }

  /** `addUserToChannel`: on an existing channel the target is appended only
      when absent; when the channel does not exist a `cohortId` is required
      and the channel is created under the (trimmed) key with the target as
      its single member. */
  function AddUserToChannel(
    dir: Directory, key: string, target: Id, cohortId: Id, admin: Id, newId: Id): (r: Result<Directory>)
    ensures target == "" ==> r == Fail(400, UserIdRequired)
    ensures target != "" && Trim(key) !in dir && cohortId == "" ==> r == Fail(400, CohortIdRequired)
    ensures target != "" && Trim(key) in dir ==> r.Ok?
    ensures r.Ok? && Trim(key) in dir ==>
      var before := dir[Trim(key)].members;
      && (IsMember(before, target) ==> r.value == dir)
      && (!IsMember(before, target) ==>
            r.value == dir[Trim(key) := dir[Trim(key)].(members := before + [NewMember(target)])])
    ensures target != "" && Trim(key) !in dir && cohortId != "" ==>
      (r.Ok? <==> Trim(key) != "" && admin != "")
    ensures r.Ok? && Trim(key) !in dir ==>
      r.value == dir[Trim(key) := Channel(newId, Trim(key), cohortId, [NewMember(target)], admin)]
  {
    if target == "" then Fail(400, UserIdRequired)
    else if Trim(key) !in dir then
      if cohortId == "" then Fail(400, CohortIdRequired)
      else Insert(dir, NewChannel(newId, key, cohortId, [NewMember(target)], admin))
    else
      var ch := dir[Trim(key)];
      if IsMember(ch.members, target) then Ok(dir)
      else Ok(dir[Trim(key) := ch.(members := ch.members + [NewMember(target)])])
  }

  /** The key of a cohort's channel. */
  function CohortChannelKey(cohortId: Id): string {
    "cohort-" + cohortId
  }

  /** `createChannel`: the key is derived from the cohort id; an existing
      channel under that key is refused with 400; otherwise a channel with no
      members is created. The description is accepted but not stored. */
  function CreateChannel(
    dir: Directory, cohortId: Id, cohortExists: bool, admin: Id, newId: Id,
    description: string): (r: Result<Directory>)
    ensures cohortId == "" ==> r == Fail(400, CohortIdRequired)
    ensures cohortId != "" && !cohortExists ==> r == Fail(404, CohortNotFound)
    ensures cohortId != "" && cohortExists && Trim(CohortChannelKey(cohortId)) in dir
            ==> r == Fail(400, ChannelExists)
    ensures cohortId != "" && cohortExists && Trim(CohortChannelKey(cohortId)) !in dir
            ==> (r.Ok? <==> admin != "")
    ensures r.Ok? ==>
      var k := Trim(CohortChannelKey(cohortId));
      && k !in dir
      && r.value == dir[k := Channel(newId, k, cohortId, [], admin)]
  {
    if cohortId == "" then Fail(400, CohortIdRequired)
    else if !cohortExists then Fail(404, CohortNotFound)
    else
      var key := CohortChannelKey(cohortId);
      assert Trim(key) != "" by {
        assert !IsSpace(key[0]);
        TrimEmptyIff(key);
      }
      if Lookup(dir, key).Some? then Fail(400, ChannelExists)
      else Insert(dir, NewChannel(newId, key, cohortId, [], admin))
  }
}

=== FILE: channel_model.dfy ===
/** The Channel document with its embedded member entries, and the collection
    of channels keyed by their unique `channelKey`. */
module ChannelModel {
  import opened Common
  import opened Text
  import opened Seqs

  /** One entry of a channel's member list: who, whether they may post, and
      when they were last muted (`null` when not muted). */
  datatype Member = Member(user: Id, canChat: bool, mutedAt: Option<int>)

  /** Member entries are looked up by their user id. */
  function UserOf(m: Member): Id {
    m.user
  }

  /** The entry the handlers push as `{ user, canChat: true }`; the schema
      default fills in `mutedAt: null`. */
  function NewMember(user: Id): Member {
    Member(user, true, None)
  }

  /** A channel: its own id, its key, the cohort it belongs to, the ordered
      member list and its creator. The schema has no description field. */
  datatype Channel = Channel(
    id: Id,
    channelKey: string,
    cohortId: Id,
    members: seq<Member>,
    createdBy: Id)

  /** The schema's validators: `channelKey`, `cohortId`, `createdBy` and every
      member's `user` are required, and `channelKey` is stored trimmed. */
  predicate ValidChannel(c: Channel) {
    && c.channelKey != ""
    && IsTrimmed(c.channelKey)
    && c.cohortId != ""
    && c.createdBy != ""
    && forall i :: 0 <= i < |c.members| ==> c.members[i].user != ""
  }

  /** At most one entry per user. The schema does NOT enforce this: `members`
      is a plain array, so it has to be kept by every operation. */
  predicate UniqueMembers(ms: seq<Member>) {
    UniqueKeys(ms, UserOf)
  }

  predicate IsMember(ms: seq<Member>, user: Id) {
    HasKey(ms, UserOf, user)
  }

  /** The index of the first entry for `user` (`members.find`). */
  function FindMember(ms: seq<Member>, user: Id): Option<nat> {
    FindKey(ms, UserOf, user)
  }

  /** All channels, filed under their key; the unique index on `channelKey`
      makes this a map. */
  type Directory = map<string, Channel>

  /** The invariant of the stored channels: each is filed under its own key,
      passes its schema validators and lists each user at most once. */
  predicate ValidDirectory(dir: Directory) {
    forall k :: k in dir ==>
      dir[k].channelKey == k && ValidChannel(dir[k]) && UniqueMembers(dir[k].members)
  }

  /** `Channel.findOne({ channelKey: key })`; the schema's `trim` setter is
      applied to the query value as it is to stored keys. */
  function Lookup(dir: Directory, key: string): (r: Option<Channel>)
    ensures r.Some? <==> Trim(key) in dir
    ensures r.Some? ==> r.value == dir[Trim(key)]
  {
    if Trim(key) in dir then Some(dir[Trim(key)]) else None
  }

  /** `channel.save()` of a channel that is already filed under its key. */
  function Store(dir: Directory, c: Channel): Directory {
    dir[c.channelKey := c]
  }

  /** Saving a channel that keeps the channel invariants keeps the directory
      invariant. */
  lemma StoreKeepsValid(dir: Directory, c: Channel)
    requires ValidDirectory(dir)
    requires ValidChannel(c) && UniqueMembers(c.members)
    ensures ValidDirectory(Store(dir, c))
  {
  }

  /** `Channel.create`: the key goes through the `trim` setter, then the
      document must pass validation (a failure is thrown, hence 500). */
  function NewChannel(id: Id, key: string, cohortId: Id, members: seq<Member>, createdBy: Id): (r: Result<Channel>)
    ensures r.Ok? <==> ValidChannel(Channel(id, Trim(key), cohortId, members, createdBy))
    ensures r.Ok? ==> r.value == Channel(id, Trim(key), cohortId, members, createdBy)
    ensures r.Fail? ==> r.status == 500
  {
    var c := Channel(id, Trim(key), cohortId, members, createdBy);
    if ValidChannel(c) then Ok(c) else Fail(500, "Channel validation failed")
  }

  /** Files a freshly created channel under its key, or passes on the
      creation failure. */
  function Insert(dir: Directory, created: Result<Channel>): (r: Result<Directory>)
    ensures r.Ok? <==> created.Ok?
    ensures r.Ok? ==> r.value == dir[created.value.channelKey := created.value]
    ensures r.Fail? ==> r == Fail(created.status, created.message)
  {
    match created
    case Fail(status, message) => Fail(status, message)
    case Ok(c) => Ok(dir[c.channelKey := c])
  }
}

=== FILE: channel_properties.dfy ===
/** Properties of the channel handlers that relate several calls or several
    handlers: one enrollment gate everywhere, the write rule, the membership
    invariant, and the mute/unmute round trip. */
module ChannelProperties {
  import opened Common
  import opened Text
  import opened Seqs
  import opened ChannelModel
  import opened MessageLog
  import opened ChannelController

  /** The same gate guards reading the channel, listing and posting: for an
      existing channel and valid text, each of the three answers "not
      enrolled" exactly when the caller is neither enrolled nor an admin. */
  lemma GateIsUniform(
    c: Channel, roster: seq<Id>, user: Id, isAdmin: bool,
    log: seq<Message>, limit: Option<nat>, skip: Option<nat>, text: string)
    requires TextAccepted(text)
    ensures GetChannelInfo(Some(c), Some(roster), user, isAdmin) == Fail(403, NotEnrolled)
            <==> !MayAccess(roster, user, isAdmin)
    ensures GetChannelMessages(Some(c), Some(roster), user, isAdmin, log, limit, skip) == Fail(403, NotEnrolled)
            <==> !MayAccess(roster, user, isAdmin)
    ensures SendMessage(Some(c), Some(roster), user, isAdmin, text, log) == Fail(403, NotEnrolled)
            <==> !MayAccess(roster, user, isAdmin)
  {
    assert Muted != NotEnrolled;
  }

  /** With one entry per user, a caller who passes the gate may post exactly
      when the independent write rule allows it. */
  lemma SendFollowsWriteRule(c: Channel, roster: seq<Id>, user: Id, isAdmin: bool, text: string, log: seq<Message>)
    requires TextAccepted(text) && MayAccess(roster, user, isAdmin)
    requires UniqueMembers(c.members)
    ensures SendMessage(Some(c), Some(roster), user, isAdmin, text, log).Ok?
            <==> CanWrite(c.members, user, isAdmin)
  {
    var ms := c.members;
    var f := FindMember(ms, user);
    if CanWrite(ms, user, isAdmin) && !isAdmin {
      var j :| 0 <= j < |ms| && ms[j].user == user && ms[j].canChat;
      assert UserOf(ms[j]) == user;
      assert f.Some?;
    }
    if !CanWrite(ms, user, isAdmin) && f.Some? {
      assert ms[f.value].user == user;
    }
  }

  /** A non-member who is not an admin is told they are muted. */
  lemma NonMemberIsMuted(c: Channel, roster: seq<Id>, user: Id, text: string, log: seq<Message>)
    requires TextAccepted(text) && user in roster
    requires !IsMember(c.members, user)
    ensures SendMessage(Some(c), Some(roster), user, false, text, log) == Fail(403, Muted)
  {
  }

  /** Muting restricts writes, not reads: a muted, enrolled non-admin still
      gets the message list but is refused when posting. */
  lemma MuteRestrictsWritesOnly(
    c: Channel, roster: seq<Id>, user: Id, now: int, log: seq<Message>, limit: Option<nat>, skip: Option<nat>, text: string)
    requires TextAccepted(text) && user in roster && user != ""
    requires IsMember(c.members, user)
    ensures var muted := MuteUser(Some(c), user, now);
            && muted.Ok?
            && GetChannelMessages(Some(muted.value), Some(roster), user, false, log, limit, skip).Ok?
            && SendMessage(Some(muted.value), Some(roster), user, false, text, log) == Fail(403, Muted)
  {
    var muted := MuteUser(Some(c), user, now).value;
    var i := FindMember(c.members, user).value;
    assert FindMember(muted.members, user) == Some(i) by {
      assert UserOf(muted.members[i]) == user;
      forall j | 0 <= j < i ensures UserOf(muted.members[j]) != user {
        assert muted.members[j] == c.members[j];
      }
      FindFirst(muted.members, user, i);
    }
  }

  /** An index holding the user with no earlier entry of theirs is what
      `find` returns. */
  lemma FindFirst(ms: seq<Member>, user: Id, i: nat)
    requires i < |ms| && UserOf(ms[i]) == user
    requires forall j :: 0 <= j < i ==> UserOf(ms[j]) != user
    ensures FindMember(ms, user) == Some(i)
  {
    assert HasKey(ms, UserOf, user);
  }

  /** Reading the channel again changes nothing: auto-join and the admin
      repair happen once. */
  lemma InfoIsIdempotent(c: Channel, roster: seq<Id>, user: Id, isAdmin: bool)
    requires GetChannelInfo(Some(c), Some(roster), user, isAdmin).Ok?
    ensures var first := GetChannelInfo(Some(c), Some(roster), user, isAdmin).value;
            GetChannelInfo(Some(first.channel), Some(roster), user, isAdmin) == Ok(first)
  {
  }

  /** Reading a channel keeps its schema validity and one entry per user. */
  lemma InfoKeepsInvariant(c: Channel, roster: Option<seq<Id>>, user: Id, isAdmin: bool)
    requires ValidChannel(c) && UniqueMembers(c.members) && user != ""
    ensures var r := GetChannelInfo(Some(c), roster, user, isAdmin);
            r.Ok? ==> ValidChannel(r.value.channel) && UniqueMembers(r.value.channel.members)
                      && r.value.channel.channelKey == c.channelKey
  {
    var r := GetChannelInfo(Some(c), roster, user, isAdmin);
    if r.Ok? {
      var ms := c.members;
      if IsMember(ms, user) {
        var i := FindMember(ms, user).value;
        UpdateKeepsUnique(ms, UserOf, i, r.value.channel.members[i]);
        assert r.value.channel.members == ms[i := r.value.channel.members[i]];
      } else {
        AppendKeepsUnique(ms, UserOf, NewMember(user));
      }
    }
  }

  /** Posting keeps the channel's validity and one entry per user. */
  lemma SendKeepsInvariant(c: Channel, roster: Option<seq<Id>>, user: Id, isAdmin: bool, text: string, log: seq<Message>)
    requires ValidChannel(c) && UniqueMembers(c.members) && user != ""
    ensures var r := SendMessage(Some(c), roster, user, isAdmin, text, log);
            r.Ok? ==> ValidChannel(r.value.channel) && UniqueMembers(r.value.channel.members)
                      && r.value.channel.channelKey == c.channelKey
  {
    if !IsMember(c.members, user) {
      AppendKeepsUnique(c.members, UserOf, NewMember(user));
    }
  }

  /** Muting keeps the channel's validity and one entry per user. */
  lemma MuteKeepsInvariant(c: Channel, target: Id, now: int)
    requires ValidChannel(c) && UniqueMembers(c.members)
    ensures var r := MuteUser(Some(c), target, now);
            r.Ok? ==> ValidChannel(r.value) && UniqueMembers(r.value.members)
                      && r.value.channelKey == c.channelKey
  {
    var r := MuteUser(Some(c), target, now);
    if r.Ok? {
      var i := FindMember(c.members, target).value;
      assert r.value.members == c.members[i := r.value.members[i]];
      UpdateKeepsUnique(c.members, UserOf, i, r.value.members[i]);
    }
  }

  /** Unmuting keeps the channel's validity and one entry per user. */
  lemma UnmuteKeepsInvariant(c: Channel, target: Id)
    requires ValidChannel(c) && UniqueMembers(c.members)
    ensures var r := UnmuteUser(Some(c), target);
            r.Ok? ==> ValidChannel(r.value) && UniqueMembers(r.value.members)
                      && r.value.channelKey == c.channelKey
  {
    var r := UnmuteUser(Some(c), target);
    if r.Ok? {
      var i := FindMember(c.members, target).value;
      assert r.value.members == c.members[i := r.value.members[i]];
      UpdateKeepsUnique(c.members, UserOf, i, r.value.members[i]);
    }
  }

  /** Removing a user keeps the channel's validity and one entry per user. */
  lemma RemoveKeepsInvariant(c: Channel, target: Id)
    requires ValidChannel(c) && UniqueMembers(c.members)
    ensures var r := RemoveUserFromChannel(Some(c), target);
            r.Ok? && ValidChannel(r.value) && UniqueMembers(r.value.members)
            && r.value.channelKey == c.channelKey
  {
    RemoveKeyKeepsUnique(c.members, UserOf, target);
  }

  /** Adding a user keeps every stored channel valid with one entry per
      user, whether the channel existed or is created on the way. */
  lemma AddKeepsDirectory(dir: Directory, key: string, target: Id, cohortId: Id, admin: Id, newId: Id)
    requires ValidDirectory(dir)
    ensures var r := AddUserToChannel(dir, key, target, cohortId, admin, newId);
            r.Ok? ==> ValidDirectory(r.value)
  {
    var r := AddUserToChannel(dir, key, target, cohortId, admin, newId);
    var k := Trim(key);
    if r.Ok? {
      if k in dir {
        var c := dir[k];
        if !IsMember(c.members, target) {
          var c' := c.(members := c.members + [NewMember(target)]);
          AppendKeepsUnique(c.members, UserOf, NewMember(target));
          assert ValidChannel(c');
          assert r.value == dir[k := c'];
          StoreKeepsValid(dir, c');
        }
      } else {
        var c := Channel(newId, k, cohortId, [NewMember(target)], admin);
        assert r.value == dir[k := c];
        assert UniqueMembers(c.members);
        StoreKeepsValid(dir, c);
      }
    }
  }

  /** Creating a channel keeps every stored channel valid, and the new one is
      filed under `cohort-<id>` with no members. */
  lemma CreateKeepsDirectory(dir: Directory, cohortId: Id, cohortExists: bool, admin: Id, newId: Id, description: string)
    requires ValidDirectory(dir)
    ensures var r := CreateChannel(dir, cohortId, cohortExists, admin, newId, description);
            r.Ok? ==> ValidDirectory(r.value) && |r.value| == |dir| + 1
  {
  }

  /** The description passed to `createChannel` is not part of what is
      stored: the schema has no such field. */
  lemma CreateIgnoresDescription(dir: Directory, cohortId: Id, cohortExists: bool, admin: Id, newId: Id, d1: string, d2: string)
    ensures CreateChannel(dir, cohortId, cohortExists, admin, newId, d1)
            == CreateChannel(dir, cohortId, cohortExists, admin, newId, d2)
  {
  }

  /** Mute followed by unmute leaves the target with `canChat: true` and
      `mutedAt: null` and every other entry as it was; an entry that was
      not muted to begin with is restored exactly. */
  lemma MuteThenUnmute(c: Channel, target: Id, now: int)
    requires MuteUser(Some(c), target, now).Ok?
    ensures var muted := MuteUser(Some(c), target, now).value;
            var r := UnmuteUser(Some(muted), target);
            var i := FindMember(c.members, target).value;
            && r.Ok?
            && r.value.members == c.members[i := Member(target, true, None)]
            && (c.members[i] == NewMember(target) ==> r.value == c)
  {
    var muted := MuteUser(Some(c), target, now).value;
    var i := FindMember(c.members, target).value;
    forall j | 0 <= j < i ensures UserOf(muted.members[j]) != target {
      assert muted.members[j] == c.members[j];
    }
    FindFirst(muted.members, target, i);
    var r := UnmuteUser(Some(muted), target);
    assert r.value.members == c.members[i := Member(target, true, None)];
  }

  /** After messages A, B, C, D are posted, a page of two holds C then D and
      the total is four. */
  lemma PageExample(chId: Id, sender: Id, a: string, b: string, cc: string, d: string)
    ensures var log := [Message(chId, sender, a, false), Message(chId, sender, b, false),
                        Message(chId, sender, cc, false), Message(chId, sender, d, false)];
            var v := Visible(log, chId);
            && |v| == 4
            && Page(v, 2, 0) == [log[2], log[3]]
  {
    var log := [Message(chId, sender, a, false), Message(chId, sender, b, false),
                Message(chId, sender, cc, false), Message(chId, sender, d, false)];
    VisibleAllShown(log, chId);
    PageIsWindow(log, 2, 0);
    assert WindowStart(4, 2, 0) == 2 && WindowEnd(4, 0) == 4;
  }

  /** A message that was just sent is the newest of every first page its
      sender reads next, and the total grows by one. */
  lemma SentIsNewest(c: Channel, roster: seq<Id>, user: Id, isAdmin: bool, text: string,
                     log: seq<Message>, limit: nat)
    requires SendMessage(Some(c), Some(roster), user, isAdmin, text, log).Ok?
    ensures var s := SendMessage(Some(c), Some(roster), user, isAdmin, text, log).value;
            var p := GetChannelMessages(Some(c), Some(roster), user, isAdmin, s.log, Some(limit), Some(0));
            && p.Ok?
            && p.value.total == |Visible(log, c.id)| + 1
            && |p.value.messages| > 0
            && p.value.messages[|p.value.messages| - 1] == s.message
  {
    var s := SendMessage(Some(c), Some(roster), user, isAdmin, text, log).value;
    assert s.log == log + [s.message] && Shown(s.message, c.id) && MayAccess(roster, user, isAdmin);
    ReadAfterAppend(c, roster, user, isAdmin, log, s.message, limit);
  }

  /** Reading the first page right after a shown message is appended. */
  lemma ReadAfterAppend(c: Channel, roster: seq<Id>, user: Id, isAdmin: bool, log: seq<Message>,
                        m: Message, limit: nat)
    requires MayAccess(roster, user, isAdmin) && Shown(m, c.id)
    ensures var p := GetChannelMessages(Some(c), Some(roster), user, isAdmin, log + [m], Some(limit), Some(0));
            && p.Ok?
            && p.value.total == |Visible(log, c.id)| + 1
            && |p.value.messages| > 0
            && p.value.messages[|p.value.messages| - 1] == m
  {
    VisibleConcat(log, [m], c.id);
    VisibleOne(m, c.id);
    var v := Visible(log + [m], c.id);
    assert v == Visible(log, c.id) + [m];
    FirstPageEndsWithNewest(v, limit);
    var p := GetChannelMessages(Some(c), Some(roster), user, isAdmin, log + [m], Some(limit), Some(0));
    assert p.Ok? && p.value.messages == v[WindowStart(|v|, limit, 0)..WindowEnd(|v|, 0)];
  }

  /** A first page (nothing skipped) of a non-empty list ends with its
      newest element. */
  lemma FirstPageEndsWithNewest(v: seq<Message>, limit: nat)
    requires |v| > 0
    ensures var w := v[WindowStart(|v|, limit, 0)..WindowEnd(|v|, 0)];
            |w| > 0 && w[|w| - 1] == v[|v| - 1]
  {
    var lo := WindowStart(|v|, limit, 0);
    assert lo < |v| && WindowEnd(|v|, 0) == |v|;
    assert v[lo..|v|][|v| - lo - 1] == v[|v| - 1];
  }

  /** The length limit applies to the untrimmed text: 1000 characters pass,
      1001 do not, even when trimming would bring them under the limit. */
  lemma TextLengthBoundary()
    ensures TextAccepted(seq(1000, i => 'a'))
    ensures !TextAccepted(seq(1001, i => 'a'))
    ensures var padded := seq(999, i => 'a') + "  ";
            !TextAccepted(padded) && |Trim(padded)| == 999
    ensures !TextAccepted("   ")
  {
    var padded := seq(999, i => 'a') + "  ";
    var t := seq(999, i => 'a');
    assert TrimStart(padded) == padded;
    assert padded[..|padded| - 1] == t + " ";
    assert (t + " ")[..|t + " "| - 1] == t;
    assert !IsSpace(t[|t| - 1]);
    assert TrimEnd(t) == t;
    assert TrimEnd(t + " ") == t;
    assert TrimEnd(padded) == t;
    assert TrimStart("   ") == "";
  }
}

=== FILE: cohort_controller.dfy ===
/** The learner-facing cohort handlers: the public listing, the enrolled-only
    detail view, creation, enrollment and unenrollment, and "my cohorts". */
module CohortController {
  import opened Common
  import opened Text
  import opened Seqs
  import opened CohortModel

  const CohortNotFound := "Cohort not found"
  const NotEnrolled := "You are not enrolled in this cohort"
  const FieldsRequired := "Please provide title, description, and category"
  const Inactive := "This cohort is no longer active"
  const AlreadyEnrolled := "You are already enrolled in this cohort"

  /** The listing filter: active cohorts only, and of the requested category
      unless none (empty) or "All" was requested. */
  predicate Listed(c: Cohort, category: string) {
    c.isActive && (category == "" || category == "All" || c.category == category)
  }

  /** `getAllCohorts`: the stored cohorts that pass the filter, in store order. */
  function GetAllCohorts(store: seq<Cohort>, category: string): (r: seq<Cohort>)
    ensures |r| <= |store|
    ensures forall i :: 0 <= i < |r| ==> r[i] in store && Listed(r[i], category)
    ensures forall i :: 0 <= i < |store| && Listed(store[i], category) ==> store[i] in r
  {
    if |store| == 0 then []
    else (if Listed(store[0], category) then [store[0]] else []) + GetAllCohorts(store[1..], category)
  }

  /** Each listed cohort appears as often as it is stored and no other
      appears, so `count` is the number of stored cohorts that pass the
      filter. */
  lemma {:induction false} ListingCounts(store: seq<Cohort>, category: string)
    ensures forall c :: multiset(GetAllCohorts(store, category))[c]
                        == if Listed(c, category) then multiset(store)[c] else 0
    decreases |store|
  {
    if |store| > 0 {
      ListingCounts(store[1..], category);
      assert store == [store[0]] + store[1..];
    }
  }

  /** Asking for "All" is the same as asking for no category. */
  lemma {:induction false} AllMeansUnfiltered(store: seq<Cohort>)
    ensures GetAllCohorts(store, "All") == GetAllCohorts(store, "")
  {
    if |store| > 0 {
      AllMeansUnfiltered(store[1..]);
    }
  }

  /** The detail view: the whole cohort plus `enrolledCount`. */
  datatype Details = Details(cohort: Cohort, enrolledCount: nat)

  /** `getCohortDetails`: 404 for an unknown cohort, 403 for anyone not on
      the roster; admins get no bypass here. */
  function GetCohortDetails(found: Option<Cohort>, user: Id): (r: Result<Details>)
    ensures found.None? ==> r == Fail(404, CohortNotFound)
    ensures found.Some? && user !in found.value.enrolled ==> r == Fail(403, NotEnrolled)
    ensures r.Ok? <==> found.Some? && user in found.value.enrolled
    ensures r.Ok? ==>
      r.value.cohort == found.value && r.value.enrolledCount == |found.value.enrolled|
  {
    match found
    case None => Fail(404, CohortNotFound)
    case Some(c) =>
      if user !in c.enrolled then Fail(403, NotEnrolled)
      else Ok(Details(c, |c.enrolled|))
  }

  /** The document `Cohort.create` is given, after the `trim` setter. */
  function Fresh(id: Id, title: string, description: string, category: string, user: Id,
                 roadmap: seq<RoadmapItem>, videos: seq<Video>): Cohort {
    Cohort(id, Trim(title), description, category, true, user, [], roadmap, videos)
  }

  /** What the schema demands of the request's own fields: a trimmed title
      of 3..100 characters, a description of 10..500, a listed category and
      a creator. */
  predicate FieldsValid(title: string, description: string, category: string, user: Id) {
    && MinTitleLength <= |Trim(title)| <= MaxTitleLength
    && MinDescriptionLength <= |description| <= MaxDescriptionLength
    && category in Categories
    && user != ""
  }

  /** A freshly built cohort validates exactly when the request's fields do
      and every embedded item and video does. */
  lemma FreshIsValid(id: Id, title: string, description: string, category: string, user: Id,
                     roadmap: seq<RoadmapItem>, videos: seq<Video>)
    ensures ValidCohort(Fresh(id, title, description, category, user, roadmap, videos))
            <==> && FieldsValid(title, description, category, user)
                 && (forall i :: 0 <= i < |roadmap| ==> ValidRoadmapItem(roadmap[i]))
                 && (forall i :: 0 <= i < |videos| ==> ValidVideo(videos[i]))
  {
  }

  /** `createCohort` (the learner-side route, admin-guarded): 400 unless all
      three fields are given, then creation with an empty roster, no content
      and `isActive` true; a document failing validation is a 500. */
  function CreateCohort(store: seq<Cohort>, id: Id, title: string, description: string,
                        category: string, user: Id): (r: Result<seq<Cohort>>)
    ensures title == "" || description == "" || category == "" ==> r == Fail(400, FieldsRequired)
    ensures title != "" && description != "" && category != "" ==>
      (r.Ok? <==> FieldsValid(title, description, category, user))
    ensures r.Fail? ==> r.status == 400 || r.status == 500
    ensures r.Ok? ==> exists c ::
      && r.value == store + [c]
      && c.id == id && c.title == Trim(title) && c.description == description
      && c.category == category && c.isActive && c.createdBy == user
      && c.enrolled == [] && c.roadmap == [] && c.videos == [] && ValidCohort(c)
  {
    if title == "" || description == "" || category == "" then Fail(400, FieldsRequired)
    else
      FreshIsValid(id, title, description, category, user, [], []);
      match Save(Fresh(id, title, description, category, user, [], []))
      case Fail(status, message) => Fail(status, message)
      case Ok(c) => Ok(store + [c])
  }

  /** Creation keeps the collection well formed, given the fresh id the
      database assigns. */
  lemma CreateKeepsStore(store: seq<Cohort>, id: Id, title: string, description: string,
                         category: string, user: Id)
    requires WellFormedStore(store)
    requires id != "" && !HasKey(store, CohortIdOf, id)
    ensures var r := CreateCohort(store, id, title, description, category, user);
            r.Ok? ==> WellFormedStore(r.value)
  {
    var r := CreateCohort(store, id, title, description, category, user);
    if r.Ok? {
      var c := Fresh(id, title, description, category, user, [], []);
      assert r.value == store + [c];
      AppendKeepsUnique(store, CohortIdOf, c);
    }
  }

  /** `enrollInCohort`: 404, then 400 for an inactive cohort, then 400 for a
      user already on the roster; otherwise the user is appended once and the
      cohort saved. */
  function Enroll(found: Option<Cohort>, user: Id): (r: Result<Cohort>)
    ensures found.None? ==> r == Fail(404, CohortNotFound)
    ensures found.Some? && !found.value.isActive ==> r == Fail(400, Inactive)
    ensures found.Some? && found.value.isActive && user in found.value.enrolled
            ==> r == Fail(400, AlreadyEnrolled)
    ensures r.Ok? <==> found.Some? && found.value.isActive && user !in found.value.enrolled
                       && ValidCohort(found.value)
    ensures r.Ok? ==> r.value == found.value.(enrolled := found.value.enrolled + [user])
  {
    match found
    case None => Fail(404, CohortNotFound)
    case Some(c) =>
      if !c.isActive then Fail(400, Inactive)
      else if user in c.enrolled then Fail(400, AlreadyEnrolled)
      else Save(c.(enrolled := c.enrolled + [user]))
  }

  /** `unenrollFromCohort`: 404, then 400 for a user not on the roster;
      otherwise every occurrence of the user is filtered out, the rest kept
      in order. Unlike enrollment, an inactive cohort may be left. */
  function Unenroll(found: Option<Cohort>, user: Id): (r: Result<Cohort>)
    ensures found.None? ==> r == Fail(404, CohortNotFound)
    ensures found.Some? && user !in found.value.enrolled ==> r == Fail(400, NotEnrolled)
    ensures r.Ok? <==> found.Some? && user in found.value.enrolled && ValidCohort(found.value)
    ensures r.Ok? ==>
      && r.value == found.value.(enrolled := r.value.enrolled)
      && user !in r.value.enrolled
      && (forall u :: u in found.value.enrolled && u != user ==> u in r.value.enrolled)
      && (forall u :: u in r.value.enrolled ==> u in found.value.enrolled)
      && (forall u :: multiset(r.value.enrolled)[u]
                      == if u == user then 0 else multiset(found.value.enrolled)[u])
      && r.value.enrolled == RemoveKey(found.value.enrolled, Self, user)
  {
    match found
    case None => Fail(404, CohortNotFound)
    case Some(c) =>
      if user !in c.enrolled then Fail(400, NotEnrolled)
      else
        var kept := RemoveKey(c.enrolled, Self, user);
        Leaving(c.enrolled, user);
        Save(c.(enrolled := kept))
  }

  /** The roster left after filtering one user out: that user is gone, every
      other user stays as often as before, and nobody is added. */
  lemma Leaving(roster: seq<Id>, user: Id)
    ensures var kept := RemoveKey(roster, Self, user);
            && user !in kept
            && (forall u :: u in roster && u != user ==> u in kept)
            && (forall u :: u in kept ==> u in roster)
            && (forall u :: multiset(kept)[u] == if u == user then 0 else multiset(roster)[u])
  {
    var kept := RemoveKey(roster, Self, user);
    RemoveKeyCounts(roster, Self, user);
    forall u | u in roster && u != user ensures u in kept {
      var i :| 0 <= i < |roster| && roster[i] == u;
    }
    InRoster(kept, user);
  }

  /** Enrolling and then unenrolling a user who was not enrolled gives back
      the cohort as it was. */
  lemma EnrollThenUnenroll(c: Cohort, user: Id)
    requires c.isActive && ValidCohort(c) && user !in c.enrolled
    ensures Enroll(Some(c), user).Ok?
    ensures Unenroll(Some(Enroll(Some(c), user).value), user) == Ok(c)
  {
    InRoster(c.enrolled, user);
    RemoveAfterAppend(c.enrolled, Self, user);
  }

  /** A user who has just enrolled may see the details, and is counted. */
  lemma EnrollThenDetails(c: Cohort, user: Id)
    requires c.isActive && ValidCohort(c) && user !in c.enrolled
    ensures var e := Enroll(Some(c), user);
            && e.Ok?
            && GetCohortDetails(Some(e.value), user) == Ok(Details(e.value, |c.enrolled| + 1))
  {
    var e := Enroll(Some(c), user);
    assert user in e.value.enrolled by {
      assert e.value.enrolled[|c.enrolled|] == user;
    }
  }

  /** After unenrolling, the user is refused the details. */
  lemma UnenrollThenDetails(c: Cohort, user: Id)
    requires ValidCohort(c) && user in c.enrolled
    ensures var u := Unenroll(Some(c), user);
            && u.Ok?
            && GetCohortDetails(Some(u.value), user) == Fail(403, NotEnrolled)
  {
  }

  /** Enrollment and unenrollment keep a cohort well formed: the roster never
      lists a user twice. */
  lemma RosterStaysUnique(c: Cohort, user: Id)
    requires WellFormed(c)
    ensures Enroll(Some(c), user).Ok? ==> WellFormed(Enroll(Some(c), user).value)
    ensures Unenroll(Some(c), user).Ok? ==> WellFormed(Unenroll(Some(c), user).value)
  {
    if Enroll(Some(c), user).Ok? {
      InRoster(c.enrolled, user);
      AppendKeepsUnique(c.enrolled, Self, user);
    }
    RemoveKeyKeepsUnique(c.enrolled, Self, user);
  }

  /** The query `{ enrolledUsers: user, isActive: true }`. */
  predicate EnrolledIn(c: Cohort, user: Id) {
    c.isActive && user in c.enrolled
  }

  /** `getUserEnrolledCohorts`: the active cohorts whose roster holds the
      user, in store order. */
  function GetUserEnrolledCohorts(store: seq<Cohort>, user: Id): (r: seq<Cohort>)
    ensures |r| <= |store|
    ensures forall i :: 0 <= i < |r| ==> r[i] in store && EnrolledIn(r[i], user)
    ensures forall i :: 0 <= i < |store| && EnrolledIn(store[i], user) ==> store[i] in r
  {
    if |store| == 0 then []
    else (if EnrolledIn(store[0], user) then [store[0]] else []) + GetUserEnrolledCohorts(store[1..], user)
  }

  /** Each of the user's active cohorts appears as often as it is stored and
      no other appears. */
  lemma {:induction false} EnrolledCounts(store: seq<Cohort>, user: Id)
    ensures forall c :: multiset(GetUserEnrolledCohorts(store, user))[c]
                        == if EnrolledIn(c, user) then multiset(store)[c] else 0
    decreases |store|
  {
    if |store| > 0 {
      EnrolledCounts(store[1..], user);
      assert store == [store[0]] + store[1..];
    }
  }

  /** A user's own cohorts are among the public listing. */
  lemma EnrolledAreListed(store: seq<Cohort>, user: Id)
    ensures forall i :: 0 <= i < |GetUserEnrolledCohorts(store, user)| ==>
      GetUserEnrolledCohorts(store, user)[i] in GetAllCohorts(store, "")
  {
    var mine := GetUserEnrolledCohorts(store, user);
    forall i | 0 <= i < |mine| ensures mine[i] in GetAllCohorts(store, "") {
      var j :| 0 <= j < |store| && store[j] == mine[i];
    }
  }
}

=== FILE: cohort_model.dfy ===
/** The Cohort document with its embedded roadmap items and videos, the field
    validators that guard every save, and the collection of cohorts. */
module CohortModel {
  import opened Common
  import opened Text
  import opened Seqs

  /** One roadmap step. `id` is the sub-document's own `_id`. */
  datatype RoadmapItem = RoadmapItem(id: Id, title: string, description: string, order: int)

  /** One lesson video; `duration` is free text such as "15:30", or `null`. */
  datatype Video = Video(id: Id, title: string, videoUrl: string, duration: Option<string>, order: int)

  /** A cohort: descriptive fields, the active flag, its creator, the roster
      of enrolled user ids, and its content. */
  datatype Cohort = Cohort(
    id: Id,
    title: string,
    description: string,
    category: string,
    isActive: bool,
    createdBy: Id,
    enrolled: seq<Id>,
    roadmap: seq<RoadmapItem>,
    videos: seq<Video>)

  function CohortIdOf(c: Cohort): Id {
    c.id
  }

  function ItemIdOf(i: RoadmapItem): Id {
    i.id
  }

  function VideoIdOf(v: Video): Id {
    v.id
  }

  /** Roster entries are their own key. */
  function Self(u: Id): Id {
    u
  }

  /** On a roster, having the key is plain membership (`includes`). */
  lemma InRoster(s: seq<Id>, u: Id)
    ensures HasKey(s, Self, u) <==> u in s
  {
    if u in s {
      var i :| 0 <= i < |s| && s[i] == u;
      assert Self(s[i]) == u;
    }
    if HasKey(s, Self, u) {
      var i :| 0 <= i < |s| && Self(s[i]) == u;
      assert s[i] in s;
    }
  }

  const Categories: seq<string> := [
    "Web Development", "Mobile Apps", "Data Science", "UI/UX Design",
    "Cloud Computing", "AI & ML", "Python", "JavaScript", "React", "Other"]

  const MinTitleLength := 3
  const MaxTitleLength := 100
  const MinDescriptionLength := 10
  const MaxDescriptionLength := 500
  const MaxItemTitleLength := 100
  const MaxItemDescriptionLength := 500

  /** The title of a roadmap item or video: required, stored trimmed, at most
      100 characters. */
  predicate ValidItemTitle(t: string) {
    t != "" && IsTrimmed(t) && |t| <= MaxItemTitleLength
  }

  predicate ValidRoadmapItem(it: RoadmapItem) {
    ValidItemTitle(it.title) && it.description != "" && |it.description| <= MaxItemDescriptionLength
  }

  predicate ValidVideo(v: Video) {
    ValidItemTitle(v.title) && IsYouTubeUrl(v.videoUrl)
  }

  /** Everything the cohort schema checks when a document is created or saved:
      title trimmed and 3..100 long, description 10..500 long, category from
      the fixed list, a creator, and every embedded item valid. */
  predicate ValidCohort(c: Cohort) {
    && IsTrimmed(c.title) && MinTitleLength <= |c.title| <= MaxTitleLength
    && MinDescriptionLength <= |c.description| <= MaxDescriptionLength
    && c.category in Categories
    && c.createdBy != ""
    && (forall i :: 0 <= i < |c.roadmap| ==> ValidRoadmapItem(c.roadmap[i]))
    && (forall i :: 0 <= i < |c.videos| ==> ValidVideo(c.videos[i]))
  }

  /** What every stored cohort satisfies: it passed validation, and no user is
      on its roster twice (the schema allows duplicates; enrollment avoids
      them). */
  predicate WellFormed(c: Cohort) {
    ValidCohort(c) && c.id != "" && UniqueKeys(c.enrolled, Self)
  }

  /** A cohort with one more roadmap item validates exactly when the cohort
      did and the item does. */
  lemma AppendItemValid(c: Cohort, item: RoadmapItem)
    ensures ValidCohort(c.(roadmap := c.roadmap + [item])) <==> ValidCohort(c) && ValidRoadmapItem(item)
  {
    var rm := c.roadmap + [item];
    assert rm[|c.roadmap|] == item;
    assert forall i :: 0 <= i < |c.roadmap| ==> rm[i] == c.roadmap[i];
  }

  /** The same for one more video. */
  lemma AppendVideoValid(c: Cohort, video: Video)
    ensures ValidCohort(c.(videos := c.videos + [video])) <==> ValidCohort(c) && ValidVideo(video)
  {
    var vs := c.videos + [video];
    assert vs[|c.videos|] == video;
    assert forall i :: 0 <= i < |c.videos| ==> vs[i] == c.videos[i];
  }

  /** `cohort.save()` / `Cohort.create`: a document failing validation is
      thrown and reported as 500. */
  function Save(c: Cohort): (r: Result<Cohort>)
    ensures r.Ok? <==> ValidCohort(c)
    ensures r.Ok? ==> r.value == c
    ensures r.Fail? ==> r.status == 500
  {
    if ValidCohort(c) then Ok(c) else Fail(500, "Cohort validation failed")
  }

  // ---------------------------------------------------------------------
  // The YouTube URL validator

  /** `[\w-]{11}` starting at index `i`. */
  predicate VideoKeyAt(s: string, i: nat) {
    i + 11 <= |s| && forall k :: i <= k < i + 11 ==> IsWordChar(s[k]) || s[k] == '-'
  }

  const Schemes: seq<string> := ["http://", "https://"]
  const Subdomains: seq<string> := ["", "www."]
  const Paths: seq<string> := ["youtube.com/watch?v=", "youtu.be/", "youtube.com/embed/"]

  /** The two regular expressions of the validator, spelled out: a scheme, an
      optional `www.`, one of the three paths, then an 11-character video key.
      Both are anchored at the start only, so anything may follow. */
  predicate MatchesYouTubePattern(v: string) {
    exists a, b, c :: 0 <= a < |Schemes| && 0 <= b < |Subdomains| && 0 <= c < |Paths|
      && StartsWith(v, Schemes[a] + Subdomains[b] + Paths[c])
      && VideoKeyAt(v, |Schemes[a]| + |Subdomains[b]| + |Paths[c]|)
  }

  function SchemeLength(v: string): nat {
    if StartsWith(v, "https://") then 8 else if StartsWith(v, "http://") then 7 else 0
  }

  function SubdomainLength(v: string, from: nat): nat
    requires from <= |v|
  {
    if StartsWith(v[from..], "www.") then 4 else 0
  }

  function PathLength(v: string, from: nat): nat
    requires from <= |v|
  {
    if StartsWith(v[from..], "youtube.com/watch?v=") then 20
    else if StartsWith(v[from..], "youtu.be/") then 9
    else if StartsWith(v[from..], "youtube.com/embed/") then 18
    else 0
  }

  /** The validator as a left-to-right scan: scheme, optional `www.`, path,
      video key. No backtracking is needed because the alternatives at each
      step differ in a fixed character. */
  predicate IsYouTubeUrl(v: string) {
    var a := SchemeLength(v);
    a > 0 && a <= |v| && (
      var b := SubdomainLength(v, a);
      a + b <= |v| && (
        var c := PathLength(v, a + b);
        c > 0 && VideoKeyAt(v, a + b + c)))
  }

  lemma SchemeIsDetermined(v: string, a: nat)
    requires a < |Schemes| && StartsWith(v, Schemes[a])
    ensures SchemeLength(v) == |Schemes[a]|
  {
    PrefixChar(v, Schemes[a], 4);
    PrefixChar(v, "https://", 4);
  }

  lemma SubdomainIsDetermined(v: string, a: nat, b: nat, c: nat)
    requires a <= |v| && b < |Subdomains| && c < |Paths|
    requires StartsWith(v[a..], Subdomains[b] + Paths[c])
    ensures SubdomainLength(v, a) == |Subdomains[b]|
  {
    StartsWithConcat(v[a..], Subdomains[b], Paths[c]);
    PrefixChar(v[a..], Subdomains[b] + Paths[c], 0);
    PrefixChar(v[a..], "www.", 0);
  }

  lemma PathIsDetermined(v: string, from: nat, c: nat)
    requires from <= |v| && c < |Paths| && StartsWith(v[from..], Paths[c])
    ensures PathLength(v, from) == |Paths[c]|
  {
    var w := v[from..];
    PrefixChar(w, Paths[c], 5);
    PrefixChar(w, "youtube.com/watch?v=", 5);
    PrefixChar(w, "youtu.be/", 5);
    if c == 2 {
      PrefixChar(w, Paths[c], 12);
      PrefixChar(w, "youtube.com/watch?v=", 12);
    }
  }

  /** Whatever the scan accepts, the regular expressions match. */
  lemma ScanMatchesPattern(v: string)
    requires IsYouTubeUrl(v)
    ensures MatchesYouTubePattern(v)
  {
    var a := SchemeLength(v);
    var b := SubdomainLength(v, a);
    var c := PathLength(v, a + b);
    var ia := if a == 8 then 1 else 0;
    var ib := if b == 4 then 1 else 0;
    var ic := if c == 20 then 0 else if c == 9 then 1 else 2;
    assert a == |Schemes[ia]| && StartsWith(v, Schemes[ia]);
    assert b == |Subdomains[ib]| && StartsWith(v[a..], Subdomains[ib]);
    assert c == |Paths[ic]| && StartsWith(v[a + b..], Paths[ic]);
    PiecesMakePattern(v, ia, ib, ic);
  }

  /** A scheme, a subdomain and a path read one after the other, followed by
      a video key, make a match. */
  lemma PiecesMakePattern(v: string, ia: nat, ib: nat, ic: nat)
    requires ia < |Schemes| && ib < |Subdomains| && ic < |Paths|
    requires |Schemes[ia]| + |Subdomains[ib]| <= |v|
    requires StartsWith(v, Schemes[ia]) && StartsWith(v[|Schemes[ia]|..], Subdomains[ib])
    requires StartsWith(v[|Schemes[ia]| + |Subdomains[ib]|..], Paths[ic])
    requires VideoKeyAt(v, |Schemes[ia]| + |Subdomains[ib]| + |Paths[ic]|)
    ensures MatchesYouTubePattern(v)
  {
    ThreePieces(v, Schemes[ia], Subdomains[ib], Paths[ic]);
  }

  /** Three prefixes read one after the other make one prefix. */
  lemma ThreePieces(v: string, s: string, d: string, p: string)
    requires |s| + |d| <= |v|
    requires StartsWith(v, s) && StartsWith(v[|s|..], d) && StartsWith(v[|s| + |d|..], p)
    ensures StartsWith(v, s + d + p)
  {
    assert StartsWith(v[|s|..], d + p) by {
      assert v[|s|..][|d|..] == v[|s| + |d|..];
      StartsWithConcat(v[|s|..], d, p);
    }
    StartsWithConcat(v, s, d + p);
    assert s + d + p == s + (d + p);
  }

  /** A three-piece prefix, matched piece by piece. */
  lemma PrefixPieces(v: string, s: string, d: string, p: string)
    requires StartsWith(v, s + d + p)
    ensures |s| + |d| <= |v|
    ensures StartsWith(v, s) && StartsWith(v[|s|..], d + p)
    ensures StartsWith(v[|s| + |d|..], p)
  {
    assert s + d + p == s + (d + p);
    StartsWithConcat(v, s, d + p);
    StartsWithConcat(v[|s|..], d, p);
    assert v[|s|..][|d|..] == v[|s| + |d|..];
  }

  /** Whatever the regular expressions match, the scan accepts. */
  lemma PatternPassesScan(v: string)
    requires MatchesYouTubePattern(v)
    ensures IsYouTubeUrl(v)
  {
    var ia, ib, ic :| 0 <= ia < |Schemes| && 0 <= ib < |Subdomains| && 0 <= ic < |Paths|
      && StartsWith(v, Schemes[ia] + Subdomains[ib] + Paths[ic])
      && VideoKeyAt(v, |Schemes[ia]| + |Subdomains[ib]| + |Paths[ic]|);
    ChosenPiecesPassScan(v, ia, ib, ic);
  }

  /** The scan follows the pieces a match is made of. */
  lemma ChosenPiecesPassScan(v: string, ia: nat, ib: nat, ic: nat)
    requires ia < |Schemes| && ib < |Subdomains| && ic < |Paths|
    requires StartsWith(v, Schemes[ia] + Subdomains[ib] + Paths[ic])
    requires VideoKeyAt(v, |Schemes[ia]| + |Subdomains[ib]| + |Paths[ic]|)
    ensures IsYouTubeUrl(v)
  {
    var s, d, p := Schemes[ia], Subdomains[ib], Paths[ic];
    assert |s| + |d| <= |v| && StartsWith(v, s) && StartsWith(v[|s|..], d + p)
           && StartsWith(v[|s| + |d|..], p) by {
      PrefixPieces(v, s, d, p);
    }
    var a := SchemeLength(v);
    assert a == |s| by {
      SchemeIsDetermined(v, ia);
    }
    var b := SubdomainLength(v, a);
    assert b == |d| by {
      SubdomainIsDetermined(v, |s|, ib, ic);
    }
    var c := PathLength(v, a + b);
    assert c == |p| by {
      PathIsDetermined(v, |s| + |d|, ic);
    }
    assert a > 0 && c > 0;
    assert VideoKeyAt(v, a + b + c);
  }

  /** The scan accepts exactly the URLs the regular expressions match. */
  lemma YouTubeScanIsPattern(v: string)
    ensures IsYouTubeUrl(v) <==> MatchesYouTubePattern(v)
  {
    if IsYouTubeUrl(v) {
      ScanMatchesPattern(v);
    }
    if MatchesYouTubePattern(v) {
      PatternPassesScan(v);
    }
  }

  // ---------------------------------------------------------------------
  // The collection

  /** All cohorts, in insertion order; `_id` is unique. */
  predicate WellFormedStore(store: seq<Cohort>) {
    UniqueKeys(store, CohortIdOf) && forall i :: 0 <= i < |store| ==> WellFormed(store[i])
  }

  /** `Cohort.findById(id)`. */
  function FindCohort(store: seq<Cohort>, id: Id): (r: Option<Cohort>)
    ensures r.Some? <==> HasKey(store, CohortIdOf, id)
    ensures r.Some? ==> r.value in store && r.value.id == id
  {
    match FindKey(store, CohortIdOf, id)
    case None => None
    case Some(i) => Some(store[i])
  }

  /** Writes a saved cohort back over the stored one with the same id. */
  function Replace(store: seq<Cohort>, c: Cohort): (r: seq<Cohort>)
    ensures |r| == |store|
    ensures HasKey(store, CohortIdOf, c.id) ==> c in r
    ensures forall i :: 0 <= i < |store| && store[i].id != c.id ==> r[i] == store[i]
  {
    match FindKey(store, CohortIdOf, c.id)
    case None => store
    case Some(i) => var r := store[i := c]; assert r[i] == c; r
  }

  /** Writing back a well-formed cohort keeps the collection well formed. */
  lemma ReplaceKeepsStore(store: seq<Cohort>, c: Cohort)
    requires WellFormedStore(store) && WellFormed(c)
    ensures WellFormedStore(Replace(store, c))
  {
    match FindKey(store, CohortIdOf, c.id)
    case None =>
    case Some(i) =>
      UpdateKeepsUnique(store, CohortIdOf, i, c);
  }
}

=== FILE: common.dfy ===
/** Shared vocabulary of the model: object ids, optional values and the
    outcome of a request handler. */
module Common {

  /** A MongoDB object id, as its string form. The empty string stands for a
      missing value: the handlers only ever test ids for truthiness. */
  type Id = string

  /** A value that may be absent (undefined/null in the source). */
  datatype Option<+T> = None | Some(value: T)

  /** What a request handler sends back: either success carrying a value, or
      an error response with its HTTP status and message. The source answers
      every thrown exception with status 500 and the exception's message. */
  datatype Result<+T> = Ok(value: T) | Fail(status: nat, message: string)
}

=== FILE: message_log.dfy ===
/** The message collection as the channel handlers use it: an append-only log
    in creation order, soft-deletable, read back a page at a time. */
module MessageLog {
  import opened Common

  /** A stored message. Its position in the log is its creation order. */
  datatype Message = Message(channel: Id, sender: Id, text: string, isDeleted: bool)

  predicate Shown(m: Message, channel: Id) {
    m.channel == channel && !m.isDeleted
  }

  /** The messages of `channel` that are not soft-deleted, oldest first:
      what `{ channel, isDeleted: false }` selects. */
  function Visible(log: seq<Message>, channel: Id): (r: seq<Message>)
    ensures |r| <= |log|
    ensures forall i :: 0 <= i < |r| ==> r[i] in log && Shown(r[i], channel)
    ensures forall i :: 0 <= i < |log| && Shown(log[i], channel) ==> log[i] in r
  {
    if |log| == 0 then []
    else
      var last := log[|log| - 1];
      Visible(log[..|log| - 1], channel) + (if Shown(last, channel) then [last] else [])
  }

  function Reverse<T>(s: seq<T>): (r: seq<T>)
    ensures |r| == |s|
    ensures forall i :: 0 <= i < |s| ==> r[i] == s[|s| - 1 - i]
  {
    if |s| == 0 then [] else Reverse(s[1..]) + [s[0]]
  }

  /** The query `.sort({ createdAt: -1 }).limit(limit).skip(skip)`: newest
      first, the first `skip` dropped, at most `limit` kept. MongoDB applies
      skip before limit whatever the call order, and reads `limit(0)` as no
      limit at all. */
  function NewestFirst(visible: seq<Message>, limit: nat, skip: nat): (r: seq<Message>)
    ensures |r| <= |visible|
  {
    var desc := Reverse(visible);
    var rest := if skip <= |desc| then desc[skip..] else [];
    if limit == 0 || limit >= |rest| then rest else rest[..limit]
  }

  /** The page the handler returns: the query result reversed back into
      oldest-first order. */
  function Page(visible: seq<Message>, limit: nat, skip: nat): seq<Message> {
    Reverse(NewestFirst(visible, limit, skip))
  }

  /** One past the newest message of the window: `skip` newest ones are left out. */
  function WindowEnd(n: nat, skip: nat): nat {
    if skip <= n then n - skip else 0
  }

  /** The oldest message of the window: `limit` back from its end (no bound
      when `limit` is 0). */
  function WindowStart(n: nat, limit: nat, skip: nat): nat {
    var hi := WindowEnd(n, skip);
    if limit == 0 || limit >= hi then 0 else hi - limit
  }

  /** The page is the chronological slice of the visible messages that ends
      `skip` messages before the newest and holds at most `limit` of them. */
  lemma PageIsWindow(visible: seq<Message>, limit: nat, skip: nat)
    ensures WindowStart(|visible|, limit, skip) <= WindowEnd(|visible|, skip) <= |visible|
    ensures Page(visible, limit, skip)
            == visible[WindowStart(|visible|, limit, skip)..WindowEnd(|visible|, skip)]
  {
    var n := |visible|;
    var lo, hi := WindowStart(n, limit, skip), WindowEnd(n, skip);
    var q := NewestFirst(visible, limit, skip);
    var desc := Reverse(visible);
    assert |q| == hi - lo;
    forall j | 0 <= j < |q| ensures q[j] == visible[hi - 1 - j] {
      assert q[j] == desc[skip + j];
    }
    var p := Page(visible, limit, skip);
    forall t | 0 <= t < |p| ensures p[t] == visible[lo..hi][t] {
      assert p[t] == q[|q| - 1 - t];
    }
  }

  /** Selecting the visible messages distributes over concatenation: the
      selected messages keep their order and each occurs as often as in the
      log. */
  lemma {:induction false} VisibleConcat(a: seq<Message>, b: seq<Message>, channel: Id)
    ensures Visible(a + b, channel) == Visible(a, channel) + Visible(b, channel)
    decreases |b|
  {
    if |b| == 0 {
      assert a + b == a;
    } else {
      var init := b[..|b| - 1];
      assert (a + b)[..|a + b| - 1] == a + init;
      assert (a + b)[|a + b| - 1] == b[|b| - 1];
      VisibleConcat(a, init, channel);
    }
  }

  /** The same selection read front to back, as a `filter` over the log. */
  function ShownIn(log: seq<Message>, channel: Id): seq<Message> {
    if |log| == 0 then []
    else (if Shown(log[0], channel) then [log[0]] else []) + ShownIn(log[1..], channel)
  }

  /** Taking messages from the newest end and filtering from the oldest end
      select the same messages in the same order. */
  lemma {:induction false} VisibleIsFilter(log: seq<Message>, channel: Id)
    ensures Visible(log, channel) == ShownIn(log, channel)
    decreases |log|
  {
    if |log| > 0 {
      assert log == [log[0]] + log[1..];
      VisibleConcat([log[0]], log[1..], channel);
      VisibleOne(log[0], channel);
      VisibleIsFilter(log[1..], channel);
    }
  }

  /** A single message is selected exactly when it is shown. */
  lemma VisibleOne(m: Message, channel: Id)
    ensures Visible([m], channel) == if Shown(m, channel) then [m] else []
  {
    assert [m][..0] == [];
  }

  /** A log of live messages of one channel is shown whole. */
  lemma {:induction false} VisibleAllShown(log: seq<Message>, channel: Id)
    requires forall i :: 0 <= i < |log| ==> Shown(log[i], channel)
    ensures Visible(log, channel) == log
  {
    if |log| > 0 {
      var init := log[..|log| - 1];
      var last := log[|log| - 1];
      assert Visible(init, channel) == init by {
        forall i | 0 <= i < |init| ensures Shown(init[i], channel) {
          assert init[i] == log[i];
        }
        VisibleAllShown(init, channel);
      }
      assert Visible(log, channel) == log by {
        assert Shown(last, channel);
        assert init + [last] == log;
        VisibleConcat(init, [last], channel);
        VisibleOne(last, channel);
      }
    }
  }
}

=== FILE: oauth_controller.dfy ===
/** Sign-in through Google and GitHub: find the account by provider id or
    e-mail, link the provider to it without overwriting anything, or create
    a new account. Token verification and the GitHub API replies are
    inputs. */
module OAuthController {
  import opened Common
  import opened Text
  import opened Seqs
  import opened UserModel

  const MissingFields := "Missing required fields"
  const ExchangeFailed := "Failed to exchange authorization code"
  const NoGithubEmail := "Unable to retrieve email from GitHub"
  const InvalidIdToken := "Invalid token signature"

  /** The account field that holds the id of provider `p`. */
  function ProviderId(u: User, p: Provider): string
    requires p != Local
  {
    if p == Google then u.googleId else u.githubId
  }

  /** One clause of `$or: [{ <provider>Id: pid }, { email }]`. */
  predicate MatchesEither(u: User, p: Provider, pid: string, email: string)
    requires p != Local
  {
    ProviderId(u, p) == pid || u.email == ToLower(email)
  }

  /** `User.findOne({ $or: ... })`: the first matching user in store order. */
  function FindEither(store: seq<User>, p: Provider, pid: string, email: string): (r: Option<nat>)
    requires p != Local
    ensures r.Some? ==> r.value < |store| && MatchesEither(store[r.value], p, pid, email)
    ensures r.Some? ==> forall j :: 0 <= j < r.value ==> !MatchesEither(store[j], p, pid, email)
    ensures r.None? ==> forall j :: 0 <= j < |store| ==> !MatchesEither(store[j], p, pid, email)
  {
    if |store| == 0 then None
    else if MatchesEither(store[0], p, pid, email) then Some(0)
    else match FindEither(store[1..], p, pid, email)
      case None => None
      case Some(j) => Some(j + 1)
  }

  /** The update of an account found at sign-in: the provider id (and with
      it `authProvider`) only when the account has none, the picture only
      when the account has none and one is offered. */
  function Link(u: User, p: Provider, pid: string, picture: string): (r: User)
    requires p != Local
    ensures r.id == u.id && r.fullName == u.fullName && r.email == u.email
    ensures r.password == u.password && r.isAdmin == u.isAdmin
    ensures r.resetToken == u.resetToken && r.resetTokenExpires == u.resetTokenExpires
    ensures ProviderId(u, p) != "" ==> ProviderId(r, p) == ProviderId(u, p) && r.authProvider == u.authProvider
    ensures ProviderId(u, p) == "" ==> ProviderId(r, p) == pid && r.authProvider == p
    ensures p == Google ==> r.githubId == u.githubId
    ensures p == Github ==> r.googleId == u.googleId
    ensures r.profileImage == (if picture != "" && u.profileImage == "" then picture else u.profileImage)
  {
    var linked :=
      if ProviderId(u, p) != "" then u
      else if p == Google then u.(googleId := pid, authProvider := Google)
      else u.(githubId := pid, authProvider := Github);
    if picture != "" && u.profileImage == "" then linked.(profileImage := picture) else linked
  }

  /** Linking is idempotent: signing in again with the same profile changes
      nothing more. */
  lemma LinkTwice(u: User, p: Provider, pid: string, picture: string)
    requires p != Local
    ensures Link(Link(u, p, pid, picture), p, pid, picture) == Link(u, p, pid, picture)
  {
  }

  /** The outcome of a sign-in: the users afterwards and the signed-in one. */
  type SignedIn = (seq<User>, User)

  /** The find-or-link-or-create step shared by all sign-in paths. A found
      account is linked and saved; otherwise an account is inserted from the
      profile (a missing or too-short name fails validation, and an id
      already in use is a duplicate key, both 500). Saving a
      link can also fail with 500 when the provider id already belongs to a
      different account than the one the e-mail found. */
  function SignIn(store: seq<User>, p: Provider, pid: string, email: string, name: string,
                  picture: string, newId: Id): (r: Result<SignedIn>)
    requires p != Local
    ensures r.Fail? ==> r.status == 500
    ensures FindEither(store, p, pid, email).Some? ==>
      var u := store[FindEither(store, p, pid, email).value];
      && (r.Ok? <==> Persist(store, Link(u, p, pid, picture)).Ok?)
      && (r.Ok? ==> r.value.1 == Link(u, p, pid, picture))
    ensures FindEither(store, p, pid, email).None? ==>
      (r.Ok? <==> email != "" && MinNameLength <= |Trim(name)| <= MaxNameLength
                  && !HasKey(store, UserIdOf, newId))
    ensures FindEither(store, p, pid, email).None? && r.Ok? ==>
      var u := r.value.1;
      && u.id == newId && u.fullName == Trim(name) && u.email == ToLower(email)
      && ProviderId(u, p) == pid && u.authProvider == p && u.profileImage == picture
      && u.password.None? && !u.isAdmin
    ensures FindEither(store, p, pid, email).None? && r.Ok? ==>
      |r.value.0| == |store| + 1 && r.value.0[..|store|] == store && r.value.0[|store|] == r.value.1
    ensures r.Ok? ==> Written(store, r.value.0, r.value.1)
  {
    var created := NewAccount(store, p, pid, email, name, picture, newId);
    var found := FindEither(store, p, pid, email);
    var u := if found.Some? then Link(store[found.value], p, pid, picture) else created;
    InsertIsFreshPersist(store, created);
    var s := if found.Some? then Persist(store, u) else Insert(store, u);
    if s.Fail? then Fail(s.status, s.message) else Ok((s.value, u))
  }

  /** The account created when no user matches: the profile through the
      setters, the provider id in its field. It passes validation exactly
      when the address is given and the trimmed name has an allowed length,
      and, as nobody holds its address or provider id, it clashes with no
      stored user. */
  function NewAccount(store: seq<User>, p: Provider, pid: string, email: string, name: string,
                      picture: string, newId: Id): (u: User)
    requires p != Local
    ensures u.id == newId && u.fullName == Trim(name) && u.email == ToLower(email)
    ensures ProviderId(u, p) == pid && u.authProvider == p && u.profileImage == picture
    ensures u.password.None? && !u.isAdmin && u.resetToken == "" && u.resetTokenExpires.None?
    ensures p == Google ==> u.githubId == ""
    ensures p == Github ==> u.googleId == ""
    ensures ValidUser(u) <==> email != "" && MinNameLength <= |Trim(name)| <= MaxNameLength
    ensures FindEither(store, p, pid, email).None? ==> !Clashes(store, u)
  {
    var u := Shape(newId, name, email, p, if p == Google then pid else "",
                   if p == Github then pid else "", picture, false);
    assert ValidUser(u) <==> email != "" && MinNameLength <= |Trim(name)| <= MaxNameLength by {
      assert ToLower(email) == [] <==> email == [];
    }
    NoMatchNoClash(store, p, pid, email, u);
    u
  }

  /** An account that carries the queried address and provider id, and no
      id of the other provider, clashes with nobody when the query matched
      nobody. */
  lemma NoMatchNoClash(store: seq<User>, p: Provider, pid: string, email: string, u: User)
    requires p != Local && u.email == ToLower(email) && ProviderId(u, p) == pid
    requires p == Google ==> u.githubId == ""
    requires p == Github ==> u.googleId == ""
    ensures FindEither(store, p, pid, email).None? ==> !Clashes(store, u)
  {
  }

  /** What Google's verified ID token carries. */
  datatype GooglePayload = GooglePayload(sub: string, email: string, name: string, picture: string)

  /** `googleCallback`: 400 without a credential, before any verification;
      a credential that does not verify throws (500); otherwise the shared
      sign-in step with provider Google. The welcome mail is outside the
      result. */
  function GoogleCallback(store: seq<User>, credential: string,
                          verify: string -> Option<GooglePayload>, newId: Id): (r: Result<SignedIn>)
    ensures credential == "" ==> r == Fail(400, MissingFields)
    ensures credential != "" && verify(credential).None? ==> r == Fail(500, InvalidIdToken)
    ensures credential != "" && verify(credential).Some? ==>
      var g := verify(credential).value;
      r == SignIn(store, Google, g.sub, g.email, g.name, g.picture, newId)
  {
    if credential == "" then Fail(400, MissingFields)
    else match verify(credential)
      case None => Fail(500, InvalidIdToken)
      case Some(g) => SignIn(store, Google, g.sub, g.email, g.name, g.picture, newId)
  }

  /** One entry of GitHub's `/user/emails` reply. */
  datatype EmailEntry = EmailEntry(email: string, primary: bool)

  /** The first entry marked primary (`emails.find(e => e.primary)`). */
  function FirstPrimary(emails: seq<EmailEntry>): (r: Option<nat>)
    ensures r.Some? ==> r.value < |emails| && emails[r.value].primary
    ensures r.Some? ==> forall j :: 0 <= j < r.value ==> !emails[j].primary
    ensures r.None? ==> forall j :: 0 <= j < |emails| ==> !emails[j].primary
  {
    if |emails| == 0 then None
    else if emails[0].primary then Some(0)
    else match FirstPrimary(emails[1..])
      case None => None
      case Some(j) => Some(j + 1)
  }

  /** The address used for a GitHub account: the public one; failing that,
      the first primary entry's; failing that (also when that entry's
      address is empty), the first entry's; "" when there is none. */
  function ChooseGithubEmail(publicEmail: string, emails: seq<EmailEntry>): (r: string)
    ensures publicEmail != "" ==> r == publicEmail
    ensures publicEmail == "" && FirstPrimary(emails).Some? && emails[FirstPrimary(emails).value].email != ""
            ==> r == emails[FirstPrimary(emails).value].email
    ensures r != "" ==> r == publicEmail || exists i :: 0 <= i < |emails| && emails[i].email == r
    ensures (&& publicEmail == ""
             && (FirstPrimary(emails).None? || emails[FirstPrimary(emails).value].email == "")
             && |emails| > 0)
            ==> r == emails[0].email
    ensures r == "" ==> publicEmail == "" && (|emails| == 0 || emails[0].email == "")
  {
    if publicEmail != "" then publicEmail
    else
      var primary := match FirstPrimary(emails)
        case Some(i) => emails[i].email
        case None => "";
      if primary != "" then primary
      else if |emails| > 0 then emails[0].email
      else ""
  }

  /** When the primary entry has an empty address the first entry is used,
      even if it is not primary. */
  lemma EmptyPrimaryFallsBack()
    ensures ChooseGithubEmail("", [EmailEntry("a@x.io", false), EmailEntry("", true)]) == "a@x.io"
  {
    var es := [EmailEntry("a@x.io", false), EmailEntry("", true)];
    assert FirstPrimary(es[1..]) == Some(0);
  }

  /** The first non-empty string of a list of candidates, "" when all are
      empty: the meaning of a chain of `||` on strings. */
  function FirstNonEmpty(candidates: seq<string>): (r: string)
    ensures r != "" ==> r in candidates
    ensures r == "" <==> forall i :: 0 <= i < |candidates| ==> candidates[i] == ""
  {
    if |candidates| == 0 then ""
    else if candidates[0] != "" then candidates[0]
    else FirstNonEmpty(candidates[1..])
  }

  /** The address chosen for a GitHub account is the first non-empty of
      `email`, `primaryEmail?.email` and `emails[0]?.email`. */
  lemma ChooseIsFirstNonEmpty(publicEmail: string, emails: seq<EmailEntry>)
    ensures var primary := if FirstPrimary(emails).Some? then emails[FirstPrimary(emails).value].email else "";
            var first := if |emails| > 0 then emails[0].email else "";
            ChooseGithubEmail(publicEmail, emails) == FirstNonEmpty([publicEmail, primary, first])
  {
    var primary := if FirstPrimary(emails).Some? then emails[FirstPrimary(emails).value].email else "";
    var first := if |emails| > 0 then emails[0].email else "";
    FirstNonEmptyOfThree(publicEmail, primary, first);
  }

  /** Of three candidates, the first non-empty one. */
  lemma FirstNonEmptyOfThree(a: string, b: string, c: string)
    ensures FirstNonEmpty([a, b, c]) == if a != "" then a else if b != "" then b else c
  {
    assert [a, b, c][1..] == [b, c] && [b, c][1..] == [c] && [c][1..] == [];
    assert FirstNonEmpty([c]) == c;
    assert FirstNonEmpty([b, c]) == if b != "" then b else c;
  }

  /** What GitHub's `/user` reply carries (the numeric id already in its
      string form). */
  datatype GithubUser = GithubUser(id: string, login: string, name: string, email: string, avatar: string)

  /** The display name: `name`, else `login`. */
  function GithubName(g: GithubUser): (r: string)
    ensures g.name != "" ==> r == g.name
    ensures g.name == "" ==> r == g.login
  {
    if g.name != "" then g.name else g.login
  }

  /** The request body of `githubCallback`. */
  datatype GithubRequest = GithubRequest(code: string, githubId: string, email: string,
                                         fullName: string, picture: string)

  /** What the code exchange and the API calls reply: whether the exchange
      failed, the user, and the e-mail list. */
  datatype GithubReplies = GithubReplies(exchangeFailed: bool, user: GithubUser, emails: seq<EmailEntry>)

  /** `githubCallback`. With a code: 401 when the exchange fails, 400 when
      no address can be found, else the shared sign-in step with GitHub's
      id, chosen address, name and avatar. Without a code (the legacy
      path): 400 unless both an id and an address are given, else the
      shared step with the request's own fields. */
  function GithubCallback(store: seq<User>, req: GithubRequest, replies: GithubRequest -> GithubReplies,
                          newId: Id): (r: Result<SignedIn>)
    ensures req.code != "" && replies(req).exchangeFailed ==> r == Fail(401, ExchangeFailed)
    ensures req.code != "" && !replies(req).exchangeFailed
            && ChooseGithubEmail(replies(req).user.email, replies(req).emails) == ""
            ==> r == Fail(400, NoGithubEmail)
    ensures req.code != "" && !replies(req).exchangeFailed
            && ChooseGithubEmail(replies(req).user.email, replies(req).emails) != "" ==>
      var g := replies(req).user;
      r == SignIn(store, Github, g.id, ChooseGithubEmail(g.email, replies(req).emails), GithubName(g),
                  g.avatar, newId)
    ensures req.code == "" && (req.githubId == "" || req.email == "") ==> r == Fail(400, MissingFields)
    ensures req.code == "" && req.githubId != "" && req.email != "" ==>
      r == SignIn(store, Github, req.githubId, req.email, req.fullName, req.picture, newId)
    ensures r.Fail? ==> r.status in {400, 401, 500}
  {
    if req.code != "" then
      var answer := replies(req);
      if answer.exchangeFailed then Fail(401, ExchangeFailed)
      else
        var email := ChooseGithubEmail(answer.user.email, answer.emails);
        if email == "" then Fail(400, NoGithubEmail)
        else SignIn(store, Github, answer.user.id, email, GithubName(answer.user), answer.user.avatar, newId)
    else if req.githubId == "" || req.email == "" then Fail(400, MissingFields)
    else SignIn(store, Github, req.githubId, req.email, req.fullName, req.picture, newId)
  }

  /** The code path signs in exactly as the legacy path does when the legacy
      request carries the id, address, name and avatar GitHub reported. */
  lemma CodeAndLegacyAgree(store: seq<User>, req: GithubRequest, replies: GithubRequest -> GithubReplies,
                           newId: Id)
    requires req.code != "" && !replies(req).exchangeFailed && replies(req).user.id != ""
    requires ChooseGithubEmail(replies(req).user.email, replies(req).emails) != ""
    ensures var g := replies(req).user;
            var legacy := GithubRequest("", g.id, ChooseGithubEmail(g.email, replies(req).emails),
                                        GithubName(g), g.avatar);
            GithubCallback(store, req, replies, newId) == GithubCallback(store, legacy, replies, newId)
  {
  }

  /** A sign-in keeps the users well formed. */
  lemma SignInKeepsUsers(store: seq<User>, p: Provider, pid: string, email: string, name: string,
                         picture: string, newId: Id)
    requires p != Local && WellFormedUsers(store) && newId != ""
    ensures var r := SignIn(store, p, pid, email, name, picture, newId);
            r.Ok? ==> WellFormedUsers(r.value.0)
  {
    var r := SignIn(store, p, pid, email, name, picture, newId);
    if r.Ok? {
      var created := NewAccount(store, p, pid, email, name, picture, newId);
      var found := FindEither(store, p, pid, email);
      var u := if found.Some? then Link(store[found.value], p, pid, picture) else created;
      assert u.id != "";
      if found.Some? {
        assert r.value.0 == Persist(store, u).value;
        PersistKeepsUsers(store, u);
      } else {
        assert r.value.0 == Insert(store, u).value;
        InsertKeepsUsers(store, u);
      }
    }
  }

  /** The e-mail clause can find an account other than the one that holds
      the provider id; linking that account then duplicates the id, and the
      unique index rejects the save (500). */
  lemma LinkCanCollide()
    ensures var b := User("b1", "Bo", "b@x.io", None, Local, "", "", "", "", None, false);
            var a := User("a1", "Al", "a@x.io", None, Github, "", "42", "", "", None, false);
            SignIn([b, a], Github, "42", "b@x.io", "Bo", "", "n1") == Fail(500, "E11000 duplicate key error")
  {
    var b := User("b1", "Bo", "b@x.io", None, Local, "", "", "", "", None, false);
    var a := User("a1", "Al", "a@x.io", None, Github, "", "42", "", "", None, false);
    assert ToLower("b@x.io") == "b@x.io";
    assert FindEither([b, a], Github, "42", "b@x.io") == Some(0);
    var linked := Link(b, Github, "42", "");
    assert linked.githubId == "42";
    assert IsTrimmed("Bo") && IsLower("b@x.io");
    assert Clashes([b, a], linked) by {
      assert [b, a][1].id != linked.id && [b, a][1].githubId == linked.githubId;
    }
  }
}

=== FILE: seqs.dfy ===
/** Keyed lists: the arrays of sub-documents and ids that the handlers search
    with `find`, `some` or `includes` and prune with `filter`. The key of an
    element is its user id, its own id, or the id itself for a roster. */
module Seqs {
  import opened Common

  /** Some element of `s` has key `k` (`some`, `includes`). */
  predicate HasKey<T>(s: seq<T>, key: T -> Id, k: Id) {
    exists i :: 0 <= i < |s| && key(s[i]) == k
  }

  /** No two elements of `s` share a key. */
  predicate UniqueKeys<T>(s: seq<T>, key: T -> Id) {
    forall i, j :: 0 <= i < j < |s| ==> key(s[i]) != key(s[j])
  }

  /** The index of the first element with key `k` (`find`). */
  function FindKey<T>(s: seq<T>, key: T -> Id, k: Id): (r: Option<nat>)
    ensures r.None? <==> !HasKey(s, key, k)
    ensures r.Some? ==> r.value < |s| && key(s[r.value]) == k
    ensures r.Some? ==> forall j :: 0 <= j < r.value ==> key(s[j]) != k
  {
    if |s| == 0 then None
    else if key(s[0]) == k then Some(0)
    else match FindKey(s[1..], key, k)
      case None => None
      case Some(j) => Some(j + 1)
  }

  /** The elements whose key is not `k`, in their original order
      (`filter(x => key(x) !== k)`). */
  function RemoveKey<T(==)>(s: seq<T>, key: T -> Id, k: Id): (r: seq<T>)
    ensures |r| <= |s|
    ensures !HasKey(r, key, k)
    ensures forall i :: 0 <= i < |r| ==> r[i] in s && key(r[i]) != k
    ensures forall i :: 0 <= i < |s| && key(s[i]) != k ==> s[i] in r
  {
    if |s| == 0 then []
    else (if key(s[0]) == k then [] else [s[0]]) + RemoveKey(s[1..], key, k)
  }

  /** Filtering keeps every other element as many times as it occurred and
      drops every occurrence of the key. */
  lemma {:induction false} RemoveKeyCounts<T>(s: seq<T>, key: T -> Id, k: Id)
    ensures forall x :: multiset(RemoveKey(s, key, k))[x] == if key(x) == k then 0 else multiset(s)[x]
    decreases |s|
  {
    if |s| > 0 {
      RemoveKeyCounts(s[1..], key, k);
      assert s == [s[0]] + s[1..];
    }
  }

  /** Filtering distributes over concatenation: the kept elements stay in
      their original relative order. */
  lemma {:induction false} RemoveKeyAppend<T>(a: seq<T>, b: seq<T>, key: T -> Id, k: Id)
    ensures RemoveKey(a + b, key, k) == RemoveKey(a, key, k) + RemoveKey(b, key, k)
    decreases |a|
  {
    if |a| == 0 {
      assert a + b == b;
    } else {
      assert (a + b)[1..] == a[1..] + b;
      RemoveKeyAppend(a[1..], b, key, k);
    }
  }

  /** Filtering out a key that does not occur changes nothing. */
  lemma {:induction false} RemoveKeyAbsent<T>(s: seq<T>, key: T -> Id, k: Id)
    requires !HasKey(s, key, k)
    ensures RemoveKey(s, key, k) == s
    decreases |s|
  {
    if |s| > 0 {
      assert key(s[0]) != k;
      assert !HasKey(s[1..], key, k) by {
        forall i | 0 <= i < |s[1..]| ensures key(s[1..][i]) != k {
          assert s[1..][i] == s[i + 1];
        }
      }
      RemoveKeyAbsent(s[1..], key, k);
    }
  }

  /** Appending an element and then filtering its (fresh) key out gives back
      the original list. */
  lemma RemoveAfterAppend<T>(s: seq<T>, key: T -> Id, x: T)
    requires !HasKey(s, key, key(x))
    ensures RemoveKey(s + [x], key, key(x)) == s
  {
    RemoveKeyAppend(s, [x], key, key(x));
    RemoveKeyAbsent(s, key, key(x));
    assert RemoveKey([x], key, key(x)) == [];
  }

  /** Appending an element whose key is absent keeps the keys unique. */
  lemma AppendKeepsUnique<T>(s: seq<T>, key: T -> Id, x: T)
    requires UniqueKeys(s, key)
    requires !HasKey(s, key, key(x))
    ensures UniqueKeys(s + [x], key)
  {
    var t := s + [x];
    forall i, j | 0 <= i < j < |t| ensures key(t[i]) != key(t[j]) {
      if j == |s| {
        assert t[i] == s[i];
      } else {
        assert t[i] == s[i] && t[j] == s[j];
      }
    }
  }

  /** Filtering keeps the keys unique. */
  lemma {:induction false} RemoveKeyKeepsUnique<T>(s: seq<T>, key: T -> Id, k: Id)
    requires UniqueKeys(s, key)
    ensures UniqueKeys(RemoveKey(s, key, k), key)
    decreases |s|
  {
    if |s| > 0 {
      TailKeepsUnique(s, key);
      RemoveKeyKeepsUnique(s[1..], key, k);
      var rest := RemoveKey(s[1..], key, k);
      if key(s[0]) != k {
        assert forall y :: y in rest ==> key(y) != key(s[0]) by {
          forall y | y in rest ensures key(y) != key(s[0]) {
            var m :| 0 <= m < |rest| && rest[m] == y;
            assert rest[m] in s[1..];
          }
        }
        ConsKeepsUnique(s[0], rest, key);
      } else {
        assert RemoveKey(s, key, k) == [] + rest;
      }
    }
  }

  /** The tail of a list with unique keys has unique keys, none of them the
      head's. */
  lemma TailKeepsUnique<T>(s: seq<T>, key: T -> Id)
    requires |s| > 0 && UniqueKeys(s, key)
    ensures UniqueKeys(s[1..], key)
    ensures forall y :: y in s[1..] ==> key(y) != key(s[0])
  {
    forall i, j | 0 <= i < j < |s[1..]| ensures key(s[1..][i]) != key(s[1..][j]) {
      assert s[1..][i] == s[i + 1] && s[1..][j] == s[j + 1];
    }
    forall y | y in s[1..] ensures key(y) != key(s[0]) {
      var m :| 0 <= m < |s[1..]| && s[1..][m] == y;
      assert s[m + 1] == y;
    }
  }

  /** Putting an element in front of a list with unique keys, none of them
      its own, keeps the keys unique. */
  lemma ConsKeepsUnique<T>(x: T, s: seq<T>, key: T -> Id)
    requires UniqueKeys(s, key)
    requires forall y :: y in s ==> key(y) != key(x)
    ensures UniqueKeys([x] + s, key)
  {
    var t := [x] + s;
    forall i, j | 0 <= i < j < |t| ensures key(t[i]) != key(t[j]) {
      assert t[j] == s[j - 1];
      if i > 0 {
        assert t[i] == s[i - 1];
      } else {
        assert s[j - 1] in s;
      }
    }
  }

  /** Replacing an element by one with the same key keeps the keys unique
      and keeps every key where it was. */
  lemma UpdateKeepsUnique<T>(s: seq<T>, key: T -> Id, i: nat, x: T)
    requires i < |s| && key(x) == key(s[i])
    requires UniqueKeys(s, key)
    ensures UniqueKeys(s[i := x], key)
  {
    var t := s[i := x];
    forall a, b | 0 <= a < b < |t| ensures key(t[a]) != key(t[b]) {
      assert key(t[a]) == key(s[a]) && key(t[b]) == key(s[b]);
    }
  }
}

=== FILE: text.dfy ===
/** The JavaScript string operations the handlers rely on: `trim`, ASCII case
    mapping, `startsWith`, `indexOf` and the string form of `replace`. */
module Text {
  import opened Common

  /** The characters that `String.prototype.trim` strips and that `\s`
      matches in a regular expression: WhiteSpace and LineTerminator of
      ECMA-262. */
  predicate IsSpace(c: char) {
    var n := c as int;
    n == 0x09 || n == 0x0A || n == 0x0B || n == 0x0C || n == 0x0D || n == 0x20
    || n == 0xA0 || n == 0x1680 || (0x2000 <= n <= 0x200A) || n == 0x2028
    || n == 0x2029 || n == 0x202F || n == 0x205F || n == 0x3000 || n == 0xFEFF
  }

  predicate AllSpace(s: string) {
    forall i :: 0 <= i < |s| ==> IsSpace(s[i])
  }

  /** Neither starts nor ends with white space: what `trim` returns. */
  predicate IsTrimmed(s: string) {
    |s| == 0 || (!IsSpace(s[0]) && !IsSpace(s[|s| - 1]))
  }

  /** `s` without its leading white space. */
  function TrimStart(s: string): (r: string)
    ensures |r| <= |s| && r == s[|s| - |r|..]
    ensures AllSpace(s[..|s| - |r|])
    ensures |r| > 0 ==> !IsSpace(r[0])
  {
    if |s| > 0 && IsSpace(s[0]) then TrimStart(s[1..]) else s
  }

  /** `s` without its trailing white space. */
  function TrimEnd(s: string): (r: string)
    ensures |r| <= |s| && r == s[..|r|]
    ensures AllSpace(s[|r|..])
    ensures |r| > 0 ==> !IsSpace(r[|r| - 1])
  {
    if |s| > 0 && IsSpace(s[|s| - 1]) then TrimEnd(s[..|s| - 1]) else s
  }

  /** `String.prototype.trim`: `s` with the white space at both ends cut off. */
  function Trim(s: string): (r: string)
    ensures |r| <= |s|
    ensures IsTrimmed(r)
    ensures IsTrimmed(s) ==> r == s
  {
    var t := TrimStart(s);
    var r := TrimEnd(t);
    assert |r| > 0 ==> r[0] == t[0];
    r
  }

  /** Trimming leaves nothing exactly when the string is all white space. */
  lemma TrimEmptyIff(s: string)
    ensures Trim(s) == [] <==> AllSpace(s)
  {
    if AllSpace(s) {
      AllSpaceTrimsToEmpty(s);
    }
    if Trim(s) == [] {
      EmptyTrimIsAllSpace(s);
    }
  }

  lemma AllSpaceTrimsToEmpty(s: string)
    requires AllSpace(s)
    ensures Trim(s) == []
  {
    var t := TrimStart(s);
    assert AllSpace(t);
    assert Trim(s) == TrimEnd(t);
  }

  lemma EmptyTrimIsAllSpace(s: string)
    requires Trim(s) == []
    ensures AllSpace(s)
  {
    var t := TrimStart(s);
    var k := |s| - |t|;
    assert TrimEnd(t) == [];
    assert AllSpace(t) by {
      assert t[0..] == t;
    }
    assert |t| == 0;
    assert s[..k] == s;
  }

  /** ASCII lower-casing of one character, as `toLowerCase` does for ASCII. */
  function LowerChar(c: char): char {
    if 'A' <= c <= 'Z' then (c as int + 32) as char else c
  }

  /** ASCII upper-casing of one character, as `toUpperCase` does for ASCII. */
  function UpperChar(c: char): char {
    if 'a' <= c <= 'z' then (c as int - 32) as char else c
  }

  predicate IsLower(s: string) {
    forall i :: 0 <= i < |s| ==> !('A' <= s[i] <= 'Z')
  }

  /** `String.prototype.toLowerCase`, restricted to ASCII letters. */
  function ToLower(s: string): (r: string)
    ensures |r| == |s|
    ensures IsLower(r)
    ensures IsLower(s) ==> r == s
    ensures forall i :: 0 <= i < |s| && !('A' <= s[i] <= 'Z') ==> r[i] == s[i]
  {
    seq(|s|, i requires 0 <= i < |s| => LowerChar(s[i]))
  }

  predicate IsAsciiLetter(c: char) {
    'a' <= c <= 'z' || 'A' <= c <= 'Z'
  }

  predicate IsAsciiDigit(c: char) {
    '0' <= c <= '9'
  }

  predicate IsAsciiAlnum(c: char) {
    IsAsciiLetter(c) || IsAsciiDigit(c)
  }

  /** `\w` in a regular expression: `[A-Za-z0-9_]`. */
  predicate IsWordChar(c: char) {
    IsAsciiAlnum(c) || c == '_'
  }

  predicate StartsWith(s: string, prefix: string) {
    |prefix| <= |s| && s[..|prefix|] == prefix
  }

  /** A concatenated prefix is matched piece by piece. */
  lemma StartsWithConcat(s: string, p: string, q: string)
    ensures StartsWith(s, p + q) <==> StartsWith(s, p) && StartsWith(s[|p|..], q)
  {
    if StartsWith(s, p + q) {
      assert s[..|p|] == (p + q)[..|p|];
      assert s[|p|..][..|q|] == (p + q)[|p|..];
    }
    if StartsWith(s, p) && StartsWith(s[|p|..], q) {
      assert s[..|p + q|] == s[..|p|] + s[|p|..][..|q|];
    }
  }

  /** A string that starts with `p` agrees with `p` at each of its indices. */
  lemma PrefixChar(s: string, p: string, k: nat)
    requires k < |p|
    ensures StartsWith(s, p) ==> k < |s| && s[k] == p[k]
  {
    if StartsWith(s, p) {
      assert s[..|p|][k] == s[k];
    }
  }

  /** `pat` occurs in `s` starting at index `i`. */
  predicate OccursAt(s: string, pat: string, i: nat) {
    i + |pat| <= |s| && s[i..i + |pat|] == pat
  }

  /** The first occurrence of `pat` in `s` at or after index `from`. */
  function IndexOfFrom(s: string, pat: string, from: nat): (r: Option<nat>)
    requires from <= |s|
    decreases |s| - from
    ensures r.Some? ==> from <= r.value && OccursAt(s, pat, r.value)
    ensures r.Some? ==> forall j :: from <= j < r.value ==> !OccursAt(s, pat, j)
    ensures r.None? ==> forall j :: from <= j <= |s| ==> !OccursAt(s, pat, j)
  {
    if OccursAt(s, pat, from) then Some(from)
    else if from == |s| then None
    else IndexOfFrom(s, pat, from + 1)
  }

  /** `String.prototype.indexOf`, with None for -1. */
  function IndexOf(s: string, pat: string): Option<nat> {
    IndexOfFrom(s, pat, 0)
  }

  /** `s.replace(pat, rep)` with a string pattern: only the FIRST occurrence
      of `pat` is replaced; without one, `s` comes back unchanged. */
  function ReplaceFirst(s: string, pat: string, rep: string): (r: string)
    ensures (forall j :: 0 <= j <= |s| ==> !OccursAt(s, pat, j)) ==> r == s
    ensures forall i :: 0 <= i <= |s| && OccursAt(s, pat, i)
                        && (forall j :: 0 <= j < i ==> !OccursAt(s, pat, j))
                    ==> r == s[..i] + rep + s[i + |pat|..]
  {
    match IndexOf(s, pat)
    case None => s
    case Some(i) => s[..i] + rep + s[i + |pat|..]
  }
}

=== FILE: unmute_all.dfy ===
/** The maintenance script that lifts every mute in every channel and counts
    the entries it changed. */
module UnmuteAll {
  import opened Common
  import opened ChannelModel

  /** The number of entries with `canChat: false`. */
  function MutedCount(ms: seq<Member>): nat {
    if |ms| == 0 then 0
    else MutedCount(ms[..|ms| - 1]) + (if ms[|ms| - 1].canChat then 0 else 1)
  }

  function Sum(xs: seq<nat>): nat {
    if |xs| == 0 then 0 else Sum(xs[..|xs| - 1]) + xs[|xs| - 1]
  }

  /** What the script does to one entry: a muted one gets `canChat: true` and
      `mutedAt: null`, any other is left exactly as it was. */
  predicate UnmutedFrom(before: Member, after: Member) {
    && after.user == before.user
    && after.canChat
    && (before.canChat ==> after == before)
    && (!before.canChat ==> after.mutedAt == None)
  }

  /** The inner loop over one channel's members: returns the new member list
      and `channelUnmuted`. */
  method UnmuteMembers(ms: seq<Member>) returns (out: seq<Member>, unmuted: nat)
    ensures |out| == |ms|
    ensures forall i :: 0 <= i < |ms| ==> UnmutedFrom(ms[i], out[i])
    ensures unmuted == MutedCount(ms)
    ensures unmuted == 0 ==> out == ms
    ensures MutedCount(out) == 0
  {
    out := [];
    unmuted := 0;
    var i := 0;
    while i < |ms|
      invariant 0 <= i <= |ms|
      invariant |out| == i
      invariant forall k :: 0 <= k < i ==> UnmutedFrom(ms[k], out[k])
      invariant unmuted == MutedCount(ms[..i])
      invariant unmuted == 0 ==> out == ms[..i]
    {
      var m := ms[i];
      assert ms[..i + 1][..i] == ms[..i];
      if !m.canChat {
        out := out + [m.(canChat := true, mutedAt := None)];
        unmuted := unmuted + 1;
      } else {
        out := out + [m];
      }
      i := i + 1;
    }
    assert ms[..|ms|] == ms;
    NothingLeftToUnmute(out);
  }

  /** What the script does to one channel: only the member list changes,
      entry by entry as `UnmutedFrom` says, `count` is the number of muted
      entries, the channel is saved exactly when that is positive (an
      unsaved channel is untouched), and nobody is left muted. */
  predicate ChannelUnmuted(before: Channel, after: Channel, count: nat, saved: bool) {
    && after == before.(members := after.members)
    && |after.members| == |before.members|
    && (forall i :: 0 <= i < |before.members| ==> UnmutedFrom(before.members[i], after.members[i]))
    && count == MutedCount(before.members)
    && (saved <==> count > 0)
    && (!saved ==> after == before)
    && MutedCount(after.members) == 0
  }

  /** The outer loop over all channels: the channels as they end up, each
      channel's `channelUnmuted`, `totalUnmuted`, and which channels were
      saved (only those with something unmuted). */
  method UnmuteAllChannels(channels: seq<Channel>)
    returns (out: seq<Channel>, counts: seq<nat>, total: nat, saved: seq<bool>)
    ensures |out| == |channels| && |counts| == |channels| && |saved| == |channels|
    ensures forall c :: 0 <= c < |channels| ==> ChannelUnmuted(channels[c], out[c], counts[c], saved[c])
    ensures total == Sum(counts)
  {
    out, counts, saved := [], [], [];
    total := 0;
    var c := 0;
    while c < |channels|
      invariant 0 <= c <= |channels|
      invariant |out| == c && |counts| == c && |saved| == c
      invariant forall d :: 0 <= d < c ==> ChannelUnmuted(channels[d], out[d], counts[d], saved[d])
      invariant total == Sum(counts)
    {
      var ch := channels[c];
      var members, channelUnmuted := UnmuteMembers(ch.members);
      assert ChannelUnmuted(ch, ch.(members := members), channelUnmuted, channelUnmuted > 0);
      assert (counts + [channelUnmuted])[..c] == counts;
      out := out + [ch.(members := members)];
      counts := counts + [channelUnmuted];
      saved := saved + [channelUnmuted > 0];
      total := total + channelUnmuted;
      c := c + 1;
    }
  }

  /** A member list in which everyone may chat has nothing left to unmute,
      so a second run of the script saves nothing. */
  lemma {:induction false} NothingLeftToUnmute(ms: seq<Member>)
    requires forall i :: 0 <= i < |ms| ==> ms[i].canChat
    ensures MutedCount(ms) == 0
  {
    if |ms| > 0 {
      NothingLeftToUnmute(ms[..|ms| - 1]);
    }
  }
}

=== FILE: user_model.dfy ===
/** The User document: field constraints, the setters that normalise names
    and e-mail addresses, the password-hashing save hook, and the collection
    of users with its unique indexes. Password hashing is a parameter. */
module UserModel {
  import opened Common
  import opened Text
  import opened Seqs

  datatype Provider = Local | Google | Github

  /** A user. `password` holds the stored hash (`None` for an account made
      through a provider); `googleId`, `githubId`, `profileImage` and
      `resetToken` are "" when unset; `resetTokenExpires` is in milliseconds. */
  datatype User = User(
    id: Id,
    fullName: string,
    email: string,
    password: Option<string>,
    authProvider: Provider,
    googleId: string,
    githubId: string,
    profileImage: string,
    resetToken: string,
    resetTokenExpires: Option<int>,
    isAdmin: bool)

  function UserIdOf(u: User): Id {
    u.id
  }

  const MinNameLength := 2
  const MaxNameLength := 50
  const MinPasswordLength := 6

  /** The stored fields the schema checks on every save: `fullName` trimmed
      and 2..50 long, `email` present and lower-case. */
  predicate ValidUser(u: User) {
    && IsTrimmed(u.fullName) && MinNameLength <= |u.fullName| <= MaxNameLength
    && u.email != "" && IsLower(u.email)
  }

  /** A plain-text password as the validator sees it, before the save hook
      hashes it: at least 6 characters. */
  predicate ValidPlainPassword(p: string) {
    |p| >= MinPasswordLength
  }

  /** A new document as the constructor builds it: the `trim` and `lowercase`
      setters run, `authProvider` defaults to local and `isAdmin` to false
      unless given. */
  function Shape(id: Id, fullName: string, email: string, provider: Provider,
                 googleId: string, githubId: string, profileImage: string, isAdmin: bool): (u: User)
    ensures u.fullName == Trim(fullName) && u.email == ToLower(email)
    ensures u.password.None? && u.resetToken == "" && u.resetTokenExpires.None?
  {
    User(id, Trim(fullName), ToLower(email), None, provider, googleId, githubId,
         profileImage, "", None, isAdmin)
  }

  /** The pre-save hook: the password is hashed only when it was modified in
      this save and is non-empty. */
  function PreSave(u: User, modified: bool, hash: string -> string): (r: User)
    ensures r == u.(password := r.password)
    ensures !modified || u.password.None? || u.password.value == "" ==> r == u
    ensures modified && u.password.Some? && u.password.value != ""
            ==> r.password == Some(hash(u.password.value))
  {
    if modified && u.password.Some? && u.password.value != ""
    then u.(password := Some(hash(u.password.value)))
    else u
  }

  /** A save that does not touch the password leaves the stored hash alone,
      so it is never hashed twice. */
  lemma SavingKeepsHash(u: User, hash: string -> string)
    ensures PreSave(u, false, hash).password == u.password
  {
  }

  /** The stored hash is checked with the hashing function (`matchPassword`). */
  predicate MatchPassword(stored: string, entered: string, hash: string -> string) {
    hash(entered) == stored
  }

  /** Setting a password and then checking the same password succeeds. */
  lemma SetThenMatch(u: User, plain: string, hash: string -> string)
    requires plain != ""
    ensures var r := PreSave(u.(password := Some(plain)), true, hash);
            r.password.Some? && MatchPassword(r.password.value, plain, hash)
  {
  }

  /** Assigning a new plain-text password and saving: the validator sees the
      plain text (at least 6 characters, else the save throws, 500), then the
      hook stores its hash. */
  function WithPassword(u: User, plain: string, hash: string -> string): (r: Result<User>)
    ensures r.Ok? <==> ValidPlainPassword(plain)
    ensures r.Fail? ==> r.status == 500
    ensures r.Ok? ==> r.value == u.(password := Some(hash(plain)))
  {
    if !ValidPlainPassword(plain) then Fail(500, "User validation failed: password is shorter than the minimum allowed length (6)")
    else Ok(PreSave(u.(password := Some(plain)), true, hash))
  }

  // ---------------------------------------------------------------------
  // The collection

  /** The unique indexes: `_id`, `email`, and the sparse `googleId` and
      `githubId` (unique among the users that have one). */
  predicate UniqueAccounts(store: seq<User>) {
    forall i, j :: 0 <= i < j < |store| ==>
      && store[i].id != store[j].id
      && store[i].email != store[j].email
      && (store[i].googleId != "" ==> store[i].googleId != store[j].googleId)
      && (store[i].githubId != "" ==> store[i].githubId != store[j].githubId)
  }

  predicate WellFormedUsers(store: seq<User>) {
    UniqueAccounts(store) && forall i :: 0 <= i < |store| ==> ValidUser(store[i]) && store[i].id != ""
  }

  /** `User.findOne({ email })`; the `lowercase` setter applies to the query. */
  function FindByEmail(store: seq<User>, email: string): (r: Option<User>)
    ensures r.Some? ==> r.value in store && r.value.email == ToLower(email)
    ensures r.None? ==> forall i :: 0 <= i < |store| ==> store[i].email != ToLower(email)
  {
    if |store| == 0 then None
    else if store[0].email == ToLower(email) then Some(store[0])
    else FindByEmail(store[1..], email)
  }

  /** `User.findById(id)`. */
  function FindById(store: seq<User>, id: Id): (r: Option<User>)
    ensures r.Some? ==> r.value in store && r.value.id == id
    ensures r.None? ==> !HasKey(store, UserIdOf, id)
  {
    match FindKey(store, UserIdOf, id)
    case None => None
    case Some(i) => Some(store[i])
  }

  /** Another stored user already holds one of `u`'s unique values. */
  predicate Clashes(store: seq<User>, u: User) {
    exists i :: 0 <= i < |store| && store[i].id != u.id &&
      (store[i].email == u.email
       || (u.googleId != "" && store[i].googleId == u.googleId)
       || (u.githubId != "" && store[i].githubId == u.githubId))
  }

  /** `after` is `before` with `u` written: `u` is there, every stored user
      with another id is kept, and nothing else has been added. */
  predicate Written(before: seq<User>, after: seq<User>, u: User) {
    && u in after
    && (forall i :: 0 <= i < |before| && before[i].id != u.id ==> before[i] in after)
    && (forall i :: 0 <= i < |after| ==> after[i] in before || after[i] == u)
  }

  /** Writing a user: validation failures and duplicate keys are thrown and
      reported as 500; otherwise the user replaces the stored one with the
      same id, or is appended. */
  function Persist(store: seq<User>, u: User): (r: Result<seq<User>>)
    ensures r.Ok? <==> ValidUser(u) && !Clashes(store, u)
    ensures r.Fail? ==> r.status == 500
    ensures r.Ok? ==> Written(store, r.value, u)
  {
    if !ValidUser(u) then Fail(500, "User validation failed")
    else if Clashes(store, u) then Fail(500, "E11000 duplicate key error")
    else match FindKey(store, UserIdOf, u.id)
      case None => Ok(store + [u])
      case Some(i) =>
        var s := store[i := u];
        assert s[i] == u;
        assert forall j :: 0 <= j < |store| && store[j].id != u.id ==> s[j] == store[j];
        Ok(s)
  }

  /** Writing keeps the unique indexes and the field constraints. */
  lemma PersistKeepsUsers(store: seq<User>, u: User)
    requires WellFormedUsers(store) && u.id != ""
    ensures Persist(store, u).Ok? ==> WellFormedUsers(Persist(store, u).value)
  {
    if Persist(store, u).Ok? {
      var s := Persist(store, u).value;
      match FindKey(store, UserIdOf, u.id)
      case None =>
        assert s == store + [u];
        forall i, j | 0 <= i < j < |s|
          ensures s[i].id != s[j].id && s[i].email != s[j].email
          ensures s[i].googleId != "" ==> s[i].googleId != s[j].googleId
          ensures s[i].githubId != "" ==> s[i].githubId != s[j].githubId
        {
          if j == |store| {
            assert s[i] == store[i];
            assert store[i].id != u.id;
          }
        }
      case Some(k) =>
        assert s == store[k := u];
        forall i, j | 0 <= i < j < |s|
          ensures s[i].id != s[j].id && s[i].email != s[j].email
          ensures s[i].googleId != "" ==> s[i].googleId != s[j].googleId
          ensures s[i].githubId != "" ==> s[i].githubId != s[j].githubId
        {
          if i == k {
            assert store[j].id != u.id;
          } else if j == k {
            assert store[i].id != u.id;
          }
        }
    }
  }

  /** In a collection with unique addresses, the lookup finds the one user
      that holds the lower-cased address. */
  lemma FindsUniqueAddress(store: seq<User>, k: nat, email: string)
    requires UniqueAccounts(store) && k < |store| && store[k].email == ToLower(email)
    ensures FindByEmail(store, email) == Some(store[k])
  {
    var f := FindByEmail(store, email);
    var j :| 0 <= j < |store| && store[j] == f.value;
    assert store[j].email == store[k].email;
  }

  /** `User.create`: a new document is inserted. Validation failures and
      duplicate keys, the `_id` among them, are thrown and reported as 500;
      otherwise the user is appended and every stored user is kept. */
  function Insert(store: seq<User>, u: User): (r: Result<seq<User>>)
    ensures r.Ok? <==> ValidUser(u) && !HasKey(store, UserIdOf, u.id) && !Clashes(store, u)
    ensures r.Fail? ==> r.status == 500
    ensures r.Ok? ==> |r.value| == |store| + 1 && r.value[..|store|] == store && r.value[|store|] == u
  {
    if !ValidUser(u) then Fail(500, "User validation failed")
    else if HasKey(store, UserIdOf, u.id) || Clashes(store, u) then Fail(500, "E11000 duplicate key error")
    else Ok(store + [u])
  }

  /** An insertion is the save of a user whose id nobody holds; so it
      writes the user, keeps everyone else, and keeps the indexes unique. */
  lemma InsertIsFreshPersist(store: seq<User>, u: User)
    ensures Insert(store, u).Ok? <==> !HasKey(store, UserIdOf, u.id) && Persist(store, u).Ok?
    ensures Insert(store, u).Ok? ==> Insert(store, u) == Persist(store, u) && Written(store, Insert(store, u).value, u)
  {
    if !HasKey(store, UserIdOf, u.id) {
      assert FindKey(store, UserIdOf, u.id).None?;
    }
  }

  /** Inserting keeps the unique indexes and the field constraints. */
  lemma InsertKeepsUsers(store: seq<User>, u: User)
    requires WellFormedUsers(store) && u.id != ""
    ensures Insert(store, u).Ok? ==> WellFormedUsers(Insert(store, u).value)
  {
    InsertIsFreshPersist(store, u);
    PersistKeepsUsers(store, u);
  }

  /** A stored user of a well-formed collection, changed in fields that no
      index or validator looks at, still validates and clashes with nobody. */
  lemma StoredUserFits(store: seq<User>, i: nat, v: User)
    requires WellFormedUsers(store) && i < |store|
    requires v.id == store[i].id && v.fullName == store[i].fullName && v.email == store[i].email
    requires v.googleId == store[i].googleId && v.githubId == store[i].githubId
    ensures ValidUser(v) && !Clashes(store, v)
  {
    forall k | 0 <= k < |store| && k != i
      ensures store[k].email != v.email
      ensures v.googleId != "" ==> store[k].googleId != v.googleId
      ensures v.githubId != "" ==> store[k].githubId != v.githubId
    {
      if k < i {
        assert UniqueAccounts(store);
      }
    }
  }

  /** The same for the user an address finds. */
  lemma FoundUserFits(store: seq<User>, email: string, v: User)
    requires WellFormedUsers(store) && FindByEmail(store, email).Some?
    requires var u := FindByEmail(store, email).value;
             v.id == u.id && v.fullName == u.fullName && v.email == u.email
             && v.googleId == u.googleId && v.githubId == u.githubId
    ensures ValidUser(v) && !Clashes(store, v)
  {
    var i :| 0 <= i < |store| && store[i] == FindByEmail(store, email).value;
    StoredUserFits(store, i, v);
  }
}
